=== FILE: README.md ===
# Performance-evaluation console — a Dafny model of its logic

The console is a browser application for government performance evaluation.
It has an indicator library (a category tree of metric definitions), an
evaluation-model editor (a three-step wizard that attaches indicators to a
model, gives each a weight and a scoring rule, and sets grade levels), a data
channel (connections to external sources and an archive of collected
records), and an application shell with a sidebar menu. All of its state
changes are pure: each handler replaces a list or a tree with a new one. This
project models those handlers as Dafny functions over immutable datatypes and
proves what they promise.

Modules, one file each:

- `Common` (common.dfy): `Option` and the JavaScript truthiness rules the
  console relies on (`x || d`, `if (x)`).
- `Lists` (lists.dfy): `Array.filter`, conditional `Array.map`, `join`, and
  order-preserving subsequences. These are shared by every list handler.
- `NumText` (numtext.dfy): integers as decimal text, and a reader that
  recovers them.
- `Types` (types.dfy): the records of `types.ts`.
- `RuleText` (rule_text.dfy): the scoring-rule description shown in the model
  editor (`getSmartInterpretation`), the content each description is meant
  to show (`ViewOf`), and a parser proving that the text determines that
  content.
- `RuleEval` (rule_eval.dfy): the RATIO, DEDUCTION and BONUS formulas the
  editor labels. No code evaluates a rule; see "Left out".
- `ModelConfigs` (model_configs.dfy): the editor's list of per-indicator
  configurations. Covers the total weight, adding, removing, patching, the
  rule-parameter merge, the threshold and grade-map lists, and the evidence
  switches.
- `ModelEditor` (model_editor.dfy): the model list and the wizard. Covers
  create, edit, save as an upsert, delete, copy, grade levels and steps.
- `CategoryTree` (category_tree.dfy): toggle, add a child, rename, delete with
  the subtree, and the pre-order flatten. The flatten is also given as an
  explicit-stack loop.
- `IndicatorLibrary` (indicator_library.dfy): the category modal, deleting a
  category with the current selection, the indicator save guard, and
  inserting text at the script caret.
- `DataChannel` (data_channel.dfy): the archive filter, saving and deleting
  connections, the connection modal's id/status rule, and status labels.
- `AppShell` (app_shell.dfy): sidebar expansion, menu clicks, the breadcrumb
  and the view dispatch.

Conventions:

- Numbers are `int`.
- An optional field is `Option`.
- `x || d` on a number or string falls back on `undefined`, `0` and `""`.
  `!== undefined` is `Some?`.
- Destructuring defaults (`{ a = 1 } = obj`) apply only to an absent field
  (`GetOr`).
- `${undefined}` renders as the text `undefined`.
- Clocks, `confirm`, `alert` and random outcomes are parameters:
  - `now`: the value of `Date.now()`;
  - `today`: the date string;
  - `freshId`: an id built from the clock;
  - `confirmed`: the answer to `confirm`;
  - the connection test outcome.

Where the documentation and the code disagree, the model follows the code:

- The RATIO formula comment in `types.ts:84` (value / target × full score ×
  coefficient) disagrees with the editor's labels (`ModelManagement.tsx:692-694`:
  value × coefficient, or base − value × coefficient). `RuleEval.RatioScore`
  follows the editor.
- The BONUS comment (`types.ts:101`) divides by a step that no field holds.
  The model pays per unit above the trigger, as the editor's fields and
  labels say.
- `types.ts:115` says `requireEvidence` needs `enableEvidence`. The editor
  does not keep that invariant; see "Findings".

## Model

| member | source | states |
|---|---|---|
| RuleText.Interpretation | components/ModelManagement.tsx:518-520 | the description is empty exactly when the rule kind or the rule parameters are missing |
| RuleText.InterpretationRoundTrip | components/ModelManagement.tsx:518-546 | parsing a description gives back its content: every band (operator, values, the second value only for `range`, score) for THRESHOLD; base and coefficient with their `\|\|` defaults, the floor when defined and the ceiling when truthy for RATIO; name/score pairs for GRADE_MAP; the defaulted base, per-unit amount and floor for DEDUCTION; the three raw BONUS values, `undefined` included |
| RuleText.SameDescriptionSameView | components/ModelManagement.tsx:518-546 | two configurations with the same description mean the same rule content, so the text loses nothing the editor shows |
| RuleText.ThresholdRoundTrip | components/ModelManagement.tsx:524-531 | bands render as `[i+1] 指标值 …` joined by `; `; a missing or empty list renders `暂无阈值配置`; the band list is recovered from the text |
| RuleText.ReadBandsRoundTrip | components/ModelManagement.tsx:525-530 | the joined band texts parse back to the bands, numbered from any starting index |
| RuleText.ReadBandRoundTrip | components/ModelManagement.tsx:526-529 | one band text parses back to its operator, values and score, with `v1 ~ v2` for `range` |
| RuleText.ReadConditionRoundTrip | components/ModelManagement.tsx:526-528 | the condition part (`op v1` or `v1 ~ v2`) parses back when a space follows it |
| RuleText.GradeMapRoundTrip | components/ModelManagement.tsx:537-539 | the `文本映射：` text gives back the name/score pairs; a missing or empty list renders `暂无映射` |
| RuleText.ReadGradePairsRoundTrip | components/ModelManagement.tsx:538 | pairs `name=score分` joined by `，` parse back to the pairs when no name contains `=` |
| RuleText.ReadRatioDeductionRoundTrip | components/ModelManagement.tsx:533-535 | the deduction RATIO text gives back `ratioBase \|\| 100`, `ratioCoefficient \|\| 1` and the floor when defined |
| RuleText.ReadRatioProportionalRoundTrip | components/ModelManagement.tsx:536 | the proportional RATIO text gives back `ratioCoefficient \|\| 1`, the floor when defined (0 included) and the ceiling only when truthy |
| RuleText.ReadDeductionRoundTrip | components/ModelManagement.tsx:540-541 | the DEDUCTION text gives back `deductionBase \|\| 10`, `deductionPerUnit \|\| 1` and the floor when defined |
| RuleText.ReadBonusRoundTrip | components/ModelManagement.tsx:542-543 | the BONUS text gives back trigger, per-unit and cap as given, absent ones included |
| NumText.ReadIntRoundTrip | components/ModelManagement.tsx:528 | a number interpolated into a description is read back exactly when the next character is not a digit |
| NumText.IntToStringInjective | components/ModelManagement.tsx:528 | different numbers print differently |
| RuleEval.RatioScore | components/ModelManagement.tsx:670-695 | the RATIO score is never below the floor, and never above the ceiling of a proportional rule. A deduction rule gives exactly base − value × coefficient unless that is below the floor, and then exactly the floor. A proportional rule gives exactly value × coefficient inside the bounds, exactly the ceiling above it, and exactly the floor below it. Absent parameters take the editor's defaults (coefficient 1, base 100) |
| RuleEval.RatioProportionalMonotone | components/ModelManagement.tsx:692-693 | with a non-negative coefficient a larger value never scores lower under a proportional rule |
| RuleEval.RatioDeductionAntitone | components/ModelManagement.tsx:694 | with a non-negative coefficient a larger value never scores higher under a deduction rule |
| RuleEval.Clamp | types.ts:88-89 | floor and ceiling bound the result; a score inside both is untouched |
| RuleEval.DeductionScore | components/ModelManagement.tsx:781-786 | the score is base − count × per-unit, or the floor when that is lower; never below the floor (the editor's defaults 10, 1, 0) |
| RuleEval.DeductionNonIncreasing | types.ts:95-98 | more violations never raise the score when each one costs a non-negative amount |
| RuleEval.BonusExtra | components/ModelManagement.tsx:821-826 | no extra points below the trigger. From the trigger on, exactly (value − trigger) × per-unit when that is within the cap, and exactly the cap otherwise (the editor's defaults 100, 1, 5) |
| RuleEval.BonusBounded | types.ts:101-104 | with non-negative per-unit points and cap, the extra points lie between 0 and the cap |
| RuleEval.BonusMonotone | types.ts:101-104 | with non-negative per-unit points and cap, a larger value never earns a smaller bonus |
| ModelConfigs.TotalWeightSplit | components/ModelManagement.tsx:483 | the total of `weight \|\| 0` is the total of the kept configurations plus that of the others, for any split |
| ModelConfigs.TotalWeightAppend | components/ModelManagement.tsx:483 | the total weight of two lists together is the sum of their totals |
| ModelConfigs.TotalWeightBounds | components/ModelManagement.tsx:483 | the empty list totals 0 and one configuration totals its `weight \|\| 0`; with every weight in 0..100, the total lies between 0 and 100 per configuration |
| ModelConfigs.FindSelected | components/ModelManagement.tsx:479 | the result is the first configuration whose id is the selected id, and it is absent exactly when no configuration has that id |
| ModelConfigs.ConfirmAddIndicators | components/ModelManagement.tsx:551-575 | existing configurations stay first and unchanged; each appended one is the default (weight 0, max score 10, THRESHOLD, no bands, evidence off) for a picked id not yet present; every picked id is present afterwards; ids that were unique stay unique; the total weight is unchanged; the first addition is selected only when nothing was selected |
| ModelConfigs.NewConfigs | components/ModelManagement.tsx:553-567 | the new configurations' ids are exactly the picked ids absent from the list, in order |
| ModelConfigs.RemoveIndicator | components/ModelManagement.tsx:587-594 | no configuration of the id remains, all others remain in order. The selection changes only when the removed configuration was selected: then it moves to the first remaining configuration when that has a non-empty id, and is cleared when none remains or the first has the empty id (`\|\| null`) |
| ModelConfigs.RemoveIndicatorKeepsOthers | components/ModelManagement.tsx:587-590 | every configuration of another indicator stays as often as it occurred, and none of the id stays |
| ModelConfigs.RemoveIndicatorWeight | components/ModelManagement.tsx:589 | removing an indicator takes exactly its weight off the total |
| ModelConfigs.UpdateActiveConfig | components/ModelManagement.tsx:596-601 | only the selected configuration is patched, the others and all ids are unchanged; with no selection nothing changes |
| ModelConfigs.ApplyPatchLaws | components/ModelManagement.tsx:599 | an empty patch changes nothing, a patch applied twice is applied once, and two patches in a row are their merge |
| ModelConfigs.UpdateKeepsTotalWeight | components/ModelManagement.tsx:596-601 | a patch that sets no weight keeps the total weight |
| ModelConfigs.FindAfterUpdate | components/ModelManagement.tsx:596-601 | the selected configuration found after a patch is the old one patched |
| ModelConfigs.WeightRangeKept | types.ts:109 | adding defaults, removing, and patching with an in-range weight keep every weight within 0..100 |
| ModelConfigs.UpdateRuleConfig | components/ModelManagement.tsx:603-608 | without a selected configuration nothing changes; otherwise the selected one's rule parameters become the shallow merge of the update over the old ones, nothing else changes, and the total weight is kept |
| ModelConfigs.MergeRuleLaws | components/ModelManagement.tsx:606 | merging an empty update changes nothing, merging twice equals merging once, and merges compose |
| ModelConfigs.AddThreshold | components/ModelManagement.tsx:612-617 | the selected rule's bands gain one band `<= 80` scoring 0 at the end. Every selected configuration changes in its rule parameters only, to that rule with the new list, and every other configuration is unchanged |
| ModelConfigs.RemoveThreshold | components/ModelManagement.tsx:618-620 | the selected rule's bands lose every band with the id, and the rest keep their order. Every selected configuration changes in its rule parameters only, to that rule with the new list, and every other configuration is unchanged |
| ModelConfigs.UpdateThreshold | components/ModelManagement.tsx:621-623 | one field of the bands with the id changes, and every other band is unchanged. Every selected configuration changes in its rule parameters only, to that rule with the new list, and every other configuration is unchanged |
| ModelConfigs.RemoveAddedThreshold | components/ModelManagement.tsx:614-620 | removing a band just added with a fresh id restores the band list |
| ModelConfigs.RemoveEditedThreshold | components/ModelManagement.tsx:618-623 | removing a band after editing it is removing it outright |
| ModelConfigs.AddGradeMapItem | components/ModelManagement.tsx:747-748 | the selected rule's mapping gains one empty pair scoring 0 at the end. Every selected configuration changes in its rule parameters only, to that rule with the new list, and every other configuration is unchanged |
| ModelConfigs.RemoveGradeMapItem | components/ModelManagement.tsx:749 | the mapping loses every pair with the id, and the rest keep their order. Every selected configuration changes in its rule parameters only, to that rule with the new list, and every other configuration is unchanged |
| ModelConfigs.UpdateGradeMapItem | components/ModelManagement.tsx:750 | one field of the pairs with the id changes, and every other pair is unchanged. Every selected configuration changes in its rule parameters only, to that rule with the new list, and every other configuration is unchanged |
| ModelConfigs.RemoveAddedGradeMapItem | components/ModelManagement.tsx:748-749 | removing a pair just added with a fresh id restores the mapping |
| ModelConfigs.RemoveEditedGradeMapItem | components/ModelManagement.tsx:749-750 | removing a pair after editing it is removing it outright |
| ModelConfigs.SetEvidenceEnabledAsWritten | components/ModelManagement.tsx:1151 | the evidence switch changes only `enableEvidence` of the selected configuration |
| ModelConfigs.EvidenceRequiredAfterDisable | components/ModelManagement.tsx:1151 | a configuration requiring evidence still requires it after evidence is switched off |
| ModelConfigs.SetEvidenceEnabled | types.ts:115 | switching evidence sets `enableEvidence` on every selected configuration, and switching it off also clears `requireEvidence`. No other field and no other configuration changes |
| ModelConfigs.SetEvidenceRequired | components/ModelManagement.tsx:1163 | the mandatory switch sets `requireEvidence` of the selected configuration |
| ModelConfigs.EvidenceStaysConsistent | types.ts:115 | with the corrected switch, "required implies enabled" holds after either switch whenever it held before |
| ModelEditor.CreateModel | components/ModelManagement.tsx:294-308 | the editor opens at step 0 on a fresh draft: name "", version V1.0, scoring WEIGHTED, no indicators, the four default grade levels, grade levels enabled, no tags, empty description; nothing is being edited and the list is unchanged |
| ModelEditor.EditModel | components/ModelManagement.tsx:310-315 | the editor opens at step 0 on a copy of the model, with every field of the form (name, version, tags, description, scoring method, indicators, grade levels, grade-level switch) the model's own, and the model is remembered as the one being edited |
| ModelEditor.SavedModel | components/ModelManagement.tsx:378-384 | the saved model is the draft with the given id, today's date, status active, and version `V1.0` when the draft's is empty |
| ModelEditor.SaveModel | components/ModelManagement.tsx:366-391 | an empty name blocks saving and changes nothing; creating appends one model; editing keeps the length and replaces exactly the models with the edited id |
| ModelEditor.SaveBlockedOnlyByName | components/ModelManagement.tsx:366-367 | from the editor, saving returns to the list exactly when the name is non-empty |
| ModelEditor.EditThenSaveUnchanged | components/ModelManagement.tsx:310-391 | opening a model and saving it untouched on its own date leaves the model list as it was |
| ModelEditor.CreateThenSave | components/ModelManagement.tsx:294-391 | creating and saving a named model appends one active V1.0 model with the fresh id |
| ModelEditor.DeleteModel | components/ModelManagement.tsx:317-322 | after confirmation no model with the id remains and the others keep their order; without it nothing changes |
| ModelEditor.DeleteModelKeepsOthers | components/ModelManagement.tsx:317-322 | after confirmation every model with another id stays as often as it occurred, and none with the id stays |
| ModelEditor.CopyModel | components/ModelManagement.tsx:324-335 | one model is appended: the original with a fresh id, ` (副本)` after the name, version V1.0, status active and today's date; every other field, description and grade-level switch included, is the original's |
| ModelEditor.DeleteCopy | components/ModelManagement.tsx:317-335 | deleting a copy just made gives back the list |
| ModelEditor.AddGradeLevel | components/ModelManagement.tsx:1281-1290 | one level `新等级` 0–10 `#94a3b8` is appended, the rest of the draft is unchanged |
| ModelEditor.RemoveGradeLevel | components/ModelManagement.tsx:1292-1294 | no level with the id remains, the others keep their order |
| ModelEditor.RemoveGradeLevelKeepsOthers | components/ModelManagement.tsx:1292-1294 | every level with another id stays as often as it occurred, and none with the id stays |
| ModelEditor.UpdateGradeLevel | components/ModelManagement.tsx:1276-1279 | one field of the levels with the id changes, every other level is unchanged |
| ModelEditor.RemoveAddedGradeLevel | components/ModelManagement.tsx:1281-1294 | removing a level just added with a fresh id restores the draft |
| ModelEditor.RemoveEditedGradeLevel | components/ModelManagement.tsx:1276-1294 | removing a level after editing it is removing it outright |
| ModelEditor.NextStep | components/ModelManagement.tsx:393-396 | before the last step the wizard advances by one; at the last step it is exactly the save, so a named new draft is appended as a model and the list view returns; the step stays within 0..2 |
| ModelEditor.PrevStep | components/ModelManagement.tsx:398-400 | the wizard goes back except from step 0, and stays within 0..2 |
| ModelEditor.NextPrevInverse | components/ModelManagement.tsx:393-400 | back undoes next before the last step, and next undoes back after the first |
| CategoryTree.Toggle | components/IndicatorLibrary.tsx:464-470 | at each level, a node carrying the id becomes the node with flag `!isOpen` (children untouched), and every other node keeps its flag |
| CategoryTree.ToggleAtDepth | components/IndicatorLibrary.tsx:464-470 | at any depth whose ancestors do not carry the id, a node with the id is flipped, and any other node keeps its flag while its children are toggled in turn |
| CategoryTree.ToggleKeepsShape | components/IndicatorLibrary.tsx:464-470 | a toggle changes flags only: with flags erased the forest is the same, and so are its ids in pre-order |
| CategoryTree.ToggleAbsent | components/IndicatorLibrary.tsx:464-470 | toggling an id no node carries leaves the forest as it was |
| CategoryTree.ToggleTwice | components/IndicatorLibrary.tsx:464-470 | toggling twice restores the tree when the toggled flags were defined |
| CategoryTree.ToggleThrice | components/IndicatorLibrary.tsx:464-470 | toggling three times is toggling once, whatever the flags |
| CategoryTree.AddNode | components/IndicatorLibrary.tsx:472-482 | at each level, a node carrying the parent id gets the new node as last child and is opened; every other node keeps its id, name and flag |
| CategoryTree.AddNodeAtDepth | components/IndicatorLibrary.tsx:472-482 | at any depth whose ancestors do not carry the parent id, a node with that id gets the child appended and is opened, and any other node keeps its fields while its children are visited in turn |
| CategoryTree.AddNodeAbsent | components/IndicatorLibrary.tsx:472-482 | adding under a parent id no node carries leaves the forest as it was |
| CategoryTree.AddNodeKeepsIds | components/IndicatorLibrary.tsx:472-482 | every id of the forest survives an addition, and the new node's id is present whenever the parent is |
| CategoryTree.UpdateNode | components/IndicatorLibrary.tsx:484-494 | at each level, a node carrying the id gets the new name (children untouched), and every other node keeps its id and name |
| CategoryTree.UpdateNodeAtDepth | components/IndicatorLibrary.tsx:484-494 | at any depth whose ancestors do not carry the id, a node with the id is renamed, and any other node keeps its fields while its children are visited in turn |
| CategoryTree.UpdateNodeKeepsShape | components/IndicatorLibrary.tsx:484-494 | a rename changes names only: with names erased the forest is the same, and so are its ids in pre-order |
| CategoryTree.UpdateNodeAbsent | components/IndicatorLibrary.tsx:484-494 | renaming an id no node carries leaves the forest as it was |
| CategoryTree.DeleteNode | components/IndicatorLibrary.tsx:496-505 | no node carries the id at any depth afterwards, the surviving ids keep their pre-order, and an unknown id changes nothing |
| CategoryTree.DeleteNodeSurvivors | components/IndicatorLibrary.tsx:496-505 | the nodes left, in pre-order, are exactly the nodes outside every subtree rooted at the id, each with its id, name and open flag unchanged |
| CategoryTree.DeleteNodeRows | components/IndicatorLibrary.tsx:496-505 | in the category picker a deletion drops exactly the row of each node with the id and the deeper rows below it; every other row keeps its place and level |
| CategoryTree.Flatten | components/IndicatorLibrary.tsx:79-88 | one row per node, none above the starting level |
| CategoryTree.FlattenIds | components/IndicatorLibrary.tsx:79-88 | the rows carry the forest's ids in pre-order |
| CategoryTree.FlattenTopLevel | components/IndicatorLibrary.tsx:79-88 | the rows at the starting level are exactly the top-level nodes, in order |
| CategoryTree.FlattenLevelIsDepth | components/IndicatorLibrary.tsx:79-88 | starting at level l gives the rows of starting at level 0, each l deeper |
| CategoryTree.FlattenRowOfNode | components/IndicatorLibrary.tsx:79-88 | the node at any path has its row at that path's pre-order position, with level = starting level + depth |
| CategoryTree.RowIndexOfPathOf | components/IndicatorLibrary.tsx:79-88 | the path of the k-th node in pre-order leads back to position k |
| CategoryTree.FlattenNodeOfRow | components/IndicatorLibrary.tsx:79-88 | every row is the node at the path of its position, with level = starting level + that node's depth |
| CategoryTree.FlattenIterative | components/IndicatorLibrary.tsx:79-88 | a loop over an explicit stack produces exactly the recursive traversal |
| IndicatorLibrary.TrimEmptyIffAllSpace | components/IndicatorLibrary.tsx:538 | a name trims to nothing exactly when every character is JavaScript white space |
| IndicatorLibrary.CategoryModalSave | components/IndicatorLibrary.tsx:536-551 | a blank name changes nothing and keeps the modal open; otherwise add-root appends a `cat-` node, add-sub adds it under a truthy target, edit renames a truthy target, and the modal closes |
| IndicatorLibrary.OpenEdit | components/IndicatorLibrary.tsx:523-526 | the rename modal opens on the node: its target is the node's id and its field holds the node's current name |
| IndicatorLibrary.RenameTwice | components/IndicatorLibrary.tsx:484-494 | renaming twice is renaming once with the second name |
| IndicatorLibrary.EditSaveIdempotent | components/IndicatorLibrary.tsx:523-551 | saving the rename modal twice with its initial text is saving it once |
| IndicatorLibrary.AddNodeIdsGrow | components/IndicatorLibrary.tsx:472-482 | adding under a present parent adds ids, and never removes any |
| IndicatorLibrary.HandleDeleteAsWritten | components/IndicatorLibrary.tsx:528-534 | after confirmation the subtree is deleted and the selection falls back to `root` only when it was the deleted node |
| IndicatorLibrary.DanglingSelectionAfterDelete | components/IndicatorLibrary.tsx:528-534 | deleting the parent of the selected category leaves the selection naming a node that is gone |
| IndicatorLibrary.HandleDelete | components/IndicatorLibrary.tsx:528-534 | after confirmation the selection is a node of the remaining tree or `root`, and is kept exactly when it survived |
| IndicatorLibrary.HandleDeleteAgrees | components/IndicatorLibrary.tsx:528-534 | the corrected handler agrees with the code whenever the selection is the deleted node or survives |
| IndicatorLibrary.SaveIndicator | components/IndicatorLibrary.tsx:426-435 | with a name and a category the form is appended as a quantitative indicator with the clock as id and the modal closes; otherwise an alert, the modal stays open, and nothing is added |
| IndicatorLibrary.SaveThenRemove | components/IndicatorLibrary.tsx:426-435 | removing the saved id afterwards gives back the library |
| IndicatorLibrary.Substring | components/IndicatorLibrary.tsx:96 | `substring` with in-range bounds is the slice, with reversed bounds the swapped slice, and with bounds beyond both ends the whole string |
| IndicatorLibrary.InsertText | components/IndicatorLibrary.tsx:91-110 | with a textarea the selection is replaced by the text and the caret goes after it; without one the text is appended to the script (`\|\| ''`) |
| IndicatorLibrary.InsertTwice | components/IndicatorLibrary.tsx:91-110 | inserting two snippets in a row at the caret the first left is inserting both at once |
| DataChannel.Includes | components/DataChannel.tsx:597-599 | `includes` holds exactly when the term occurs at some position |
| DataChannel.IncludesTransitive | components/DataChannel.tsx:596-600 | an occurrence of an occurrence is an occurrence |
| DataChannel.FilterRecords | components/DataChannel.tsx:594-603 | the rows are an order-preserving subsequence of the records; a record is shown exactly when it passes the source, search and date filters; with all filters empty every record is shown |
| DataChannel.FilterRecordsExact | components/DataChannel.tsx:594-603 | a record passing the filters is shown as often as it occurs in the archive, a failing one never |
| DataChannel.ShownIffMatches | components/DataChannel.tsx:594-603 | a record is shown exactly when it matches all three filters |
| DataChannel.NarrowingFilterShrinks | components/DataChannel.tsx:594-603 | extending the search term or the date prefix, or picking a source, only removes rows |
| DataChannel.SaveConnection | components/DataChannel.tsx:465-472 | editing replaces each connection with the saved id and keeps the count; creating appends one |
| DataChannel.DeleteConnection | components/DataChannel.tsx:458-463 | after confirmation no connection with the id remains, the others keep their order |
| DataChannel.DeleteConnectionKeepsOthers | components/DataChannel.tsx:458-463 | after confirmation every connection with another id stays as often as it occurred, and none with the id stays |
| DataChannel.DeleteAfterSave | components/DataChannel.tsx:458-472 | deleting what was just saved, new or edited, is deleting its id from the earlier list |
| DataChannel.SaveUnchanged | components/DataChannel.tsx:465-468 | saving an edited connection back unchanged leaves the list as it was |
| DataChannel.OpenConnectionModal | components/DataChannel.tsx:91-110 | the form is the edited connection, or a disconnected new one without id; the test starts idle |
| DataChannel.ModalSave | components/DataChannel.tsx:126-133 | an existing id is kept and `conn-` with the clock is used only when there is none; the status is connected after a successful test and the form's otherwise; nothing else changes |
| DataChannel.EditSaveUntested | components/DataChannel.tsx:91-133 | editing and saving without a test gives back the connection |
| DataChannel.NewSaveUntested | components/DataChannel.tsx:96-133 | a new connection saved without a successful test is disconnected |
| DataChannel.StatusLabel | components/DataChannel.tsx:543-545 | connected reads 运行正常, error reads 连接异常, every other status reads 未连接 |
| DataChannel.StatusLabelInjective | components/DataChannel.tsx:543-545 | different statuses read differently |
| AppShell.ToggleExpand | App.tsx:51-55 | the id's membership flips, every other id keeps its membership, and a list without duplicates stays so |
| AppShell.ToggleExpandTwice | App.tsx:51-55 | toggling a group twice restores which groups are expanded |
| AppShell.Click | App.tsx:67-70 | a group entry toggles its expansion and keeps the chosen entry; a leaf becomes the chosen entry |
| AppShell.Breadcrumb | App.tsx:132 | the title is 数据通道 exactly when the chosen entry starts with `data-`, otherwise 绩效评价 |
| AppShell.ViewFor | App.tsx:154-160 | `perf-lib`, `perf-model`, `data-docking` and `data-archives` select their screens; every other entry shows the placeholder |
| AppShell.BackToLibrary | App.tsx:167 | the placeholder's button brings up the indicator library |
| AppShell.BreadcrumbMatchesView | App.tsx:132-160 | data channel screens sit under 数据通道, the library and model screens under 绩效评价 |
| AppShell.InitialShellShowsArchive | App.tsx:48-49 | the console opens on the data archive, under 数据通道 |
| Lists.Filter | components/ModelManagement.tsx:589 | filtering keeps exactly the passing elements in their order |
| Lists.FilterCount | components/ModelManagement.tsx:589 | filtering keeps every passing value exactly as often as it occurred, and no failing one |
| Lists.FilterMultiset | components/ModelManagement.tsx:589 | the same count for each element of the input, and every kept element comes from the input |
| Lists.RemoveKeyMultiset | components/ModelManagement.tsx:319 | removing a key keeps every element with another key exactly as often as it occurred, and none with the key |
| Lists.FilterStronger | components/DataChannel.tsx:594 | a stricter test keeps a subsequence of what a looser test keeps |
| Lists.FilterMapWhere | components/ModelManagement.tsx:618-623 | rewriting elements that are then dropped changes nothing |

## Left out

- Numbers are unbounded integers. Fractional values, `NaN` from `parseFloat` of an empty input, and the number-to-text of fractions and exponents are not modelled.
- Threshold-band matching, grade-map lookup, aggregation of a total score (weighted or summed) and grade-level classification: the console has no code for them, so the model does not invent them.
- RuleEval.RatioScore: the ceiling applies to the proportional form only, as the editor offers it only there.
- RuleEval.BonusExtra: the BONUS comment's `/Step` term is not modelled, because no field holds a step.
- RuleText.InterpretationRoundTrip: stated for grade names without `=`, the separator the grade template uses; with it the text is ambiguous, so the round trip cannot hold.
- CategoryTree.ToggleTwice: a flag that was absent comes back as `false`, not absent, because `!undefined` is `true`; the lemma therefore requires defined flags. `CategoryTree.ToggleThrice` holds for every tree.
- `CategoryTree` nodes: an absent `children` list is the empty list. Every tree function treats the two alike (`[]` is truthy and maps to `[]`).
- `ModelConfigs.ConfigPatch` cannot change `indicatorId`; the editor never passes one.
- ModelConfigs.WeightRangeKept: the weight input's 0..100 bounds are a browser hint, so the console accepts an out-of-range weight. The lemma assumes each given weight is in range.
- `JSON.parse(JSON.stringify(x))` deep copies are the identity.
- The random mock data and preview statistics, the random connection test, timers, version-history arithmetic and the history modal are left out. The test outcome is a parameter.
- The metadata `JSON.parse` in the archive drawer is not modelled; it is a library call.
- IndicatorLibrary.Substring: positions count characters (Unicode scalar values), where JavaScript's `substring` counts UTF-16 code units. The two agree on text within the Basic Multilingual Plane, which includes the Chinese labels, but not on a character outside it, such as an emoji, which is two code units in JavaScript and one character here.
- IndicatorLibrary.InsertText: the selection bounds and the new caret `start + |text|` count characters, where the textarea's `selectionStart`/`selectionEnd` and `text.length` count UTF-16 code units. A script or snippet with a character outside the Basic Multilingual Plane therefore gets different cut positions and a different caret in the console.
- The indicator-suggestion client (`services/geminiService.ts`) is not part of this model: its one function, `generateAIIndicators`, sends a project description to the Gemini `generateContent` API and returns the suggested indicators parsed from the JSON reply, which is a network call.
- Presentation is left out: JSX, styles, dropdown menus, click-outside listeners, the detail drawer, and the temporary selection set of the indicator picker. The picker is modelled by its result, the picked ids.

## Findings

| source | as written | input that shows it | evidently intended | confidence | as-written member | corrected member |
|---|---|---|---|---|---|---|
| components/ModelManagement.tsx:1151 | unchecking "enable evidence" sets only `enableEvidence`, leaving `requireEvidence` as it was | a configuration with both flags true, then evidence switched off | `requireEvidence` is cleared with it, as `types.ts:115` requires | medium, not executed | ModelConfigs.EvidenceRequiredAfterDisable | ModelConfigs.EvidenceStaysConsistent |
| components/IndicatorLibrary.tsx:532 | the selection falls back to `root` only when it is the deleted id, though the whole subtree is deleted | tree root > c2 > c2-1, `c2-1` selected, `c2` deleted | the selection falls back whenever the selected node is gone | medium, not executed | IndicatorLibrary.DanglingSelectionAfterDelete | IndicatorLibrary.HandleDelete |

=== FILE: app_shell.dfy ===
/**
 * The application shell: the sidebar menu (expanding a group, choosing a
 * leaf), the breadcrumb's section title, and which screen the main area
 * shows for the chosen menu entry.
 */
module AppShell {
  import opened Lists

  /** A sidebar entry; an entry without children is a leaf. */
  datatype MenuItem = MenuItem(id: string, text: string, children: seq<MenuItem>)

  /** The chosen entry and the groups whose children are shown. */
  datatype Shell = Shell(activeMenu: string, expanded: seq<string>)

  /** The shell when the console opens: the data archive, both groups expanded. */
  const InitialShell := Shell("data-archives", ["perf", "data-channel"])

  function NotEqual(id: string): string -> bool {
    x => x != id
  }

  /** `toggleExpand`: remove the id from the expanded groups when it is there, append it otherwise. */
  function ToggleExpand(expanded: seq<string>, id: string): (r: seq<string>)
    ensures id in r <==> id !in expanded
    ensures forall x | x != id :: x in r <==> x in expanded
    ensures NoDuplicates(expanded) ==> NoDuplicates(r)
  {
    if id in expanded then
      var r := Filter(expanded, NotEqual(id));
      forall x | x != id && x in expanded
        ensures x in r
      {
        var i :| 0 <= i < |expanded| && expanded[i] == x;
      }
      if NoDuplicates(expanded) then
        SubsequenceNoDuplicates(r, expanded);
        r
      else r
    else
      if NoDuplicates(expanded) then
        NoDuplicatesAppend(expanded, [id]);
        expanded + [id]
      else expanded + [id]
  }

  /** Toggling a group twice restores which groups are expanded. */
  lemma ToggleExpandTwice(expanded: seq<string>, id: string)
    ensures forall x :: x in ToggleExpand(ToggleExpand(expanded, id), id) <==> x in expanded
  {
  }

  /** A click on a sidebar entry: a group toggles its expansion, a leaf becomes the chosen entry. */
  function Click(s: Shell, item: MenuItem): (r: Shell)
    ensures |item.children| > 0 ==> r.activeMenu == s.activeMenu && r.expanded == ToggleExpand(s.expanded, item.id)
    ensures |item.children| == 0 ==> r.activeMenu == item.id && r.expanded == s.expanded
  {
    if |item.children| > 0 then s.(expanded := ToggleExpand(s.expanded, item.id))
    else s.(activeMenu := item.id)
  }

  /** The section title of the breadcrumb. */
  function Breadcrumb(activeMenu: string): (title: string)
    ensures title == "数据通道" <==> "data-" <= activeMenu
    ensures title == "数据通道" || title == "绩效评价"
  {
    if "data-" <= activeMenu then "数据通道" else "绩效评价"
  }

  /** The tabs of the data channel screen. */
  datatype ChannelTab = Docking | Archives

  /** What the main area shows. */
  datatype View = LibraryView | ModelView | ChannelView(tab: ChannelTab) | PlaceholderView(menu: string)

  /** The main area for the chosen entry; every other entry shows the placeholder. */
  function ViewFor(activeMenu: string): (v: View)
    ensures v == LibraryView <==> activeMenu == "perf-lib"
    ensures v == ModelView <==> activeMenu == "perf-model"
    ensures v == ChannelView(Docking) <==> activeMenu == "data-docking"
    ensures v == ChannelView(Archives) <==> activeMenu == "data-archives"
    ensures v.PlaceholderView? <==> activeMenu !in {"perf-lib", "perf-model", "data-docking", "data-archives"}
    ensures v.PlaceholderView? ==> v.menu == activeMenu
  {
    if activeMenu == "perf-lib" then LibraryView
    else if activeMenu == "perf-model" then ModelView
    else if activeMenu == "data-docking" then ChannelView(Docking)
    else if activeMenu == "data-archives" then ChannelView(Archives)
    else PlaceholderView(activeMenu)
  }

  /** The placeholder's button: back to the indicator library. */
  function BackToLibrary(s: Shell): (r: Shell)
    ensures ViewFor(r.activeMenu) == LibraryView && r.expanded == s.expanded
  {
    s.(activeMenu := "perf-lib")
  }

  /** The breadcrumb names the section of the screen shown: data channel screens under 数据通道, the others under 绩效评价. */
  lemma BreadcrumbMatchesView(activeMenu: string)
    ensures ViewFor(activeMenu).ChannelView? ==> Breadcrumb(activeMenu) == "数据通道"
    ensures ViewFor(activeMenu) == LibraryView || ViewFor(activeMenu) == ModelView ==> Breadcrumb(activeMenu) == "绩效评价"
  {
    assert "data-" <= "data-docking";
    assert "data-" <= "data-archives";
    if activeMenu == "perf-lib" || activeMenu == "perf-model" {
      assert activeMenu[0] == 'p';
    }
  }

  /** The opening shell shows the data archive, under 数据通道. */
  lemma InitialShellShowsArchive()
    ensures ViewFor(InitialShell.activeMenu) == ChannelView(Archives)
    ensures Breadcrumb(InitialShell.activeMenu) == "数据通道"
  {
    assert "data-" <= "data-archives";
  }
}

=== FILE: category_tree.dfy ===
/**
 * The indicator category tree: a forest of `CategoryNode`s and the pure
 * operations the indicator library applies to it (toggle a folder, add a
 * child, rename, delete with the subtree, flatten for the category picker).
 * Each operation walks the forest in order and, at a node carrying the
 * target id, acts on that node without descending into it; elsewhere it
 * descends into the children.
 */
module CategoryTree {
  import opened Common
  import opened Lists
  import opened Types

  /** The ids of the forest in pre-order. */
  function Ids(ns: seq<CategoryNode>): seq<string>
    decreases ns
  {
    if |ns| == 0 then [] else [ns[0].id] + Ids(ns[0].children) + Ids(ns[1..])
  }

  lemma {:induction false} IdsAppend(a: seq<CategoryNode>, b: seq<CategoryNode>)
    ensures Ids(a + b) == Ids(a) + Ids(b)
    decreases |a|
  {
    if |a| == 0 {
      assert a + b == b;
    } else {
      assert (a + b)[0] == a[0];
      assert (a + b)[1..] == a[1..] + b;
      IdsAppend(a[1..], b);
    }
  }

  lemma IdsCons(n: CategoryNode, rest: seq<CategoryNode>)
    ensures Ids([n] + rest) == [n.id] + Ids(n.children) + Ids(rest)
  {
    assert ([n] + rest)[0] == n;
    assert ([n] + rest)[1..] == rest;
  }

  /** The number of nodes of the forest. */
  function Size(ns: seq<CategoryNode>): nat
    decreases ns
  {
    if |ns| == 0 then 0 else 1 + Size(ns[0].children) + Size(ns[1..])
  }

  /** The forest with every expansion flag dropped: what remains is ids, names and shape. */
  function Erase(ns: seq<CategoryNode>): seq<CategoryNode>
    decreases ns
  {
    if |ns| == 0 then [] else [ns[0].(children := Erase(ns[0].children), isOpen := None)] + Erase(ns[1..])
  }

  /** The forest with every name dropped: what remains is ids, flags and shape. */
  function Unnamed(ns: seq<CategoryNode>): seq<CategoryNode>
    decreases ns
  {
    if |ns| == 0 then [] else [ns[0].(name := "", children := Unnamed(ns[0].children))] + Unnamed(ns[1..])
  }

  lemma EraseCons(n: CategoryNode, rest: seq<CategoryNode>)
    ensures Erase([n] + rest) == [n.(children := Erase(n.children), isOpen := None)] + Erase(rest)
  {
    assert ([n] + rest)[0] == n;
    assert ([n] + rest)[1..] == rest;
  }

  lemma UnnamedCons(n: CategoryNode, rest: seq<CategoryNode>)
    ensures Unnamed([n] + rest) == [n.(name := "", children := Unnamed(n.children))] + Unnamed(rest)
  {
    assert ([n] + rest)[0] == n;
    assert ([n] + rest)[1..] == rest;
  }

  // ---------------------------------------------------------------------
  // Toggle

  /** `!node.isOpen` as the new flag. */
  function Flipped(n: CategoryNode): CategoryNode {
    n.(isOpen := Some(!FlagTruthy(n.isOpen)))
  }

  /** `toggleCategory`: flip the expansion flag of the nodes with the id. */
  function Toggle(ns: seq<CategoryNode>, id: string): (r: seq<CategoryNode>)
    ensures |r| == |ns|
    ensures forall i | 0 <= i < |ns| && ns[i].id == id :: r[i] == Flipped(ns[i])
    ensures forall i | 0 <= i < |ns| && ns[i].id != id :: r[i].isOpen == ns[i].isOpen
    decreases ns
  {
    if |ns| == 0 then []
    else
      var n := ns[0];
      var head := if n.id == id then Flipped(n) else n.(children := Toggle(n.children, id));
      var rest := Toggle(ns[1..], id);
      var r := [head] + rest;
      assert forall i | 1 <= i < |ns| :: ns[i] == ns[1..][i - 1] && r[i] == rest[i - 1];
      r
  }

  lemma ToggleCons(ns: seq<CategoryNode>, id: string)
    requires |ns| > 0
    ensures Toggle(ns, id)[0] ==
              (if ns[0].id == id then Flipped(ns[0]) else ns[0].(children := Toggle(ns[0].children, id)))
    ensures Toggle(ns, id)[1..] == Toggle(ns[1..], id)
  {
  }

  /** A toggle changes flags only: ids, names and shape stay as they were. */
  lemma {:induction false} ToggleKeepsShape(ns: seq<CategoryNode>, id: string)
    ensures Erase(Toggle(ns, id)) == Erase(ns)
    ensures Ids(Toggle(ns, id)) == Ids(ns)
    decreases ns
  {
    if |ns| > 0 {
      var n := ns[0];
      var r := Toggle(ns, id);
      ToggleCons(ns, id);
      ToggleKeepsShape(ns[1..], id);
      if n.id != id {
        ToggleKeepsShape(n.children, id);
      }
      assert ns == [n] + ns[1..];
      assert r == [r[0]] + r[1..];
      IdsCons(n, ns[1..]);
      IdsCons(r[0], r[1..]);
      EraseCons(n, ns[1..]);
      EraseCons(r[0], r[1..]);
    }
  }

  /** Toggling an id no node carries changes nothing. */
  lemma {:induction false} ToggleAbsent(ns: seq<CategoryNode>, id: string)
    requires id !in Ids(ns)
    ensures Toggle(ns, id) == ns
    decreases ns
  {
    if |ns| > 0 {
      var n := ns[0];
      var r := Toggle(ns, id);
      IdsCons(n, ns[1..]);
      assert ns == [n] + ns[1..];
      ToggleCons(ns, id);
      ToggleAbsent(ns[1..], id);
      ToggleAbsent(n.children, id);
      assert r == [r[0]] + r[1..];
    }
  }

  /**
   * Every node `Toggle` would flip has a defined expansion flag (a node
   * below a node with the id is never reached).
   */
  predicate FlagsKnown(ns: seq<CategoryNode>, id: string)
    decreases ns
  {
    |ns| == 0 ||
    ((if ns[0].id == id then ns[0].isOpen.Some? else FlagsKnown(ns[0].children, id)) &&
     FlagsKnown(ns[1..], id))
  }

  /** Toggling twice restores the forest when the toggled flags were defined. */
  lemma {:induction false} ToggleTwice(ns: seq<CategoryNode>, id: string)
    requires FlagsKnown(ns, id)
    ensures Toggle(Toggle(ns, id), id) == ns
    decreases ns
  {
    if |ns| > 0 {
      var n := ns[0];
      var once := Toggle(ns, id);
      var twice := Toggle(once, id);
      ToggleCons(ns, id);
      ToggleCons(once, id);
      ToggleTwice(ns[1..], id);
      assert twice[1..] == ns[1..];
      if n.id == id {
        assert twice[0] == Flipped(Flipped(n));
        var f := Flipped(n);
        assert f.isOpen == Some(!FlagTruthy(n.isOpen));
        assert Flipped(f).isOpen == Some(!FlagTruthy(f.isOpen));
        if n.isOpen.value {
          assert FlagTruthy(n.isOpen);
        } else {
          assert !FlagTruthy(n.isOpen);
        }
      } else {
        ToggleTwice(n.children, id);
        assert twice[0] == n.(children := Toggle(Toggle(n.children, id), id));
      }
      assert twice[0] == n;
      assert twice == [twice[0]] + twice[1..];
      assert ns == [n] + ns[1..];
    }
  }

  /** After one toggle every flag a toggle would flip is defined. */
  lemma {:induction false} ToggleMakesFlagsKnown(ns: seq<CategoryNode>, id: string)
    ensures FlagsKnown(Toggle(ns, id), id)
    decreases ns
  {
    if |ns| > 0 {
      ToggleCons(ns, id);
      ToggleMakesFlagsKnown(ns[1..], id);
      if ns[0].id != id {
        ToggleMakesFlagsKnown(ns[0].children, id);
      }
    }
  }

  /** Toggling three times is toggling once, whatever the flags were. */
  lemma {:induction false} ToggleThrice(ns: seq<CategoryNode>, id: string)
    ensures Toggle(Toggle(Toggle(ns, id), id), id) == Toggle(ns, id)
  {
    ToggleMakesFlagsKnown(ns, id);
    ToggleTwice(Toggle(ns, id), id);
  }

  // ---------------------------------------------------------------------
  // Add a child

  /** The parent after `addNode`: the new node appended to its children, and opened. */
  function WithChild(n: CategoryNode, child: CategoryNode): CategoryNode {
    n.(children := n.children + [child], isOpen := Some(true))
  }

  /** `addNode`: give the nodes with the parent id the new node as last child. */
  function AddNode(ns: seq<CategoryNode>, parentId: string, child: CategoryNode): (r: seq<CategoryNode>)
    ensures |r| == |ns|
    ensures forall i | 0 <= i < |ns| && ns[i].id == parentId :: r[i] == WithChild(ns[i], child)
    ensures forall i | 0 <= i < |ns| && ns[i].id != parentId ::
              r[i].id == ns[i].id && r[i].name == ns[i].name && r[i].isOpen == ns[i].isOpen
    decreases ns
  {
    if |ns| == 0 then []
    else
      var n := ns[0];
      var head := if n.id == parentId then WithChild(n, child) else n.(children := AddNode(n.children, parentId, child));
      var rest := AddNode(ns[1..], parentId, child);
      var r := [head] + rest;
      assert forall i | 1 <= i < |ns| :: ns[i] == ns[1..][i - 1] && r[i] == rest[i - 1];
      r
  }

  lemma AddNodeCons(ns: seq<CategoryNode>, parentId: string, child: CategoryNode)
    requires |ns| > 0
    ensures AddNode(ns, parentId, child)[0] ==
              (if ns[0].id == parentId then WithChild(ns[0], child)
               else ns[0].(children := AddNode(ns[0].children, parentId, child)))
    ensures AddNode(ns, parentId, child)[1..] == AddNode(ns[1..], parentId, child)
  {
  }

  /** Adding under a parent no node carries changes nothing. */
  lemma {:induction false} AddNodeAbsent(ns: seq<CategoryNode>, parentId: string, child: CategoryNode)
    requires parentId !in Ids(ns)
    ensures AddNode(ns, parentId, child) == ns
    decreases ns
  {
    if |ns| > 0 {
      var n := ns[0];
      var r := AddNode(ns, parentId, child);
      IdsCons(n, ns[1..]);
      assert ns == [n] + ns[1..];
      AddNodeCons(ns, parentId, child);
      AddNodeAbsent(ns[1..], parentId, child);
      AddNodeAbsent(n.children, parentId, child);
      assert r == [r[0]] + r[1..];
    }
  }

  /** Adding keeps every id, and the new node is in the forest when its parent is. */
  lemma {:induction false} AddNodeKeepsIds(ns: seq<CategoryNode>, parentId: string, child: CategoryNode)
    ensures forall x | x in Ids(ns) :: x in Ids(AddNode(ns, parentId, child))
    ensures parentId in Ids(ns) ==> child.id in Ids(AddNode(ns, parentId, child))
    decreases ns
  {
    if |ns| > 0 {
      var n := ns[0];
      var r := AddNode(ns, parentId, child);
      AddNodeCons(ns, parentId, child);
      AddNodeKeepsIds(ns[1..], parentId, child);
      assert ns == [n] + ns[1..];
      assert r == [r[0]] + r[1..];
      IdsCons(n, ns[1..]);
      IdsCons(r[0], r[1..]);
      if n.id == parentId {
        WithChildIds(n, child);
      } else {
        AddNodeKeepsIds(n.children, parentId, child);
      }
      IdsKept(n, r[0], ns[1..], r[1..]);
    }
  }

  /** A node whose id and child ids survive, followed by a rest whose ids survive. */
  lemma IdsKept(n: CategoryNode, head: CategoryNode, tail: seq<CategoryNode>, rest: seq<CategoryNode>)
    requires head.id == n.id
    requires forall x | x in Ids(n.children) :: x in Ids(head.children)
    requires forall x | x in Ids(tail) :: x in Ids(rest)
    ensures forall x | x in Ids([n] + tail) :: x in Ids([head] + rest)
  {
    IdsCons(n, tail);
    IdsCons(head, rest);
  }

  lemma WithChildIds(n: CategoryNode, child: CategoryNode)
    ensures Ids(WithChild(n, child).children) == Ids(n.children) + [child.id] + Ids(child.children)
  {
    IdsAppend(n.children, [child]);
    IdsCons(child, []);
  }

  // ---------------------------------------------------------------------
  // Rename

  /** `updateNode`: give the nodes with the id the new name. */
  function UpdateNode(ns: seq<CategoryNode>, id: string, newName: string): (r: seq<CategoryNode>)
    ensures |r| == |ns|
    ensures forall i | 0 <= i < |ns| && ns[i].id == id :: r[i] == ns[i].(name := newName)
    ensures forall i | 0 <= i < |ns| && ns[i].id != id :: r[i].id == ns[i].id && r[i].name == ns[i].name
    decreases ns
  {
    if |ns| == 0 then []
    else
      var n := ns[0];
      var head := if n.id == id then n.(name := newName) else n.(children := UpdateNode(n.children, id, newName));
      var rest := UpdateNode(ns[1..], id, newName);
      var r := [head] + rest;
      assert forall i | 1 <= i < |ns| :: ns[i] == ns[1..][i - 1] && r[i] == rest[i - 1];
      r
  }

  lemma UpdateNodeCons(ns: seq<CategoryNode>, id: string, newName: string)
    requires |ns| > 0
    ensures UpdateNode(ns, id, newName)[0] ==
              (if ns[0].id == id then ns[0].(name := newName)
               else ns[0].(children := UpdateNode(ns[0].children, id, newName)))
    ensures UpdateNode(ns, id, newName)[1..] == UpdateNode(ns[1..], id, newName)
  {
  }

  /** A rename changes names only: ids, flags and shape stay as they were. */
  lemma {:induction false} UpdateNodeKeepsShape(ns: seq<CategoryNode>, id: string, newName: string)
    ensures Unnamed(UpdateNode(ns, id, newName)) == Unnamed(ns)
    ensures Ids(UpdateNode(ns, id, newName)) == Ids(ns)
    decreases ns
  {
    if |ns| > 0 {
      var n := ns[0];
      var r := UpdateNode(ns, id, newName);
      UpdateNodeCons(ns, id, newName);
      UpdateNodeKeepsShape(ns[1..], id, newName);
      if n.id != id {
        UpdateNodeKeepsShape(n.children, id, newName);
      }
      assert ns == [n] + ns[1..];
      assert r == [r[0]] + r[1..];
      IdsCons(n, ns[1..]);
      IdsCons(r[0], r[1..]);
      UnnamedCons(n, ns[1..]);
      UnnamedCons(r[0], r[1..]);
    }
  }

  /** Renaming an id no node carries changes nothing. */
  lemma {:induction false} UpdateNodeAbsent(ns: seq<CategoryNode>, id: string, newName: string)
    requires id !in Ids(ns)
    ensures UpdateNode(ns, id, newName) == ns
    decreases ns
  {
    if |ns| > 0 {
      var n := ns[0];
      var r := UpdateNode(ns, id, newName);
      IdsCons(n, ns[1..]);
      assert ns == [n] + ns[1..];
      UpdateNodeCons(ns, id, newName);
      UpdateNodeAbsent(ns[1..], id, newName);
      UpdateNodeAbsent(n.children, id, newName);
      assert r == [r[0]] + r[1..];
    }
  }

  // ---------------------------------------------------------------------
  // Delete

  /** Dropping the first node keeps the rest's ids a subsequence. */
  lemma DropFirstIds(n: CategoryNode, rest: seq<CategoryNode>, tail: seq<CategoryNode>)
    requires IsSubsequence(Ids(rest), Ids(tail))
    ensures IsSubsequence(Ids(rest), Ids([n] + tail))
  {
    IdsCons(n, tail);
    assert Ids([n] + tail) == ([n.id] + Ids(n.children)) + Ids(tail);
    SubsequenceSuffix(Ids(rest), [n.id] + Ids(n.children), Ids(tail));
  }

  /** Keeping the first node with thinned children keeps the ids a subsequence. */
  lemma KeepFirstIds(n: CategoryNode, kids: seq<CategoryNode>, rest: seq<CategoryNode>, tail: seq<CategoryNode>)
    requires IsSubsequence(Ids(kids), Ids(n.children)) && IsSubsequence(Ids(rest), Ids(tail))
    ensures IsSubsequence(Ids([n.(children := kids)] + rest), Ids([n] + tail))
  {
    var a, b, c, d := Ids(kids), Ids(n.children), Ids(rest), Ids(tail);
    IdsCons(n.(children := kids), rest);
    IdsCons(n, tail);
    SubsequenceAppend(a, b, c, d);
    SubsequenceCons(n.id, a + c, b + d);
    AppendAssoc([n.id], a, c);
    AppendAssoc([n.id], b, d);
  }

  /** `deleteNode`: drop every node with the id, wherever it is, with its subtree. */
  function DeleteNode(ns: seq<CategoryNode>, id: string): (r: seq<CategoryNode>)
    ensures id !in Ids(r)
    ensures IsSubsequence(Ids(r), Ids(ns))
    ensures id !in Ids(ns) ==> r == ns
    decreases ns
  {
    if |ns| == 0 then []
    else
      var n := ns[0];
      var rest := DeleteNode(ns[1..], id);
      IdsCons(n, ns[1..]);
      assert ns == [n] + ns[1..];
      if n.id == id then
        DropFirstIds(n, rest, ns[1..]);
        rest
      else
        var head := n.(children := DeleteNode(n.children, id));
        IdsCons(head, rest);
        KeepFirstIds(n, head.children, rest, ns[1..]);
        [head] + rest
  }

  /** The forest's nodes in pre-order, each without its children. */
  function Preorder(ns: seq<CategoryNode>): seq<CategoryNode>
    decreases ns
  {
    if |ns| == 0 then [] else [ns[0].(children := [])] + Preorder(ns[0].children) + Preorder(ns[1..])
  }

  lemma PreorderCons(n: CategoryNode, rest: seq<CategoryNode>)
    ensures Preorder([n] + rest) == [n.(children := [])] + Preorder(n.children) + Preorder(rest)
  {
    assert ([n] + rest)[0] == n;
    assert ([n] + rest)[1..] == rest;
  }

  /**
   * The nodes a deletion of `id` should keep, in pre-order and without
   * their children: every node except those carrying `id` and everything
   * below them.
   */
  function Survivors(ns: seq<CategoryNode>, id: string): seq<CategoryNode>
    decreases ns
  {
    if |ns| == 0 then []
    else if ns[0].id == id then Survivors(ns[1..], id)
    else [ns[0].(children := [])] + Survivors(ns[0].children, id) + Survivors(ns[1..], id)
  }

  /**
   * A deletion keeps exactly the survivors, in their order, each with its
   * id, name and flag unchanged.
   */
  lemma {:induction false} DeleteNodeSurvivors(ns: seq<CategoryNode>, id: string)
    ensures Preorder(DeleteNode(ns, id)) == Survivors(ns, id)
    decreases ns
  {
    if |ns| > 0 {
      var n := ns[0];
      DeleteNodeSurvivors(ns[1..], id);
      if n.id != id {
        DeleteNodeSurvivors(n.children, id);
        var head := n.(children := DeleteNode(n.children, id));
        var rest := DeleteNode(ns[1..], id);
        assert DeleteNode(ns, id) == [head] + rest;
        PreorderCons(head, rest);
        assert head.(children := []) == n.(children := []);
      }
    }
  }

  // ---------------------------------------------------------------------
  // Flatten

  /** One row of the category picker: a node and its depth. */
  datatype FlatEntry = FlatEntry(id: string, name: string, level: int)

  function EntryOf(n: CategoryNode, level: int): FlatEntry {
    FlatEntry(n.id, n.name, level)
  }

  function EntryIds(es: seq<FlatEntry>): (ids: seq<string>)
    ensures |ids| == |es|
    ensures forall k | 0 <= k < |es| :: ids[k] == es[k].id
  {
    seq(|es|, k requires 0 <= k < |es| => es[k].id)
  }

  lemma EntryIdsAppend(a: seq<FlatEntry>, b: seq<FlatEntry>)
    ensures EntryIds(a + b) == EntryIds(a) + EntryIds(b)
  {
  }

  /** `getFlattenedCategories`: the nodes in pre-order, each with its depth below `level`. */
  function Flatten(ns: seq<CategoryNode>, level: int): (r: seq<FlatEntry>)
    ensures |r| == Size(ns)
    ensures forall k | 0 <= k < |r| :: r[k].level >= level
    decreases ns
  {
    if |ns| == 0 then []
    else [EntryOf(ns[0], level)] + Flatten(ns[0].children, level + 1) + Flatten(ns[1..], level)
  }

  /** The rows carry the forest's ids in pre-order. */
  lemma {:induction false} FlattenIds(ns: seq<CategoryNode>, level: int)
    ensures EntryIds(Flatten(ns, level)) == Ids(ns)
    decreases ns
  {
    if |ns| > 0 {
      var head := [EntryOf(ns[0], level)];
      var below := Flatten(ns[0].children, level + 1);
      var rest := Flatten(ns[1..], level);
      FlattenIds(ns[0].children, level + 1);
      FlattenIds(ns[1..], level);
      EntryIdsAppend(head, below);
      EntryIdsAppend(head + below, rest);
      assert EntryIds(head) == [ns[0].id];
    }
  }

  function AtLevel(level: int): FlatEntry -> bool {
    (e: FlatEntry) => e.level == level
  }

  /** The rows of the top-level nodes alone, at the given depth. */
  function TopEntries(ns: seq<CategoryNode>, level: int): seq<FlatEntry>
    decreases |ns|
  {
    if |ns| == 0 then [] else [EntryOf(ns[0], level)] + TopEntries(ns[1..], level)
  }

  /** One row per top-level node, in order, at the given depth. */
  lemma {:induction false} TopEntriesIndex(ns: seq<CategoryNode>, level: int)
    ensures |TopEntries(ns, level)| == |ns|
    ensures forall i | 0 <= i < |ns| :: TopEntries(ns, level)[i] == EntryOf(ns[i], level)
    decreases |ns|
  {
    if |ns| > 0 {
      TopEntriesIndex(ns[1..], level);
      var r := TopEntries(ns, level);
      assert forall i | 1 <= i < |ns| :: r[i] == TopEntries(ns[1..], level)[i - 1] && ns[i] == ns[1..][i - 1];
    }
  }

  /** The rows at the starting depth are exactly the top-level nodes, in order. */
  lemma {:induction false} FlattenTopLevel(ns: seq<CategoryNode>, level: int)
    ensures Filter(Flatten(ns, level), AtLevel(level)) == TopEntries(ns, level)
    decreases ns
  {
    if |ns| > 0 {
      var top := [EntryOf(ns[0], level)];
      var below := Flatten(ns[0].children, level + 1);
      var rest := Flatten(ns[1..], level);
      assert Flatten(ns, level) == top + below + rest;
      FlattenTopLevel(ns[1..], level);
      FilterAppend(top + below, rest, AtLevel(level));
      FilterAppend(top, below, AtLevel(level));
      FilterNone(below, AtLevel(level));
      assert Filter(top, AtLevel(level)) == top by {
        assert top[1..] == [];
      }
      assert top + [] == top;
    }
  }

  lemma {:induction false} FilterNone(es: seq<FlatEntry>, keep: FlatEntry -> bool)
    requires forall k | 0 <= k < |es| :: !keep(es[k])
    ensures Filter(es, keep) == []
    decreases |es|
  {
    if |es| > 0 {
      FilterNone(es[1..], keep);
    }
  }

  /** Every row pushed `d` levels deeper. */
  function Deeper(es: seq<FlatEntry>, d: int): (r: seq<FlatEntry>)
    ensures |r| == |es|
    ensures forall k | 0 <= k < |es| :: r[k] == es[k].(level := es[k].level + d)
  {
    seq(|es|, k requires 0 <= k < |es| => es[k].(level := es[k].level + d))
  }

  lemma DeeperAppend(a: seq<FlatEntry>, b: seq<FlatEntry>, d: int)
    ensures Deeper(a + b, d) == Deeper(a, d) + Deeper(b, d)
  {
  }

  /**
   * A row's level is its depth in the forest plus the starting level: the
   * rows from level `l` are the rows from level 0, each `l` deeper.
   */
  lemma {:induction false} FlattenLevelIsDepth(ns: seq<CategoryNode>, l: int)
    ensures Flatten(ns, l) == Deeper(Flatten(ns, 0), l)
    decreases ns
  {
    if |ns| > 0 {
      var n := ns[0];
      FlattenLevelIsDepth(n.children, l + 1);
      FlattenLevelIsDepth(n.children, 1);
      FlattenLevelIsDepth(ns[1..], l);
      DeeperTwice(Flatten(n.children, 0), 1, l);
      var below0 := Flatten(n.children, 1);
      var rest0 := Flatten(ns[1..], 0);
      DeeperAppend([EntryOf(n, 0)] + below0, rest0, l);
      DeeperAppend([EntryOf(n, 0)], below0, l);
    }
  }

  lemma DeeperTwice(es: seq<FlatEntry>, d: int, e: int)
    ensures Deeper(Deeper(es, d), e) == Deeper(es, d + e)
  {
  }

  // ---------------------------------------------------------------------
  // Flatten with an explicit stack

  /** Flatten a work list of nodes with their depths, front first. */
  function FlattenWork(work: seq<(CategoryNode, int)>): seq<FlatEntry>
    decreases |work|
  {
    if |work| == 0 then [] else Flatten([work[0].0], work[0].1) + FlattenWork(work[1..])
  }

  function WorkSize(work: seq<(CategoryNode, int)>): nat
    decreases |work|
  {
    if |work| == 0 then 0 else Size([work[0].0]) + WorkSize(work[1..])
  }

  function Tagged(ns: seq<CategoryNode>, level: int): (r: seq<(CategoryNode, int)>)
    ensures |r| == |ns|
  {
    seq(|ns|, i requires 0 <= i < |ns| => (ns[i], level))
  }

  lemma {:induction false} FlattenWorkTagged(ns: seq<CategoryNode>, level: int, work: seq<(CategoryNode, int)>)
    ensures FlattenWork(Tagged(ns, level) + work) == Flatten(ns, level) + FlattenWork(work)
    ensures WorkSize(Tagged(ns, level) + work) == Size(ns) + WorkSize(work)
    decreases |ns|
  {
    var w := Tagged(ns, level) + work;
    if |ns| == 0 {
      assert w == work;
    } else {
      var n := ns[0];
      var t := Tagged(ns[1..], level) + work;
      assert w == [(n, level)] + t by {
        assert w[0] == (n, level);
        assert w[1..] == t;
      }
      FlattenWorkCons(n, level, t);
      FlattenWorkTagged(ns[1..], level, work);
      FlattenSingle(n, level);
      assert Flatten(ns, level) == Flatten([n], level) + Flatten(ns[1..], level);
      AppendAssoc(Flatten([n], level), Flatten(ns[1..], level), FlattenWork(work));
    }
  }

  /** Popping a node off the work list emits its row and pushes its children in front. */
  lemma FlattenWorkPop(n: CategoryNode, level: int, rest: seq<(CategoryNode, int)>)
    ensures FlattenWork([(n, level)] + rest) ==
              [EntryOf(n, level)] + FlattenWork(Tagged(n.children, level + 1) + rest)
    ensures WorkSize(Tagged(n.children, level + 1) + rest) < WorkSize([(n, level)] + rest)
  {
    var A := [EntryOf(n, level)];
    var B := Flatten(n.children, level + 1);
    var C := FlattenWork(rest);
    FlattenWorkTagged(n.children, level + 1, rest);
    FlattenSingle(n, level);
    FlattenWorkCons(n, level, rest);
    assert FlattenWork([(n, level)] + rest) == (A + B) + C;
    assert FlattenWork(Tagged(n.children, level + 1) + rest) == B + C;
    AppendAssoc(A, B, C);
  }

  lemma FlattenWorkCons(n: CategoryNode, level: int, rest: seq<(CategoryNode, int)>)
    ensures FlattenWork([(n, level)] + rest) == Flatten([n], level) + FlattenWork(rest)
    ensures WorkSize([(n, level)] + rest) == Size([n]) + WorkSize(rest)
  {
    var w := [(n, level)] + rest;
    assert w[0] == (n, level) && w[1..] == rest;
  }

  lemma FlattenSingle(n: CategoryNode, level: int)
    ensures Flatten([n], level) == [EntryOf(n, level)] + Flatten(n.children, level + 1)
    ensures Size([n]) == 1 + Size(n.children)
  {
    assert [n][1..] == [];
  }

  lemma FlattenWorkStart(ns: seq<CategoryNode>)
    ensures FlattenWork(Tagged(ns, 0)) == Flatten(ns, 0)
  {
    FlattenWorkTagged(ns, 0, []);
    assert Tagged(ns, 0) + [] == Tagged(ns, 0);
    assert Flatten(ns, 0) + [] == Flatten(ns, 0);
  }

  /** `getFlattenedCategories` as a loop over an explicit stack: the same rows. */
  method FlattenIterative(ns: seq<CategoryNode>) returns (out: seq<FlatEntry>)
    ensures out == Flatten(ns, 0)
    ensures |out| == Size(ns)
  {
    out := [];
    var work := Tagged(ns, 0);
    FlattenWorkStart(ns);
    while |work| > 0
      invariant out + FlattenWork(work) == Flatten(ns, 0)
      decreases WorkSize(work)
    {
      var n := work[0].0;
      var level := work[0].1;
      var rest := work[1..];
      assert work == [(n, level)] + rest;
      FlattenWorkPop(n, level, rest);
      var next := Tagged(n.children, level + 1) + rest;
      AppendAssoc(out, [EntryOf(n, level)], FlattenWork(next));
      out := out + [EntryOf(n, level)];
      work := next;
    }
    assert work == [];
    assert out + [] == out;
  }

  // ---------------------------------------------------------------------
  // Depth, through paths

  /**
   * A path of child positions: `p[0]` picks a top-level node, each further
   * entry one of the previous node's children. The node it reaches lies at
   * depth `|p| - 1`.
   */
  predicate ValidPath(ns: seq<CategoryNode>, p: seq<nat>)
    decreases |p|
  {
    |p| > 0 && p[0] < |ns| && (|p| == 1 || ValidPath(ns[p[0]].children, p[1..]))
  }

  function NodeAt(ns: seq<CategoryNode>, p: seq<nat>): CategoryNode
    requires ValidPath(ns, p)
    decreases |p|
  {
    if |p| == 1 then ns[p[0]] else NodeAt(ns[p[0]].children, p[1..])
  }

  /** A path into the first node's children, extended by that node's position. */
  lemma PathIntoFirst(ns: seq<CategoryNode>, q: seq<nat>)
    requires |ns| > 0 && ValidPath(ns[0].children, q)
    ensures ValidPath(ns, [0] + q) && NodeAt(ns, [0] + q) == NodeAt(ns[0].children, q)
  {
    assert ([0] + q)[1..] == q;
  }

  /** A path into the later siblings, shifted past the first node. */
  lemma PathIntoRest(ns: seq<CategoryNode>, q: seq<nat>)
    requires |ns| > 0 && ValidPath(ns[1..], q)
    ensures ValidPath(ns, [q[0] + 1] + q[1..]) && NodeAt(ns, [q[0] + 1] + q[1..]) == NodeAt(ns[1..], q)
  {
    var p := [q[0] + 1] + q[1..];
    assert p[1..] == q[1..];
    assert ns[p[0]] == ns[1..][q[0]];
  }

  /** A path below the first node, taken from inside its children. */
  lemma PathFromFirst(ns: seq<CategoryNode>, p: seq<nat>)
    requires ValidPath(ns, p) && p[0] == 0 && |p| > 1
    ensures ValidPath(ns[0].children, p[1..]) && NodeAt(ns, p) == NodeAt(ns[0].children, p[1..])
  {
  }

  /** A path to a later sibling or below it, seen from the later siblings. */
  lemma PathFromRest(ns: seq<CategoryNode>, p: seq<nat>)
    requires ValidPath(ns, p) && p[0] > 0
    ensures ValidPath(ns[1..], [p[0] - 1] + p[1..]) && NodeAt(ns[1..], [p[0] - 1] + p[1..]) == NodeAt(ns, p)
  {
    var q := [p[0] - 1] + p[1..];
    assert q[1..] == p[1..];
    assert ns[1..][q[0]] == ns[p[0]];
  }

  lemma FlattenUnfold(ns: seq<CategoryNode>, level: int)
    requires |ns| > 0
    ensures Flatten(ns, level) == [EntryOf(ns[0], level)] + Flatten(ns[0].children, level + 1) + Flatten(ns[1..], level)
  {
  }

  /** The position of the node reached by `p` in the pre-order. */
  function RowIndex(ns: seq<CategoryNode>, p: seq<nat>): nat
    requires ValidPath(ns, p)
    decreases |p|, p[0]
  {
    if p[0] == 0 then
      if |p| == 1 then 0 else 1 + RowIndex(ns[0].children, p[1..])
    else
      PathFromRest(ns, p);
      1 + Size(ns[0].children) + RowIndex(ns[1..], [p[0] - 1] + p[1..])
  }

  /** The path to the `k`-th node of the pre-order. */
  function PathOf(ns: seq<CategoryNode>, k: nat): (p: seq<nat>)
    requires k < Size(ns)
    ensures ValidPath(ns, p)
    decreases ns
  {
    if k == 0 then [0]
    else if k - 1 < Size(ns[0].children) then
      var q := PathOf(ns[0].children, k - 1);
      PathIntoFirst(ns, q);
      [0] + q
    else
      var q := PathOf(ns[1..], k - 1 - Size(ns[0].children));
      PathIntoRest(ns, q);
      [q[0] + 1] + q[1..]
  }

  lemma PathOfChild(ns: seq<CategoryNode>, k: nat)
    requires |ns| > 0 && 1 <= k <= Size(ns[0].children)
    ensures k < Size(ns) && PathOf(ns, k) == [0] + PathOf(ns[0].children, k - 1)
  {
  }

  lemma PathOfSibling(ns: seq<CategoryNode>, k: nat)
    requires |ns| > 0 && 1 + Size(ns[0].children) <= k < Size(ns)
    ensures var q := PathOf(ns[1..], k - 1 - Size(ns[0].children));
            PathOf(ns, k) == [q[0] + 1] + q[1..]
  {
  }

  /**
   * Every node has its picker row, at its pre-order position, with the
   * starting level plus its depth.
   */
  lemma {:induction false} FlattenRowOfNode(ns: seq<CategoryNode>, level: int, p: seq<nat>)
    requires ValidPath(ns, p)
    ensures RowIndex(ns, p) < |Flatten(ns, level)|
    ensures Flatten(ns, level)[RowIndex(ns, p)] == EntryOf(NodeAt(ns, p), level + |p| - 1)
    decreases |p|, p[0]
  {
    if p[0] == 0 && |p| == 1 {
      FlattenUnfold(ns, level);
    } else if p[0] == 0 {
      PathFromFirst(ns, p);
      FlattenRowOfNode(ns[0].children, level + 1, p[1..]);
      RowOfChildNode(ns, level, p);
    } else {
      PathFromRest(ns, p);
      FlattenRowOfNode(ns[1..], level, [p[0] - 1] + p[1..]);
      RowOfSiblingNode(ns, level, p);
    }
  }

  /**
   * The `j`-th row of a middle part is the whole's row `|top| + j`. Stated
   * over plain sequences, so that the index arithmetic never unfolds `Flatten`.
   */
  lemma RowInPart(whole: seq<FlatEntry>, top: seq<FlatEntry>, mid: seq<FlatEntry>, rest: seq<FlatEntry>, j: nat, x: FlatEntry)
    requires whole == top + mid + rest && j < |mid| && mid[j] == x
    ensures |top| + j < |whole| && whole[|top| + j] == x
  {
  }

  lemma RowOfChildNode(ns: seq<CategoryNode>, level: int, p: seq<nat>)
    requires ValidPath(ns, p) && p[0] == 0 && |p| > 1
    requires ValidPath(ns[0].children, p[1..])
    requires RowIndex(ns[0].children, p[1..]) < |Flatten(ns[0].children, level + 1)|
    requires Flatten(ns[0].children, level + 1)[RowIndex(ns[0].children, p[1..])] ==
               EntryOf(NodeAt(ns[0].children, p[1..]), level + 1 + |p[1..]| - 1)
    ensures RowIndex(ns, p) < |Flatten(ns, level)|
    ensures Flatten(ns, level)[RowIndex(ns, p)] == EntryOf(NodeAt(ns, p), level + |p| - 1)
  {
    var j := RowIndex(ns[0].children, p[1..]);
    FlattenUnfold(ns, level);
    RowInPart(Flatten(ns, level), [EntryOf(ns[0], level)], Flatten(ns[0].children, level + 1), Flatten(ns[1..], level),
              j, EntryOf(NodeAt(ns, p), level + |p| - 1));
  }

  lemma RowOfSiblingNode(ns: seq<CategoryNode>, level: int, p: seq<nat>)
    requires ValidPath(ns, p) && p[0] > 0
    requires ValidPath(ns[1..], [p[0] - 1] + p[1..])
    requires RowIndex(ns[1..], [p[0] - 1] + p[1..]) < |Flatten(ns[1..], level)|
    requires Flatten(ns[1..], level)[RowIndex(ns[1..], [p[0] - 1] + p[1..])] ==
               EntryOf(NodeAt(ns[1..], [p[0] - 1] + p[1..]), level + |[p[0] - 1] + p[1..]| - 1)
    ensures RowIndex(ns, p) < |Flatten(ns, level)|
    ensures Flatten(ns, level)[RowIndex(ns, p)] == EntryOf(NodeAt(ns, p), level + |p| - 1)
  {
    var q := [p[0] - 1] + p[1..];
    PathFromRest(ns, p);
    RowIndexSibling(ns, p);
    FlattenSplit(ns, level);
    assert |q| == |p|;
    RowInPart(Flatten(ns, level), [EntryOf(ns[0], level)] + Flatten(ns[0].children, level + 1), Flatten(ns[1..], level), [],
              RowIndex(ns[1..], q), EntryOf(NodeAt(ns, p), level + |p| - 1));
  }

  lemma RowIndexSibling(ns: seq<CategoryNode>, p: seq<nat>)
    requires ValidPath(ns, p) && p[0] > 0
    ensures ValidPath(ns[1..], [p[0] - 1] + p[1..])
    ensures RowIndex(ns, p) == 1 + Size(ns[0].children) + RowIndex(ns[1..], [p[0] - 1] + p[1..])
  {
    PathFromRest(ns, p);
  }

  lemma FlattenSplit(ns: seq<CategoryNode>, level: int)
    requires |ns| > 0
    ensures Flatten(ns, level) == ([EntryOf(ns[0], level)] + Flatten(ns[0].children, level + 1)) + Flatten(ns[1..], level)
    ensures |[EntryOf(ns[0], level)] + Flatten(ns[0].children, level + 1)| == 1 + Size(ns[0].children)
  {
  }

  /** The path to the `k`-th node leads back to position `k`. */
  lemma {:induction false} RowIndexOfPathOf(ns: seq<CategoryNode>, k: nat)
    requires k < Size(ns)
    ensures RowIndex(ns, PathOf(ns, k)) == k
    decreases ns
  {
    var nc := Size(ns[0].children);
    if k == 0 {
    } else if k - 1 < nc {
      var q := PathOf(ns[0].children, k - 1);
      PathOfChild(ns, k);
      RowIndexOfPathOf(ns[0].children, k - 1);
      var p := [0] + q;
      assert p[1..] == q;
    } else {
      var q := PathOf(ns[1..], k - 1 - nc);
      PathOfSibling(ns, k);
      RowIndexOfPathOf(ns[1..], k - 1 - nc);
      var p := [q[0] + 1] + q[1..];
      assert [p[0] - 1] + p[1..] == q;
    }
  }

  /**
   * Every picker row is the node its pre-order position leads to, with the
   * starting level plus that node's depth.
   */
  lemma FlattenNodeOfRow(ns: seq<CategoryNode>, level: int, k: nat)
    requires k < |Flatten(ns, level)|
    ensures Flatten(ns, level)[k] == EntryOf(NodeAt(ns, PathOf(ns, k)), level + |PathOf(ns, k)| - 1)
  {
    var p := PathOf(ns, k);
    RowIndexOfPathOf(ns, k);
    FlattenRowOfNode(ns, level, p);
    SameRow(Flatten(ns, level), RowIndex(ns, p), k, EntryOf(NodeAt(ns, p), level + |p| - 1));
  }

  /** A row fact carried over to an equal index without unfolding `Flatten`. */
  lemma SameRow(rows: seq<FlatEntry>, i: nat, k: nat, x: FlatEntry)
    requires i == k && i < |rows| && rows[i] == x
    ensures rows[k] == x
  {
  }

  // ---------------------------------------------------------------------
  // The edits at any depth

  /** No node strictly above the end of the path carries the id. */
  predicate AncestorsAvoid(ns: seq<CategoryNode>, p: seq<nat>, id: string)
    requires ValidPath(ns, p)
    decreases |p|
  {
    |p| == 1 || (ns[p[0]].id != id && AncestorsAvoid(ns[p[0]].children, p[1..], id))
  }

  lemma {:induction false} ToggleIndex(ns: seq<CategoryNode>, id: string, i: nat)
    requires i < |ns|
    ensures Toggle(ns, id)[i] ==
              (if ns[i].id == id then Flipped(ns[i]) else ns[i].(children := Toggle(ns[i].children, id)))
    decreases i
  {
    ToggleCons(ns, id);
    if i > 0 {
      ToggleIndex(ns[1..], id, i - 1);
      assert ns[1..][i - 1] == ns[i];
    }
  }

  /**
   * A toggle reaches every node whose ancestors do not carry the id: such a
   * node is flipped when it carries the id, and otherwise keeps its flag
   * while its children are toggled in turn.
   */
  lemma {:induction false} ToggleAtDepth(ns: seq<CategoryNode>, id: string, p: seq<nat>)
    requires ValidPath(ns, p) && AncestorsAvoid(ns, p, id)
    ensures ValidPath(Toggle(ns, id), p)
    ensures NodeAt(Toggle(ns, id), p) ==
              (if NodeAt(ns, p).id == id then Flipped(NodeAt(ns, p))
               else NodeAt(ns, p).(children := Toggle(NodeAt(ns, p).children, id)))
    decreases |p|
  {
    ToggleIndex(ns, id, p[0]);
    if |p| > 1 {
      ToggleAtDepth(ns[p[0]].children, id, p[1..]);
    }
  }

  lemma {:induction false} AddNodeIndex(ns: seq<CategoryNode>, parentId: string, child: CategoryNode, i: nat)
    requires i < |ns|
    ensures AddNode(ns, parentId, child)[i] ==
              (if ns[i].id == parentId then WithChild(ns[i], child)
               else ns[i].(children := AddNode(ns[i].children, parentId, child)))
    decreases i
  {
    AddNodeCons(ns, parentId, child);
    if i > 0 {
      AddNodeIndex(ns[1..], parentId, child, i - 1);
      assert ns[1..][i - 1] == ns[i];
    }
  }

  /**
   * An addition reaches every node whose ancestors are not the parent: such
   * a node gets the child and is opened when it is the parent, and otherwise
   * keeps its id, name and flag while its children are searched in turn.
   */
  lemma {:induction false} AddNodeAtDepth(ns: seq<CategoryNode>, parentId: string, child: CategoryNode, p: seq<nat>)
    requires ValidPath(ns, p) && AncestorsAvoid(ns, p, parentId)
    ensures ValidPath(AddNode(ns, parentId, child), p)
    ensures NodeAt(AddNode(ns, parentId, child), p) ==
              (if NodeAt(ns, p).id == parentId then WithChild(NodeAt(ns, p), child)
               else NodeAt(ns, p).(children := AddNode(NodeAt(ns, p).children, parentId, child)))
    decreases |p|
  {
    AddNodeIndex(ns, parentId, child, p[0]);
    if |p| > 1 {
      AddNodeAtDepth(ns[p[0]].children, parentId, child, p[1..]);
    }
  }

  lemma {:induction false} UpdateNodeIndex(ns: seq<CategoryNode>, id: string, newName: string, i: nat)
    requires i < |ns|
    ensures UpdateNode(ns, id, newName)[i] ==
              (if ns[i].id == id then ns[i].(name := newName)
               else ns[i].(children := UpdateNode(ns[i].children, id, newName)))
    decreases i
  {
    UpdateNodeCons(ns, id, newName);
    if i > 0 {
      UpdateNodeIndex(ns[1..], id, newName, i - 1);
      assert ns[1..][i - 1] == ns[i];
    }
  }

  /**
   * A rename reaches every node whose ancestors do not carry the id: such a
   * node gets the new name when it carries the id, and otherwise keeps its
   * id, name and flag while its children are renamed in turn.
   */
  lemma {:induction false} UpdateNodeAtDepth(ns: seq<CategoryNode>, id: string, newName: string, p: seq<nat>)
    requires ValidPath(ns, p) && AncestorsAvoid(ns, p, id)
    ensures ValidPath(UpdateNode(ns, id, newName), p)
    ensures NodeAt(UpdateNode(ns, id, newName), p) ==
              (if NodeAt(ns, p).id == id then NodeAt(ns, p).(name := newName)
               else NodeAt(ns, p).(children := UpdateNode(NodeAt(ns, p).children, id, newName)))
    decreases |p|
  {
    UpdateNodeIndex(ns, id, newName, p[0]);
    if |p| > 1 {
      UpdateNodeAtDepth(ns[p[0]].children, id, newName, p[1..]);
    }
  }

  // ---------------------------------------------------------------------
  // Deleting, seen in the picker

  /** The leading rows deeper than `level`: what is left of a subtree's rows. */
  function SkipDeeper(es: seq<FlatEntry>, level: int): (r: seq<FlatEntry>)
    ensures |r| <= |es|
    decreases |es|
  {
    if |es| > 0 && es[0].level > level then SkipDeeper(es[1..], level) else es
  }

  /**
   * The picker rows with every row carrying `id` removed, together with the
   * deeper rows that follow it up to the next row at its depth or above.
   */
  function DropRows(es: seq<FlatEntry>, id: string): seq<FlatEntry>
    decreases |es|
  {
    if |es| == 0 then []
    else if es[0].id == id then DropRows(SkipDeeper(es[1..], es[0].level), id)
    else [es[0]] + DropRows(es[1..], id)
  }

  lemma {:induction false} SkipDeeperAll(a: seq<FlatEntry>, b: seq<FlatEntry>, level: int)
    requires forall k | 0 <= k < |a| :: a[k].level > level
    ensures SkipDeeper(a + b, level) == SkipDeeper(b, level)
    decreases |a|
  {
    if |a| == 0 {
      assert a + b == b;
    } else {
      assert (a + b)[0] == a[0];
      assert (a + b)[1..] == a[1..] + b;
      SkipDeeperAll(a[1..], b, level);
    }
  }

  predicate StartsAtOrAbove(es: seq<FlatEntry>, level: int) {
    |es| == 0 || es[0].level <= level
  }

  lemma FlattenCons(n: CategoryNode, rest: seq<CategoryNode>, level: int)
    ensures Flatten([n] + rest, level) == [EntryOf(n, level)] + Flatten(n.children, level + 1) + Flatten(rest, level)
  {
    assert ([n] + rest)[0] == n;
    assert ([n] + rest)[1..] == rest;
  }

  /** A kept row stays in front of what the rest of the rows leave. */
  lemma DropRowsKeep(e: FlatEntry, xs: seq<FlatEntry>, id: string)
    requires e.id != id
    ensures DropRows([e] + xs, id) == [e] + DropRows(xs, id)
  {
    assert ([e] + xs)[0] == e && ([e] + xs)[1..] == xs;
  }

  /** A deleted row takes the deeper rows after it along. */
  lemma DropRowsSkip(e: FlatEntry, below: seq<FlatEntry>, rt: seq<FlatEntry>, id: string)
    requires e.id == id
    requires forall k | 0 <= k < |below| :: below[k].level > e.level
    requires StartsAtOrAbove(rt, e.level)
    ensures DropRows([e] + (below + rt), id) == DropRows(rt, id)
  {
    assert ([e] + (below + rt))[0] == e && ([e] + (below + rt))[1..] == below + rt;
    SkipDeeperAll(below, rt, e.level);
  }

  /** Rows of a forest followed by rows at or above its level start at or above it. */
  lemma FlattenStarts(ns: seq<CategoryNode>, level: int, tail: seq<FlatEntry>)
    requires StartsAtOrAbove(tail, level)
    ensures StartsAtOrAbove(Flatten(ns, level) + tail, level)
  {
    if |ns| > 0 {
      FlattenUnfold(ns, level);
    } else {
      assert Flatten(ns, level) + tail == tail;
    }
  }

  lemma FlattenTail(ns: seq<CategoryNode>, level: int, tail: seq<FlatEntry>)
    requires |ns| > 0
    ensures Flatten(ns, level) + tail ==
              [EntryOf(ns[0], level)] + (Flatten(ns[0].children, level + 1) + (Flatten(ns[1..], level) + tail))
  {
    FlattenUnfold(ns, level);
  }

  lemma {:induction false} DropRowsFlatten(ns: seq<CategoryNode>, id: string, level: int, tail: seq<FlatEntry>)
    requires StartsAtOrAbove(tail, level)
    ensures DropRows(Flatten(ns, level) + tail, id) == Flatten(DeleteNode(ns, id), level) + DropRows(tail, id)
    decreases ns
  {
    if |ns| == 0 {
      assert Flatten(ns, level) + tail == tail;
    } else {
      DropRowsFlatten(ns[1..], id, level, tail);
      FlattenStarts(ns[1..], level, tail);
      if ns[0].id == id {
        DropDeletedHead(ns, id, level, tail);
      } else {
        DropRowsFlatten(ns[0].children, id, level + 1, Flatten(ns[1..], level) + tail);
        DropKeptHead(ns, id, level, tail);
      }
    }
  }

  lemma DropDeletedHead(ns: seq<CategoryNode>, id: string, level: int, tail: seq<FlatEntry>)
    requires |ns| > 0 && ns[0].id == id
    requires StartsAtOrAbove(Flatten(ns[1..], level) + tail, level)
    requires DropRows(Flatten(ns[1..], level) + tail, id) == Flatten(DeleteNode(ns[1..], id), level) + DropRows(tail, id)
    ensures DropRows(Flatten(ns, level) + tail, id) == Flatten(DeleteNode(ns, id), level) + DropRows(tail, id)
  {
    FlattenTail(ns, level, tail);
    DropRowsSkip(EntryOf(ns[0], level), Flatten(ns[0].children, level + 1), Flatten(ns[1..], level) + tail, id);
    assert DeleteNode(ns, id) == DeleteNode(ns[1..], id);
  }

  lemma DropKeptHead(ns: seq<CategoryNode>, id: string, level: int, tail: seq<FlatEntry>)
    requires |ns| > 0 && ns[0].id != id
    requires DropRows(Flatten(ns[1..], level) + tail, id) == Flatten(DeleteNode(ns[1..], id), level) + DropRows(tail, id)
    requires DropRows(Flatten(ns[0].children, level + 1) + (Flatten(ns[1..], level) + tail), id) ==
               Flatten(DeleteNode(ns[0].children, id), level + 1) + DropRows(Flatten(ns[1..], level) + tail, id)
    ensures DropRows(Flatten(ns, level) + tail, id) == Flatten(DeleteNode(ns, id), level) + DropRows(tail, id)
  {
    var e := EntryOf(ns[0], level);
    var head := ns[0].(children := DeleteNode(ns[0].children, id));
    var restD := DeleteNode(ns[1..], id);
    var a := Flatten(head.children, level + 1);
    var b := Flatten(restD, level);
    var c := DropRows(tail, id);
    FlattenTail(ns, level, tail);
    DropRowsKeep(e, Flatten(ns[0].children, level + 1) + (Flatten(ns[1..], level) + tail), id);
    assert DeleteNode(ns, id) == [head] + restD;
    FlattenCons(head, restD, level);
    assert DropRows(Flatten(ns, level) + tail, id) == [e] + (a + (b + c));
    assert Flatten(DeleteNode(ns, id), level) == [e] + a + b;
    RowsAssoc([e], a, b, c);
  }

  lemma RowsAssoc(e: seq<FlatEntry>, a: seq<FlatEntry>, b: seq<FlatEntry>, c: seq<FlatEntry>)
    ensures e + (a + (b + c)) == (e + a + b) + c
  {
    AppendAssoc(e + a, b, c);
    AppendAssoc(e, a, b + c);
  }

  /**
   * In the category picker, a deletion removes the rows of the nodes carrying
   * the id and of their descendants, and leaves every other row, with its
   * level, in place.
   */
  lemma DeleteNodeRows(ns: seq<CategoryNode>, id: string, level: int)
    ensures Flatten(DeleteNode(ns, id), level) == DropRows(Flatten(ns, level), id)
  {
    DropRowsFlatten(ns, id, level, []);
    assert Flatten(ns, level) + [] == Flatten(ns, level);
    assert Flatten(DeleteNode(ns, id), level) + [] == Flatten(DeleteNode(ns, id), level);
  }
}

=== FILE: common.dfy ===
/**
 * Small shared vocabulary: an optional value for the console's optional
 * fields, and the JavaScript truthiness rules the console relies on when it
 * writes `x || default` or tests `if (x)`.
 */
module Common {

  /** An optional field of a record: `None` is JavaScript `undefined`. */
  datatype Option<+T> = None | Some(value: T) {

    /** The value, or `default` when absent (JavaScript `x ?? default`). */
    function GetOr(default: T): T {
      match this
      case Some(v) => v
      case None => default
    }
  }

  /** An optional number is truthy when it is present and not zero. */
  predicate NumTruthy(o: Option<int>) {
    o.Some? && o.value != 0
  }

  /** An optional flag is truthy only when it is present and true. */
  predicate FlagTruthy(o: Option<bool>) {
    o == Some(true)
  }

  /** JavaScript `n || d` on an optional number: absent and zero fall back to `d`. */
  function NumOr(o: Option<int>, d: int): int {
    if NumTruthy(o) then o.value else d
  }

  /** JavaScript `s || d` on a string: the empty string falls back to `d`. */
  function StrOr(s: string, d: string): string {
    if s != "" then s else d
  }

  /** JavaScript `o || d` on an optional string. */
  function OptStrOr(o: Option<string>, d: string): string {
    if o.Some? && o.value != "" then o.value else d
  }
}

=== FILE: data_channel.dfy ===
/**
 * The data channel screens: the list of connections (save from the modal,
 * delete), the rule the connection modal applies when saving (id and
 * status), the status label of a connection card, and the archive's record
 * filter (source, search term, date prefix). The connection test is random
 * and is a parameter: only its outcome enters the model.
 */
module DataChannel {
  import opened Common
  import opened Lists
  import opened NumText
  import opened Types

  // ---------------------------------------------------------------------
  // Substring and prefix tests

  /** `t` occurs in `s` starting at position `i`. */
  predicate OccursAt(s: string, t: string, i: int) {
    0 <= i <= |s| - |t| && s[i..i + |t|] == t
  }

  /** `s.includes(t)`: `t` occurs in `s` at some position. */
  function Includes(s: string, t: string): (r: bool)
    ensures r <==> exists i :: OccursAt(s, t, i)
    decreases |s|
  {
    if |t| > |s| then false
    else if t <= s then
      assert OccursAt(s, t, 0);
      true
    else
      var r := Includes(s[1..], t);
      IncludesShift(s, t);
      r
  }

  lemma IncludesShift(s: string, t: string)
    requires |t| <= |s| && !(t <= s)
    ensures (exists i :: OccursAt(s, t, i)) <==> (exists i :: OccursAt(s[1..], t, i))
  {
    if exists i :: OccursAt(s, t, i) {
      var i :| OccursAt(s, t, i);
      assert i != 0;
      assert s[1..][i - 1..i - 1 + |t|] == s[i..i + |t|];
      assert OccursAt(s[1..], t, i - 1);
    }
    if exists i :: OccursAt(s[1..], t, i) {
      var i :| OccursAt(s[1..], t, i);
      assert s[i + 1..i + 1 + |t|] == s[1..][i..i + |t|];
      assert OccursAt(s, t, i + 1);
    }
  }

  /** Occurrence is transitive: a piece of a piece of `s` is a piece of `s`. */
  lemma IncludesTransitive(s: string, t: string, u: string)
    requires Includes(s, t) && Includes(t, u)
    ensures Includes(s, u)
  {
    var i :| OccursAt(s, t, i);
    var j :| OccursAt(t, u, j);
    assert t[j..j + |u|] == s[i..i + |t|][j..j + |u|];
    var inner := s[i..i + |t|][j..j + |u|];
    var direct := s[i + j..i + j + |u|];
    forall k | 0 <= k < |u|
      ensures inner[k] == direct[k]
    {
      assert inner[k] == s[i + j + k];
    }
    assert inner == direct;
    assert OccursAt(s, u, i + j);
  }

  /** A prefix of a prefix of `s` is a prefix of `s`. */
  lemma PrefixTransitive(s: string, t: string, u: string)
    requires t <= s && u <= t
    ensures u <= s
  {
  }

  // ---------------------------------------------------------------------
  // The archive filter

  /** The three archive filters; an empty one is off. */
  datatype ArchiveFilter = ArchiveFilter(sourceId: string, search: string, date: string)

  const NoFilter := ArchiveFilter("", "", "")

  predicate MatchSource(f: ArchiveFilter, r: DataRecord) {
    f.sourceId == "" || r.sourceId == f.sourceId
  }

  predicate MatchSearch(f: ArchiveFilter, r: DataRecord) {
    f.search == "" || Includes(r.objectName, f.search) || Includes(r.indicatorName, f.search) || Includes(r.batchId, f.search)
  }

  predicate MatchDate(f: ArchiveFilter, r: DataRecord) {
    f.date == "" || f.date <= r.collectionTime
  }

  predicate Matches(f: ArchiveFilter, r: DataRecord) {
    MatchSource(f, r) && MatchSearch(f, r) && MatchDate(f, r)
  }

  function MatchesFn(f: ArchiveFilter): DataRecord -> bool {
    (r: DataRecord) => Matches(f, r)
  }

  /**
   * The archive table's rows: the records that pass the source, search and
   * date filters, in their order.
   */
  function FilterRecords(records: seq<DataRecord>, f: ArchiveFilter): (r: seq<DataRecord>)
    ensures IsSubsequence(r, records)
    ensures forall i | 0 <= i < |r| :: Matches(f, r[i])
    ensures forall i | 0 <= i < |records| :: Matches(f, records[i]) ==> records[i] in r
    ensures f == NoFilter ==> r == records
  {
    NoFilterKeepsAll(records);
    Filter(records, MatchesFn(f))
  }

  lemma NoFilterKeepsAll(records: seq<DataRecord>)
    ensures Filter(records, MatchesFn(NoFilter)) == records
  {
    FilterAll(records, MatchesFn(NoFilter));
  }

  /** A matching record is shown as often as it occurs in the archive, a failing one never. */
  lemma FilterRecordsExact(records: seq<DataRecord>, f: ArchiveFilter)
    ensures forall i | 0 <= i < |records| ::
              multiset(FilterRecords(records, f))[records[i]] ==
              if Matches(f, records[i]) then multiset(records)[records[i]] else 0
  {
    FilterMultiset(records, MatchesFn(f));
  }

  /** A record is shown exactly when it passes all three filters. */
  lemma ShownIffMatches(records: seq<DataRecord>, f: ArchiveFilter, x: DataRecord)
    requires x in records
    ensures x in FilterRecords(records, f) <==> Matches(f, x)
  {
  }

  /** `g` narrows `f`: every record `g` lets through, `f` lets through. */
  predicate Narrows(g: ArchiveFilter, f: ArchiveFilter) {
    (f.sourceId == "" || g.sourceId == f.sourceId) &&
    (f.search == "" || (g.search != "" && Includes(g.search, f.search))) &&
    (f.date == "" || (g.date != "" && f.date <= g.date))
  }

  lemma NarrowsMatch(g: ArchiveFilter, f: ArchiveFilter, x: DataRecord)
    requires Narrows(g, f) && Matches(g, x)
    ensures Matches(f, x)
  {
    if f.search != "" {
      if Includes(x.objectName, g.search) {
        IncludesTransitive(x.objectName, g.search, f.search);
      } else if Includes(x.indicatorName, g.search) {
        IncludesTransitive(x.indicatorName, g.search, f.search);
      } else {
        IncludesTransitive(x.batchId, g.search, f.search);
      }
    }
  }

  /**
   * Typing more of a search term or a date, or picking a source, can only
   * remove rows: the rows under the narrower filter are a subsequence of the
   * rows under the wider one.
   */
  lemma NarrowingFilterShrinks(records: seq<DataRecord>, g: ArchiveFilter, f: ArchiveFilter)
    requires Narrows(g, f)
    ensures IsSubsequence(FilterRecords(records, g), FilterRecords(records, f))
  {
    forall i | 0 <= i < |records| && Matches(g, records[i])
      ensures Matches(f, records[i])
    {
      NarrowsMatch(g, f, records[i]);
    }
    FilterStronger(records, MatchesFn(g), MatchesFn(f));
  }

  // ---------------------------------------------------------------------
  // The connection list

  function ConnectionKey(c: DataConnection): string {
    c.id
  }

  function Always(c: DataConnection): DataConnection -> DataConnection {
    _ => c
  }

  /**
   * `handleSaveConnection`: while editing, every connection with the saved
   * id is replaced by it; otherwise it is appended.
   */
  function SaveConnection(conns: seq<DataConnection>, editing: bool, c: DataConnection): (r: seq<DataConnection>)
    ensures editing ==> |r| == |conns|
    ensures editing ==> forall i | 0 <= i < |conns| :: r[i] == (if conns[i].id == c.id then c else conns[i])
    ensures !editing ==> r == conns + [c]
  {
    if editing then UpdateKey(conns, ConnectionKey, c.id, Always(c)) else conns + [c]
  }

  /** `handleDeleteConnection`: after confirmation every connection with the id goes. */
  function DeleteConnection(conns: seq<DataConnection>, id: string, confirmed: bool): (r: seq<DataConnection>)
    ensures !confirmed ==> r == conns
    ensures confirmed ==> forall i | 0 <= i < |r| :: r[i].id != id
    ensures confirmed ==> forall i | 0 <= i < |conns| && conns[i].id != id :: conns[i] in r
    ensures IsSubsequence(r, conns)
  {
    if confirmed then RemoveKey(conns, ConnectionKey, id)
    else
      SubsequenceRefl(conns);
      conns
  }

  /** After confirmation every connection with another id stays, as often as it occurred. */
  lemma DeleteConnectionKeepsOthers(conns: seq<DataConnection>, id: string)
    ensures forall i | 0 <= i < |conns| ::
              multiset(DeleteConnection(conns, id, true))[conns[i]] ==
              if conns[i].id != id then multiset(conns)[conns[i]] else 0
  {
    RemoveKeyMultiset(conns, ConnectionKey, id);
  }

  /** Deleting what was just saved, new or edited, is deleting its id from the list before. */
  lemma DeleteAfterSave(conns: seq<DataConnection>, editing: bool, c: DataConnection)
    ensures DeleteConnection(SaveConnection(conns, editing, c), c.id, true) == DeleteConnection(conns, c.id, true)
  {
    if editing {
      RemoveKeyAfterUpdate(conns, ConnectionKey, c.id, Always(c));
    } else {
      RemoveKeyAfterAppend(conns, ConnectionKey, c);
    }
  }

  /** Saving a connection back unchanged leaves a list where its id names only it. */
  lemma SaveUnchanged(conns: seq<DataConnection>, c: DataConnection)
    requires forall i | 0 <= i < |conns| && conns[i].id == c.id :: conns[i] == c
    ensures SaveConnection(conns, true, c) == conns
  {
  }

  // ---------------------------------------------------------------------
  // The connection modal

  /** Outcome of the modal's connection test. */
  datatype TestStatus = Idle | Testing | Succeeded | Failed

  /** The form of a new connection. */
  const NewConnectionForm := DataConnection(
    "", "", DatabaseConn, "", Disconnected, "从未同步", "", Some(Daily),
    Some(ConnectionConfig(Some("3306"), None, None, None, None, Some(NoAuth), None)))

  /**
   * Opening the modal: a copy of the edited connection, or the new-connection
   * form; the test starts idle.
   */
  function OpenConnectionModal(connection: Option<DataConnection>): (r: (DataConnection, TestStatus))
    ensures r.1 == Idle
    ensures connection.Some? ==> r.0 == connection.value
    ensures connection.None? ==> r.0.id == "" && r.0.status == Disconnected && r.0.name == ""
  {
    (connection.GetOr(NewConnectionForm), Idle)
  }

  /**
   * `ConnectionModal.handleSave`: the form's id, or `conn-` and the clock
   * when it has none; `connected` after a successful test, otherwise the
   * form's status. Every other field is the form's.
   */
  function ModalSave(form: DataConnection, test: TestStatus, now: nat): (r: DataConnection)
    ensures form.id != "" ==> r.id == form.id
    ensures form.id == "" ==> r.id == "conn-" + NatToString(now)
    ensures r.id != ""
    ensures r.status == Connected <==> test == Succeeded || form.status == Connected
    ensures test != Succeeded ==> r.status == form.status
    ensures r.(id := form.id, status := form.status) == form
  {
    form.(id := StrOr(form.id, "conn-" + NatToString(now)),
          status := if test == Succeeded then Connected else form.status)
  }

  /** Editing a connection and saving without a test gives it back as it was. */
  lemma EditSaveUntested(c: DataConnection, now: nat)
    requires c.id != ""
    ensures ModalSave(OpenConnectionModal(Some(c)).0, Idle, now) == c
  {
  }

  /** A new connection saved without a successful test is not connected. */
  lemma NewSaveUntested(test: TestStatus, now: nat)
    requires test != Succeeded
    ensures ModalSave(OpenConnectionModal(None).0, test, now).status == Disconnected
  {
  }

  // ---------------------------------------------------------------------
  // The status label

  /** The label of a connection card's status. */
  function StatusLabel(s: ConnectionStatus): (text: string)
    ensures text == "运行正常" || text == "连接异常" || text == "未连接"
    ensures text == "运行正常" <==> s == Connected
    ensures text == "连接异常" <==> s == ConnectionError
  {
    match s
    case Connected => "运行正常"
    case ConnectionError => "连接异常"
    case Disconnected => "未连接"
  }

  /** Distinct statuses get distinct labels. */
  lemma StatusLabelInjective(a: ConnectionStatus, b: ConnectionStatus)
    requires StatusLabel(a) == StatusLabel(b)
    ensures a == b
  {
  }
}

=== FILE: indicator_library.dfy ===
/**
 * The indicator library screen: the category modal (add a root category,
 * add a sub-category, rename), deleting a category with the current
 * selection, saving a new indicator from its modal, and inserting a snippet
 * into the calculation script at the caret. The clock is a parameter `now`
 * (milliseconds, as `Date.now()`).
 */
module IndicatorLibrary {
  import opened Common
  import opened Lists
  import opened NumText
  import opened Types
  import opened CategoryTree

  // ---------------------------------------------------------------------
  // Blank input: JavaScript `trim`

  /** The characters JavaScript's `trim` removes: white space and line terminators. */
  predicate IsJsSpace(c: char) {
    c == ' ' || c == '\t' || c == '\n' || c == '\r' || c == '\U{000B}' || c == '\U{000C}' ||
    c == '\U{00A0}' || c == '\U{FEFF}' || c == '\U{1680}' || ('\U{2000}' <= c <= '\U{200A}') ||
    c == '\U{2028}' || c == '\U{2029}' || c == '\U{202F}' || c == '\U{205F}' || c == '\U{3000}'
  }

  predicate AllSpace(s: string) {
    forall i | 0 <= i < |s| :: IsJsSpace(s[i])
  }

  function TrimStart(s: string): (r: string)
    ensures |r| <= |s| && r == s[|s| - |r|..]
    ensures |r| > 0 ==> !IsJsSpace(r[0])
    ensures AllSpace(s[..|s| - |r|])
    decreases |s|
  {
    if |s| > 0 && IsJsSpace(s[0]) then
      var r := TrimStart(s[1..]);
      assert s[1..][..|s| - 1 - |r|] == s[1..|s| - |r|];
      r
    else s
  }

  function TrimEnd(s: string): (r: string)
    ensures |r| <= |s| && r == s[..|r|]
    ensures |r| > 0 ==> !IsJsSpace(r[|r| - 1])
    ensures AllSpace(s[|r|..])
    decreases |s|
  {
    if |s| > 0 && IsJsSpace(s[|s| - 1]) then
      var r := TrimEnd(s[..|s| - 1]);
      assert s[..|s| - 1][|r|..] == s[|r|..|s| - 1];
      r
    else s
  }

  /** `String.prototype.trim`: white space removed from both ends. */
  function Trim(s: string): (r: string) {
    TrimEnd(TrimStart(s))
  }

  /** `!s.trim()` holds exactly when every character of `s` is white space. */
  lemma TrimEmptyIffAllSpace(s: string)
    ensures Trim(s) == "" <==> AllSpace(s)
  {
    var t := TrimStart(s);
    if Trim(s) == "" {
      assert AllSpace(t[0..]);
      assert |t| == 0;
      assert s[..|s|] == s;
    }
  }

  // ---------------------------------------------------------------------
  // The category modal

  datatype ModalKind = AddRoot | AddSub | EditName

  /** The category modal: open flag, purpose, the node it acts on, the text field. */
  datatype CategoryModal = CategoryModal(open: bool, kind: ModalKind, targetId: Option<string>, input: string)

  /** A target id is usable when present and non-empty (JavaScript truthiness). */
  predicate TargetTruthy(t: Option<string>) {
    t.Some? && t.value != ""
  }

  /** The node a save creates: `cat-` and the clock, no children, no flag. */
  function NewCategory(now: nat, name: string): (n: CategoryNode)
    ensures |n.id| >= 4 && n.id[..4] == "cat-" && n.children == [] && n.isOpen == None && n.name == name
  {
    CategoryNode("cat-" + NatToString(now), name, [], None)
  }

  /** Opening the modal to rename `node`: the field starts with its current name. */
  function OpenEdit(node: CategoryNode): (m: CategoryModal)
    ensures m.open && m.kind == EditName && TargetTruthy(m.targetId) == (node.id != "")
    ensures m.targetId == Some(node.id) && m.input == node.name
  {
    CategoryModal(true, EditName, Some(node.id), node.name)
  }

  /**
   * `handleCategoryModalSave`: a blank name changes nothing and keeps the
   * modal open; otherwise the modal's action is applied (adding a child or
   * renaming needs a truthy target) and the modal closes.
   */
  function CategoryModalSave(tree: seq<CategoryNode>, modal: CategoryModal, now: nat): (r: (seq<CategoryNode>, CategoryModal))
    ensures Trim(modal.input) == "" ==> r == (tree, modal)
    ensures Trim(modal.input) != "" ==> r.1 == modal.(open := false)
    ensures Trim(modal.input) != "" && modal.kind == AddRoot ==> r.0 == tree + [NewCategory(now, modal.input)]
    ensures Trim(modal.input) != "" && modal.kind == AddSub && TargetTruthy(modal.targetId) ==>
              r.0 == AddNode(tree, modal.targetId.value, NewCategory(now, modal.input))
    ensures Trim(modal.input) != "" && modal.kind == EditName && TargetTruthy(modal.targetId) ==>
              r.0 == UpdateNode(tree, modal.targetId.value, modal.input)
    ensures modal.kind != AddRoot && !TargetTruthy(modal.targetId) ==> r.0 == tree
    ensures modal.kind != AddRoot ==> Ids(r.0) == Ids(tree) || (modal.kind == AddSub && |Ids(r.0)| > |Ids(tree)|)
  {
    if Trim(modal.input) == "" then (tree, modal)
    else
      var node := NewCategory(now, modal.input);
      var next :=
        match modal.kind
        case AddRoot => tree + [node]
        case AddSub => if TargetTruthy(modal.targetId) then AddNode(tree, modal.targetId.value, node) else tree
        case EditName => if TargetTruthy(modal.targetId) then UpdateNode(tree, modal.targetId.value, modal.input) else tree;
      AddNodeGrows(tree, modal.targetId.GetOr(""), node);
      UpdateNodeKeepsShape(tree, modal.targetId.GetOr(""), modal.input);
      (next, modal.(open := false))
  }

  /** Adding a child under a present parent adds at least one id; under an absent one, none. */
  lemma AddNodeGrows(tree: seq<CategoryNode>, parentId: string, child: CategoryNode)
    ensures Ids(AddNode(tree, parentId, child)) == Ids(tree) || |Ids(AddNode(tree, parentId, child))| > |Ids(tree)|
  {
    var r := AddNode(tree, parentId, child);
    if parentId in Ids(tree) {
      AddNodeIdsGrow(tree, parentId, child);
    }
  }

  lemma {:induction false} AddNodeIdsGrow(ns: seq<CategoryNode>, parentId: string, child: CategoryNode)
    ensures |Ids(AddNode(ns, parentId, child))| >= |Ids(ns)|
    ensures parentId in Ids(ns) ==> |Ids(AddNode(ns, parentId, child))| > |Ids(ns)|
    decreases ns
  {
    if |ns| > 0 {
      var n := ns[0];
      var r := AddNode(ns, parentId, child);
      assert r[1..] == AddNode(ns[1..], parentId, child);
      IdsCons(n, ns[1..]);
      IdsCons(r[0], r[1..]);
      assert ns == [n] + ns[1..] && r == [r[0]] + r[1..];
      AddNodeIdsGrow(ns[1..], parentId, child);
      if n.id == parentId {
        WithChildIds(n, child);
      } else {
        AddNodeIdsGrow(n.children, parentId, child);
      }
    }
  }

  /** Renaming twice is renaming once with the second name. */
  lemma {:induction false} RenameTwice(ns: seq<CategoryNode>, id: string, a: string, b: string)
    ensures UpdateNode(UpdateNode(ns, id, a), id, b) == UpdateNode(ns, id, b)
    decreases ns
  {
    if |ns| > 0 {
      var once := UpdateNode(ns, id, a);
      assert once[1..] == UpdateNode(ns[1..], id, a);
      RenameTwice(ns[1..], id, a, b);
      if ns[0].id != id {
        RenameTwice(ns[0].children, id, a, b);
      }
      var lhs := UpdateNode(once, id, b);
      var rhs := UpdateNode(ns, id, b);
      assert lhs[0] == rhs[0];
      assert lhs == [lhs[0]] + lhs[1..] && rhs == [rhs[0]] + rhs[1..];
    }
  }

  /** Saving the rename modal with the name it opened with, twice over, is saving it once. */
  lemma EditSaveIdempotent(tree: seq<CategoryNode>, node: CategoryNode, now: nat)
    ensures var once := CategoryModalSave(tree, OpenEdit(node), now).0;
            CategoryModalSave(once, OpenEdit(node), now).0 == once
  {
    if Trim(node.name) != "" && node.id != "" {
      RenameTwice(tree, node.id, node.name, node.name);
    }
  }

  // ---------------------------------------------------------------------
  // Deleting a category

  /** The category selected when the screen opens, and the one a deletion falls back to. */
  const RootId := "root"

  /**
   * `handleDelete` as written: after confirmation the subtree goes, and the
   * selection falls back to the root only when it was the deleted node itself.
   */
  function HandleDeleteAsWritten(tree: seq<CategoryNode>, selected: string, id: string, confirmed: bool): (r: (seq<CategoryNode>, string))
    ensures !confirmed ==> r == (tree, selected)
    ensures confirmed ==> r.0 == DeleteNode(tree, id) && id !in Ids(r.0)
    ensures confirmed && selected == id ==> r.1 == RootId
    ensures selected != id ==> r.1 == selected
  {
    if !confirmed then (tree, selected)
    else (DeleteNode(tree, id), if selected == id then RootId else selected)
  }

  /** Deleting a parent of the selected category leaves the selection naming a node that is gone. */
  lemma DanglingSelectionAfterDelete()
    ensures var tree := [CategoryNode("root", "all", [CategoryNode("c2", "data", [CategoryNode("c2-1", "cloud", [], None)], None)], Some(true))];
            var r := HandleDeleteAsWritten(tree, "c2-1", "c2", true);
            "c2-1" in Ids(tree) && r.1 == "c2-1" && r.1 !in Ids(r.0)
  {
    var leaf := CategoryNode("c2-1", "cloud", [], None);
    var mid := CategoryNode("c2", "data", [leaf], None);
    var root := CategoryNode("root", "all", [mid], Some(true));
    IdsCons(leaf, []);
    IdsCons(mid, []);
    IdsCons(root, []);
    assert [root] == [root] + [];
    assert [mid] == [mid] + [];
    assert [leaf] == [leaf] + [];
    assert Ids([root]) == ["root", "c2", "c2-1"];
  }

  /**
   * `handleDelete` with the selection kept on a node of the tree: it falls
   * back to the root whenever the selected node went with the subtree.
   */
  function HandleDelete(tree: seq<CategoryNode>, selected: string, id: string, confirmed: bool): (r: (seq<CategoryNode>, string))
    ensures !confirmed ==> r == (tree, selected)
    ensures confirmed ==> r.0 == DeleteNode(tree, id) && id !in Ids(r.0)
    ensures confirmed ==> r.1 in Ids(r.0) || r.1 == RootId
    ensures confirmed ==> (r.1 == selected <==> selected in Ids(r.0) || selected == RootId)
  {
    if !confirmed then (tree, selected)
    else
      var rest := DeleteNode(tree, id);
      (rest, if selected in Ids(rest) then selected else RootId)
  }

  /** The two agree whenever the selection is the deleted node or outlives the deletion. */
  lemma HandleDeleteAgrees(tree: seq<CategoryNode>, selected: string, id: string, confirmed: bool)
    requires confirmed && selected != id ==> selected in Ids(DeleteNode(tree, id))
    ensures HandleDelete(tree, selected, id, confirmed) == HandleDeleteAsWritten(tree, selected, id, confirmed)
  {
  }

  // ---------------------------------------------------------------------
  // Saving a new indicator

  /** What the indicator modal's save button does. */
  datatype SaveOutcome = SaveOutcome(indicators: seq<Indicator>, modalOpen: bool, alerted: bool)

  function IndicatorKey(x: Indicator): string {
    x.id
  }

  /**
   * Saving the indicator form: with a name and a category the form becomes a
   * quantitative indicator whose id is the clock, appended to the library,
   * and the modal closes; otherwise an alert, and nothing else changes.
   */
  function SaveIndicator(indicators: seq<Indicator>, form: Indicator, now: nat): (r: SaveOutcome)
    ensures form.name != "" && form.category != "" <==> !r.alerted
    ensures r.alerted ==> r.indicators == indicators && r.modalOpen
    ensures !r.alerted ==> !r.modalOpen && |r.indicators| == |indicators| + 1 && r.indicators[..|indicators|] == indicators
    ensures !r.alerted ==> r.indicators[|indicators|] == form.(id := NatToString(now), kind := Quantitative)
  {
    if form.name != "" && form.category != "" then
      var saved := indicators + [form.(id := NatToString(now), kind := Quantitative)];
      assert saved[..|indicators|] == indicators;
      SaveOutcome(saved, false, false)
    else SaveOutcome(indicators, true, true)
  }

  /** Removing the saved id afterwards gives back the library, when the clock value was not in use. */
  lemma SaveThenRemove(indicators: seq<Indicator>, form: Indicator, now: nat)
    requires forall i | 0 <= i < |indicators| :: indicators[i].id != NatToString(now)
    ensures RemoveKey(SaveIndicator(indicators, form, now).indicators, IndicatorKey, NatToString(now)) == indicators
  {
    var k := NatToString(now);
    RemoveKeyAbsent(indicators, IndicatorKey, k);
    if form.name != "" && form.category != "" {
      RemoveKeyAfterAppend(indicators, IndicatorKey, form.(id := k, kind := Quantitative));
    }
  }

  // ---------------------------------------------------------------------
  // Inserting into the calculation script

  /** A string index clamped into `[0, len]`, as `substring` treats its arguments. */
  function ClampIndex(i: int, len: nat): (r: nat)
    ensures r <= len
    ensures 0 <= i <= len ==> r == i
    ensures i < 0 ==> r == 0
    ensures i > len ==> r == len
  {
    if i < 0 then 0 else if i > len then len else i
  }

  /** `String.prototype.substring(a, b)`: both bounds clamped, swapped when reversed. */
  function Substring(s: string, a: int, b: int): (r: string)
    ensures 0 <= a <= b <= |s| ==> r == s[a..b]
    ensures 0 <= b <= a <= |s| ==> r == s[b..a]
    ensures a <= 0 && |s| <= b ==> r == s
    ensures |r| <= |s|
  {
    var x := ClampIndex(a, |s|);
    var y := ClampIndex(b, |s|);
    if x <= y then s[x..y] else s[y..x]
  }

  lemma SubstringSymmetric(s: string, a: int, b: int)
    ensures Substring(s, a, b) == Substring(s, b, a)
  {
  }

  /** The script textarea's selection, when the textarea is mounted. */
  datatype Caret = Caret(start: int, end: int)

  /**
   * `insertText`: with the textarea, the selection is replaced by `text` and
   * the caret goes after it; without, `text` is appended and no caret is set.
   */
  function InsertText(script: Option<string>, caret: Option<Caret>, text: string): (r: (string, Option<int>))
    ensures caret.None? ==> r == (OptStrOr(script, "") + text, None)
    ensures caret.Some? ==> r.1 == Some(caret.value.start + |text|)
    ensures caret.Some? && 0 <= caret.value.start <= caret.value.end <= |OptStrOr(script, "")| ==>
              var s := OptStrOr(script, "");
              var (a, b) := (caret.value.start, caret.value.end);
              |r.0| == |s| - (b - a) + |text| &&
              r.0[..a] == s[..a] && r.0[a..a + |text|] == text && r.0[a + |text|..] == s[b..]
  {
    var current := OptStrOr(script, "");
    match caret
    case None => (current + text, None)
    case Some(c) =>
      var v := Substring(current, 0, c.start) + text + Substring(current, c.end, |current|);
      (v, Some(c.start + |text|))
  }

  /** Inserting two snippets one after the other, at the caret the first left, is inserting both at once. */
  lemma InsertTwice(script: string, a: int, b: int, t1: string, t2: string)
    requires 0 <= a <= b <= |script|
    ensures var first := InsertText(Some(script), Some(Caret(a, b)), t1);
            InsertText(Some(first.0), Some(Caret(first.1.value, first.1.value)), t2) ==
            InsertText(Some(script), Some(Caret(a, b)), t1 + t2)
  {
    var s1 := script[..a] + t1 + script[b..];
    var k := a + |t1|;
    OptStrOrSome(script);
    assert InsertText(Some(script), Some(Caret(a, b)), t1) == (s1, Some(k));
    OptStrOrSome(s1);
    assert s1[..k] == script[..a] + t1;
    assert s1[k..] == script[b..];
    assert InsertText(Some(s1), Some(Caret(k, k)), t2).0 == s1[..k] + t2 + s1[k..];
    assert script[..a] + t1 + t2 + script[b..] == script[..a] + (t1 + t2) + script[b..];
  }

  lemma OptStrOrSome(s: string)
    ensures OptStrOr(Some(s), "") == s
  {
  }
}

=== FILE: lists.dfy ===
/**
 * Sequence operations the console uses on every list it keeps: keeping the
 * elements that pass a test (`Array.filter`), rewriting the elements that
 * pass a test (`Array.map` with a condition), joining texts with a separator
 * (`Array.join`), and the relation "keeps its relative order" that filtering
 * promises.
 */
module Lists {

  /** `a` can be obtained from `b` by deleting elements. */
  predicate IsSubsequence<T(==)>(a: seq<T>, b: seq<T>)
    decreases |b|
  {
    |a| == 0 ||
    (|b| > 0 &&
      ((a[0] == b[0] && IsSubsequence(a[1..], b[1..])) || IsSubsequence(a, b[1..])))
  }

  lemma {:induction false} SubsequenceRefl<T>(a: seq<T>)
    ensures IsSubsequence(a, a)
    decreases |a|
  {
    if |a| > 0 {
      SubsequenceRefl(a[1..]);
    }
  }

  lemma {:induction false} SubsequenceConsRight<T>(a: seq<T>, x: T, b: seq<T>)
    requires IsSubsequence(a, b)
    ensures IsSubsequence(a, [x] + b)
  {
    assert ([x] + b)[1..] == b;
  }

  lemma {:induction false} SubsequenceCons<T>(x: T, a: seq<T>, b: seq<T>)
    requires IsSubsequence(a, b)
    ensures IsSubsequence([x] + a, [x] + b)
  {
    assert ([x] + a)[1..] == a;
    assert ([x] + b)[1..] == b;
  }

  lemma {:induction false} SubsequenceEmpty<T>(b: seq<T>)
    ensures IsSubsequence([], b)
  {
  }

  /** Subsequences of two sequences concatenate to a subsequence of their concatenation. */
  lemma {:induction false} SubsequenceAppend<T>(a: seq<T>, b: seq<T>, c: seq<T>, d: seq<T>)
    requires IsSubsequence(a, b) && IsSubsequence(c, d)
    ensures IsSubsequence(a + c, b + d)
    decreases |b|
  {
    if |a| == 0 {
      assert a + c == c;
      SubsequenceSuffix(c, b, d);
    } else {
      assert |b| > 0;
      assert (b + d)[0] == b[0];
      assert (b + d)[1..] == b[1..] + d;
      if a[0] == b[0] && IsSubsequence(a[1..], b[1..]) {
        SubsequenceAppend(a[1..], b[1..], c, d);
        assert (a + c)[0] == a[0];
        assert (a + c)[1..] == a[1..] + c;
      } else {
        SubsequenceAppend(a, b[1..], c, d);
      }
    }
  }

  /** A subsequence of `d` is a subsequence of any `b + d`. */
  lemma {:induction false} SubsequenceSuffix<T>(c: seq<T>, b: seq<T>, d: seq<T>)
    requires IsSubsequence(c, d)
    ensures IsSubsequence(c, b + d)
    decreases |b|
  {
    if |b| > 0 {
      SubsequenceSuffix(c, b[1..], d);
      assert b + d == [b[0]] + (b[1..] + d);
      SubsequenceConsRight(c, b[0], b[1..] + d);
    } else {
      assert b + d == d;
    }
  }

  /** Every element of a subsequence occurs in the sequence. */
  lemma {:induction false} SubsequenceMembers<T>(a: seq<T>, b: seq<T>)
    requires IsSubsequence(a, b)
    ensures forall i | 0 <= i < |a| :: a[i] in b
    decreases |b|
  {
    if |a| > 0 {
      if a[0] == b[0] && IsSubsequence(a[1..], b[1..]) {
        SubsequenceMembers(a[1..], b[1..]);
        assert a == [a[0]] + a[1..];
        assert b == [b[0]] + b[1..];
      } else {
        SubsequenceMembers(a, b[1..]);
        assert b == [b[0]] + b[1..];
      }
    }
  }

  /** A subsequence is never longer than the sequence. */
  lemma {:induction false} SubsequenceLength<T>(a: seq<T>, b: seq<T>)
    requires IsSubsequence(a, b)
    ensures |a| <= |b|
    decreases |b|
  {
    if |a| > 0 {
      if a[0] == b[0] && IsSubsequence(a[1..], b[1..]) {
        SubsequenceLength(a[1..], b[1..]);
      } else {
        SubsequenceLength(a, b[1..]);
      }
    }
  }

  /**
   * `Array.filter`: the elements of `xs` that pass `keep`, in their order.
   */
  function Filter<T(==)>(xs: seq<T>, keep: T -> bool): (r: seq<T>)
    ensures forall i | 0 <= i < |r| :: keep(r[i]) && r[i] in xs
    ensures forall i | 0 <= i < |xs| && keep(xs[i]) :: xs[i] in r
    ensures IsSubsequence(r, xs)
    ensures |r| <= |xs|
    decreases |xs|
  {
    if |xs| == 0 then
      []
    else
      var rest := Filter(xs[1..], keep);
      assert xs == [xs[0]] + xs[1..];
      if keep(xs[0]) then
        SubsequenceCons(xs[0], rest, xs[1..]);
        [xs[0]] + rest
      else
        SubsequenceConsRight(rest, xs[0], xs[1..]);
        rest
  }

  /** Filtering keeps a passing value as often as it occurs, and a failing value never. */
  lemma {:induction false} FilterCount<T>(xs: seq<T>, keep: T -> bool, x: T)
    ensures multiset(Filter(xs, keep))[x] == if keep(x) then multiset(xs)[x] else 0
    decreases |xs|
  {
    if |xs| > 0 {
      FilterCount(xs[1..], keep, x);
      assert xs == [xs[0]] + xs[1..];
      assert multiset(xs) == multiset([xs[0]]) + multiset(xs[1..]);
      if keep(xs[0]) {
        var rest := Filter(xs[1..], keep);
        assert multiset([xs[0]] + rest) == multiset([xs[0]]) + multiset(rest);
      }
    }
  }

  /**
   * The passing elements are kept exactly: each as often as it occurs in
   * `xs`, and nothing else. With `IsSubsequence` this determines the result.
   */
  lemma FilterMultiset<T>(xs: seq<T>, keep: T -> bool)
    ensures forall i | 0 <= i < |xs| ::
              multiset(Filter(xs, keep))[xs[i]] == if keep(xs[i]) then multiset(xs)[xs[i]] else 0
    ensures forall i | 0 <= i < |Filter(xs, keep)| :: Filter(xs, keep)[i] in multiset(xs)
  {
    forall i | 0 <= i < |xs|
      ensures multiset(Filter(xs, keep))[xs[i]] == if keep(xs[i]) then multiset(xs)[xs[i]] else 0
    {
      FilterCount(xs, keep, xs[i]);
    }
  }

  /** Filtering with a test every element passes changes nothing. */
  lemma {:induction false} FilterAll<T>(xs: seq<T>, keep: T -> bool)
    requires forall i | 0 <= i < |xs| :: keep(xs[i])
    ensures Filter(xs, keep) == xs
    decreases |xs|
  {
    if |xs| > 0 {
      FilterAll(xs[1..], keep);
      assert xs == [xs[0]] + xs[1..];
    }
  }

  /** Filtering distributes over concatenation. */
  lemma {:induction false} FilterAppend<T>(xs: seq<T>, ys: seq<T>, keep: T -> bool)
    ensures Filter(xs + ys, keep) == Filter(xs, keep) + Filter(ys, keep)
    decreases |xs|
  {
    if |xs| == 0 {
      assert xs + ys == ys;
    } else {
      assert (xs + ys)[0] == xs[0];
      assert (xs + ys)[1..] == xs[1..] + ys;
      FilterAppend(xs[1..], ys, keep);
    }
  }

  /** Filtering with a stricter test keeps a subsequence of what the looser test keeps. */
  lemma {:induction false} FilterStronger<T>(xs: seq<T>, strict: T -> bool, loose: T -> bool)
    requires forall i | 0 <= i < |xs| :: strict(xs[i]) ==> loose(xs[i])
    ensures IsSubsequence(Filter(xs, strict), Filter(xs, loose))
    decreases |xs|
  {
    if |xs| == 0 {
      SubsequenceEmpty<T>([]);
    } else {
      FilterStronger(xs[1..], strict, loose);
      var a := Filter(xs[1..], strict);
      var b := Filter(xs[1..], loose);
      if strict(xs[0]) {
        SubsequenceCons(xs[0], a, b);
      } else if loose(xs[0]) {
        SubsequenceConsRight(a, xs[0], b);
      }
    }
  }

  /**
   * `Array.map(x => cond(x) ? change(x) : x)`: rewrite the elements that
   * pass `cond`, leave the others as they are.
   */
  function MapWhere<T>(xs: seq<T>, cond: T -> bool, change: T -> T): (r: seq<T>)
    ensures |r| == |xs|
    ensures forall i | 0 <= i < |xs| :: r[i] == (if cond(xs[i]) then change(xs[i]) else xs[i])
  {
    seq(|xs|, i requires 0 <= i < |xs| => if cond(xs[i]) then change(xs[i]) else xs[i])
  }

  lemma MapWhereTail<T>(xs: seq<T>, cond: T -> bool, change: T -> T)
    requires |xs| > 0
    ensures MapWhere(xs, cond, change)[1..] == MapWhere(xs[1..], cond, change)
  {
  }

  /**
   * Rewriting elements and then dropping them changes nothing when every
   * rewritten element is dropped both before and after its rewrite.
   */
  lemma {:induction false} FilterMapWhere<T>(xs: seq<T>, cond: T -> bool, change: T -> T, keep: T -> bool)
    requires forall i | 0 <= i < |xs| :: cond(xs[i]) ==> !keep(xs[i]) && !keep(change(xs[i]))
    ensures Filter(MapWhere(xs, cond, change), keep) == Filter(xs, keep)
    decreases |xs|
  {
    if |xs| > 0 {
      var ys := MapWhere(xs, cond, change);
      MapWhereTail(xs, cond, change);
      FilterMapWhere(xs[1..], cond, change, keep);
      assert Filter(ys[1..], keep) == Filter(xs[1..], keep);
    }
  }

  /** A subsequence of a list without duplicates has none either. */
  lemma {:induction false} SubsequenceNoDuplicates<T>(a: seq<T>, b: seq<T>)
    requires IsSubsequence(a, b) && NoDuplicates(b)
    ensures NoDuplicates(a)
    decreases |b|
  {
    if |a| > 0 {
      if a[0] == b[0] && IsSubsequence(a[1..], b[1..]) {
        SubsequenceNoDuplicates(a[1..], b[1..]);
        SubsequenceMembers(a[1..], b[1..]);
        forall i, j | 0 <= i < j < |a|
          ensures a[i] != a[j]
        {
          if i == 0 {
            assert a[j] == a[1..][j - 1];
            var k :| 0 <= k < |b[1..]| && b[1..][k] == a[j];
            assert b[k + 1] == a[j];
          } else {
            assert a[i] == a[1..][i - 1] && a[j] == a[1..][j - 1];
          }
        }
      } else {
        SubsequenceNoDuplicates(a, b[1..]);
      }
    }
  }

  /** Two lists without duplicates and with no element in common concatenate to one without duplicates. */
  lemma NoDuplicatesAppend<T>(a: seq<T>, b: seq<T>)
    requires NoDuplicates(a) && NoDuplicates(b)
    requires forall i, j | 0 <= i < |a| && 0 <= j < |b| :: a[i] != b[j]
    ensures NoDuplicates(a + b)
  {
    var ab := a + b;
    forall i, j | 0 <= i < j < |ab|
      ensures ab[i] != ab[j]
    {
      if j < |a| {
      } else if i < |a| {
        assert ab[j] == b[j - |a|];
      } else {
        assert ab[i] == b[i - |a|] && ab[j] == b[j - |a|];
      }
    }
  }

  // ---------------------------------------------------------------------
  // Lists of records keyed by an id

  /** `xs.filter(x => key(x) !== k)`: drop every element with key `k`. */
  function RemoveKey<T(==)>(xs: seq<T>, key: T -> string, k: string): (r: seq<T>)
    ensures forall i | 0 <= i < |r| :: key(r[i]) != k
    ensures forall i | 0 <= i < |xs| && key(xs[i]) != k :: xs[i] in r
    ensures IsSubsequence(r, xs)
  {
    Filter(xs, x => key(x) != k)
  }

  /** Removing a key keeps every other element exactly as often as it occurs. */
  lemma RemoveKeyMultiset<T>(xs: seq<T>, key: T -> string, k: string)
    ensures forall i | 0 <= i < |xs| ::
              multiset(RemoveKey(xs, key, k))[xs[i]] == if key(xs[i]) != k then multiset(xs)[xs[i]] else 0
  {
    FilterMultiset(xs, x => key(x) != k);
  }

  /** `xs.map(x => key(x) === k ? change(x) : x)`: rewrite every element with key `k`. */
  function UpdateKey<T>(xs: seq<T>, key: T -> string, k: string, change: T -> T): (r: seq<T>)
    ensures |r| == |xs|
    ensures forall i | 0 <= i < |xs| && key(xs[i]) != k :: r[i] == xs[i]
    ensures forall i | 0 <= i < |xs| && key(xs[i]) == k :: r[i] == change(xs[i])
  {
    MapWhere(xs, x => key(x) == k, change)
  }

  /** Removing the key of an element just appended also removes that element. */
  lemma RemoveKeyAfterAppend<T>(xs: seq<T>, key: T -> string, x: T)
    ensures RemoveKey(xs + [x], key, key(x)) == RemoveKey(xs, key, key(x))
  {
    FilterAppend(xs, [x], y => key(y) != key(x));
    assert Filter([x], y => key(y) != key(x)) == [];
  }

  /** Removing a key no element has changes nothing. */
  lemma RemoveKeyAbsent<T>(xs: seq<T>, key: T -> string, k: string)
    requires forall i | 0 <= i < |xs| :: key(xs[i]) != k
    ensures RemoveKey(xs, key, k) == xs
  {
    FilterAll(xs, x => key(x) != k);
  }

  /** Removing a key after rewriting its elements (keeping their key) is removing it outright. */
  lemma RemoveKeyAfterUpdate<T>(xs: seq<T>, key: T -> string, k: string, change: T -> T)
    requires forall i | 0 <= i < |xs| && key(xs[i]) == k :: key(change(xs[i])) == k
    ensures RemoveKey(UpdateKey(xs, key, k, change), key, k) == RemoveKey(xs, key, k)
  {
    FilterMapWhere(xs, x => key(x) == k, change, x => key(x) != k);
  }

  lemma AppendAssoc<T>(a: seq<T>, b: seq<T>, c: seq<T>)
    ensures (a + b) + c == a + (b + c)
  {
  }

  /** `parts.join(sep)`. */
  function Join(sep: string, parts: seq<string>): string
    decreases |parts|
  {
    if |parts| == 0 then ""
    else if |parts| == 1 then parts[0]
    else parts[0] + (sep + Join(sep, parts[1..]))
  }

  /** A join of two or more parts is the first part, the separator, then the join of the rest. */
  lemma JoinCons(sep: string, parts: seq<string>)
    requires |parts| > 1
    ensures Join(sep, parts) == parts[0] + (sep + Join(sep, parts[1..]))
  {
  }

  /** A join of non-empty parts is empty exactly when there are no parts. */
  lemma {:induction false} JoinEmpty(sep: string, parts: seq<string>)
    requires forall i | 0 <= i < |parts| :: parts[i] != ""
    ensures Join(sep, parts) == "" <==> |parts| == 0
  {
    if |parts| > 0 {
      assert Join(sep, parts)[..|parts[0]|] == parts[0];
    }
  }

  /** The elements of `xs` with no duplicates among them. */
  predicate NoDuplicates<T(==)>(xs: seq<T>) {
    forall i, j | 0 <= i < j < |xs| :: xs[i] != xs[j]
  }
}

=== FILE: model_configs.dfy ===
/**
 * The indicator step of the model editor: the list of indicator
 * configurations bound into a model, the id of the configuration being
 * edited (`selectedIndId`, `None` for `null`), and the edits the step offers.
 * Every edit replaces the list with a new one.
 */
module ModelConfigs {
  import opened Common
  import opened Lists
  import opened Types

  // ---------------------------------------------------------------------
  // Total weight

  /** `item.weight || 0`. */
  function WeightOf(c: ModelIndicatorConfig): int {
    NumOr(c.weight, 0)
  }

  /** Sum of every configuration's `weight || 0`; a sum other than 100 is only displayed. */
  function TotalWeight(cs: seq<ModelIndicatorConfig>): int
    decreases |cs|
  {
    if |cs| == 0 then 0 else WeightOf(cs[0]) + TotalWeight(cs[1..])
  }

  /**
   * The empty list totals 0, one configuration totals its own weight, and
   * weights within 0..100 give a total within 0..100 per configuration.
   */
  lemma {:induction false} TotalWeightBounds(cs: seq<ModelIndicatorConfig>)
    ensures |cs| == 0 ==> TotalWeight(cs) == 0
    ensures |cs| == 1 ==> TotalWeight(cs) == WeightOf(cs[0])
    ensures (forall i | 0 <= i < |cs| :: 0 <= WeightOf(cs[i]) <= 100) ==> 0 <= TotalWeight(cs) <= 100 * |cs|
    decreases |cs|
  {
    if |cs| > 0 {
      TotalWeightBounds(cs[1..]);
      assert forall i | 1 <= i < |cs| :: cs[1..][i - 1] == cs[i];
    }
  }

  /** The total weight of two lists put together is the sum of their totals. */
  lemma {:induction false} TotalWeightAppend(a: seq<ModelIndicatorConfig>, b: seq<ModelIndicatorConfig>)
    ensures TotalWeight(a + b) == TotalWeight(a) + TotalWeight(b)
    decreases |a|
  {
    if |a| > 0 {
      assert (a + b)[1..] == a[1..] + b;
      TotalWeightAppend(a[1..], b);
    } else {
      assert a + b == b;
    }
  }

  /** Splitting the list by any test splits its total weight. */
  lemma {:induction false} TotalWeightSplit(cs: seq<ModelIndicatorConfig>, keep: ModelIndicatorConfig -> bool)
    ensures TotalWeight(cs) == TotalWeight(Filter(cs, keep)) + TotalWeight(Filter(cs, (c: ModelIndicatorConfig) => !keep(c)))
    decreases |cs|
  {
    if |cs| > 0 {
      TotalWeightSplit(cs[1..], keep);
    }
  }

  // ---------------------------------------------------------------------
  // Selection

  function IdsOf(cs: seq<ModelIndicatorConfig>): (ids: seq<string>)
    ensures |ids| == |cs|
    ensures forall i | 0 <= i < |cs| :: ids[i] == cs[i].indicatorId
  {
    seq(|cs|, i requires 0 <= i < |cs| => cs[i].indicatorId)
  }

  /** The configuration is the one `selectedIndId` names (`null` names none). */
  function IsSelected(sel: Option<string>): ModelIndicatorConfig -> bool {
    (c: ModelIndicatorConfig) => sel == Some(c.indicatorId)
  }

  /** `indicators.find(i => i.indicatorId === selectedIndId)`: the first selected configuration. */
  function FindSelected(cs: seq<ModelIndicatorConfig>, sel: Option<string>): (r: Option<ModelIndicatorConfig>)
    ensures r.Some? ==> r.value in cs && sel == Some(r.value.indicatorId)
    ensures r.None? ==> forall i | 0 <= i < |cs| :: sel != Some(cs[i].indicatorId)
    ensures r.Some? ==> exists k | 0 <= k < |cs| :: cs[k] == r.value && forall j | 0 <= j < k :: sel != Some(cs[j].indicatorId)
    decreases |cs|
  {
    if |cs| == 0 then None
    else if sel == Some(cs[0].indicatorId) then Some(cs[0])
    else
      var r := FindSelected(cs[1..], sel);
      assert forall i | 1 <= i < |cs| :: cs[i] == cs[1..][i - 1];
      r
  }

  /** JavaScript `!selectedIndId` is false: a non-empty id is selected. */
  predicate HasSelection(sel: Option<string>) {
    sel.Some? && sel.value != ""
  }

  // ---------------------------------------------------------------------
  // Adding indicators

  /** The configuration a newly added indicator gets. */
  function DefaultConfig(id: string): ModelIndicatorConfig {
    ModelIndicatorConfig(
      id, Some(0), Some(10), Some(Threshold),
      Some(EmptyRuleConfig.(thresholds := Some([]), ratioType := Some(Proportional))),
      Some(""), Some(false), Some(false))
  }

  function AbsentFrom(ids: seq<string>): string -> bool {
    x => x !in ids
  }

  /** Default configurations for the picked ids not yet in the list, in pick order. */
  function NewConfigs(cs: seq<ModelIndicatorConfig>, picked: seq<string>): (r: seq<ModelIndicatorConfig>)
    ensures forall i | 0 <= i < |r| :: r[i] == DefaultConfig(r[i].indicatorId)
    ensures IdsOf(r) == Filter(picked, AbsentFrom(IdsOf(cs)))
  {
    var newIds := Filter(picked, AbsentFrom(IdsOf(cs)));
    var r := seq(|newIds|, i requires 0 <= i < |newIds| => DefaultConfig(newIds[i]));
    assert IdsOf(r) == newIds;
    r
  }

  lemma {:induction false} TotalWeightOfDefaults(r: seq<ModelIndicatorConfig>)
    requires forall i | 0 <= i < |r| :: r[i] == DefaultConfig(r[i].indicatorId)
    ensures TotalWeight(r) == 0
    decreases |r|
  {
    if |r| > 0 {
      assert WeightOf(r[0]) == 0;
      TotalWeightOfDefaults(r[1..]);
    }
  }

  lemma IdsOfAppend(a: seq<ModelIndicatorConfig>, b: seq<ModelIndicatorConfig>)
    ensures IdsOf(a + b) == IdsOf(a) + IdsOf(b)
  {
  }

  /** What appending the new configurations does to the list. */
  lemma AppendNewConfigs(cs: seq<ModelIndicatorConfig>, picked: seq<string>)
    ensures var all := cs + NewConfigs(cs, picked);
            && (forall i | |cs| <= i < |all| ::
                  all[i] == DefaultConfig(all[i].indicatorId) &&
                  all[i].indicatorId in picked && all[i].indicatorId !in IdsOf(cs))
            && (forall i | 0 <= i < |picked| :: picked[i] in IdsOf(all))
            && (NoDuplicates(IdsOf(cs)) && NoDuplicates(picked) ==> NoDuplicates(IdsOf(all)))
            && TotalWeight(all) == TotalWeight(cs)
  {
    var added := NewConfigs(cs, picked);
    var all := cs + added;
    var ids := IdsOf(cs);
    var addedIds := Filter(picked, AbsentFrom(ids));
    IdsOfAppend(cs, added);
    TotalWeightAppend(cs, added);
    TotalWeightOfDefaults(added);
    forall i | |cs| <= i < |all|
      ensures all[i].indicatorId in picked && all[i].indicatorId !in ids
    {
      assert all[i] == added[i - |cs|];
      assert addedIds[i - |cs|] == added[i - |cs|].indicatorId;
    }
    forall i | 0 <= i < |picked|
      ensures picked[i] in IdsOf(all)
    {
      if picked[i] !in ids {
        assert AbsentFrom(ids)(picked[i]);
      }
    }
    if NoDuplicates(ids) && NoDuplicates(picked) {
      SubsequenceNoDuplicates(addedIds, picked);
      NoDuplicatesAppend(ids, addedIds);
    }
  }

  /**
   * `confirmAddIndicators`: append a default configuration for every picked
   * id (a set, so `picked` has no duplicates) that is not in the list yet;
   * if something was added and nothing is selected, select the first addition.
   */
  function ConfirmAddIndicators(cs: seq<ModelIndicatorConfig>, sel: Option<string>, picked: seq<string>)
    : (r: (seq<ModelIndicatorConfig>, Option<string>))
    ensures |r.0| >= |cs| && r.0[..|cs|] == cs
    ensures forall i | |cs| <= i < |r.0| ::
              r.0[i] == DefaultConfig(r.0[i].indicatorId) &&
              r.0[i].indicatorId in picked && r.0[i].indicatorId !in IdsOf(cs)
    ensures forall i | 0 <= i < |picked| :: picked[i] in IdsOf(r.0)
    ensures NoDuplicates(IdsOf(cs)) && NoDuplicates(picked) ==> NoDuplicates(IdsOf(r.0))
    ensures TotalWeight(r.0) == TotalWeight(cs)
    ensures HasSelection(sel) || |r.0| == |cs| ==> r.1 == sel
    ensures !HasSelection(sel) && |r.0| > |cs| ==> r.1 == Some(r.0[|cs|].indicatorId)
  {
    var added := NewConfigs(cs, picked);
    AppendNewConfigs(cs, picked);
    assert (cs + added)[..|cs|] == cs;
    if |added| > 0 then
      (cs + added, if HasSelection(sel) then sel else Some(added[0].indicatorId))
    else
      assert cs + added == cs;
      (cs, sel)
  }

  // ---------------------------------------------------------------------
  // Removing an indicator

  function OtherThan(id: string): ModelIndicatorConfig -> bool {
    (c: ModelIndicatorConfig) => c.indicatorId != id
  }

  /**
   * `removeIndicator`: drop every configuration of the indicator; if it was
   * the selected one, select the first remaining configuration, or nothing.
   */
  function RemoveIndicator(cs: seq<ModelIndicatorConfig>, sel: Option<string>, id: string)
    : (r: (seq<ModelIndicatorConfig>, Option<string>))
    ensures forall i | 0 <= i < |r.0| :: r.0[i].indicatorId != id
    ensures forall i | 0 <= i < |cs| && cs[i].indicatorId != id :: cs[i] in r.0
    ensures IsSubsequence(r.0, cs)
    ensures sel != Some(id) ==> r.1 == sel
    ensures sel == Some(id) ==> r.1 != sel && (r.1.None? || (|r.0| > 0 && r.1 == Some(r.0[0].indicatorId)))
    ensures sel == Some(id) && |r.0| > 0 && r.0[0].indicatorId != "" ==> r.1 == Some(r.0[0].indicatorId)
    ensures sel == Some(id) && (|r.0| == 0 || r.0[0].indicatorId == "") ==> r.1 == None
  {
    var rest := Filter(cs, OtherThan(id));
    var next := if |rest| > 0 && rest[0].indicatorId != "" then Some(rest[0].indicatorId) else None;
    (rest, if sel == Some(id) then next else sel)
  }

  /** Every configuration of another indicator stays, as often as it occurred. */
  lemma RemoveIndicatorKeepsOthers(cs: seq<ModelIndicatorConfig>, sel: Option<string>, id: string)
    ensures forall i | 0 <= i < |cs| ::
              multiset(RemoveIndicator(cs, sel, id).0)[cs[i]] ==
              if cs[i].indicatorId != id then multiset(cs)[cs[i]] else 0
  {
    FilterMultiset(cs, OtherThan(id));
  }

  /** Removing an indicator takes exactly its weight off the total. */
  lemma RemoveIndicatorWeight(cs: seq<ModelIndicatorConfig>, sel: Option<string>, id: string)
    ensures TotalWeight(RemoveIndicator(cs, sel, id).0) ==
            TotalWeight(cs) - TotalWeight(Filter(cs, (c: ModelIndicatorConfig) => c.indicatorId == id))
  {
    TotalWeightSplit(cs, OtherThan(id));
    assert Filter(cs, (c: ModelIndicatorConfig) => !OtherThan(id)(c)) == Filter(cs, (c: ModelIndicatorConfig) => c.indicatorId == id) by {
      FilterSameTest(cs, (c: ModelIndicatorConfig) => !OtherThan(id)(c), (c: ModelIndicatorConfig) => c.indicatorId == id);
    }
  }

  /** Filters with tests that agree on the list give the same result. */
  lemma {:induction false} FilterSameTest(cs: seq<ModelIndicatorConfig>, p: ModelIndicatorConfig -> bool, q: ModelIndicatorConfig -> bool)
    requires forall i | 0 <= i < |cs| :: p(cs[i]) == q(cs[i])
    ensures Filter(cs, p) == Filter(cs, q)
    decreases |cs|
  {
    if |cs| > 0 {
      FilterSameTest(cs[1..], p, q);
    }
  }

  // ---------------------------------------------------------------------
  // Editing the selected configuration

  /**
   * A `Partial<ModelIndicatorConfig>` of the fields the editor changes: a
   * `None` field is absent from the patch and leaves the configuration's
   * field alone.
   */
  datatype ConfigPatch = ConfigPatch(
    weight: Option<int>,
    maxScore: Option<int>,
    ruleType: Option<RuleType>,
    ruleConfig: Option<RuleConfig>,
    scoringRuleDesc: Option<string>,
    enableEvidence: Option<bool>,
    requireEvidence: Option<bool>)

  const NoChange := ConfigPatch(None, None, None, None, None, None, None)

  /** `{ ...c, ...p }`. */
  function ApplyPatch(c: ModelIndicatorConfig, p: ConfigPatch): (r: ModelIndicatorConfig)
    ensures r.indicatorId == c.indicatorId
  {
    ModelIndicatorConfig(
      c.indicatorId,
      if p.weight.Some? then p.weight else c.weight,
      if p.maxScore.Some? then p.maxScore else c.maxScore,
      if p.ruleType.Some? then p.ruleType else c.ruleType,
      if p.ruleConfig.Some? then p.ruleConfig else c.ruleConfig,
      if p.scoringRuleDesc.Some? then p.scoringRuleDesc else c.scoringRuleDesc,
      if p.enableEvidence.Some? then p.enableEvidence else c.enableEvidence,
      if p.requireEvidence.Some? then p.requireEvidence else c.requireEvidence)
  }

  /** The patch `{ ...p, ...q }`: `q`'s fields win. */
  function ThenPatch(p: ConfigPatch, q: ConfigPatch): ConfigPatch {
    ConfigPatch(
      if q.weight.Some? then q.weight else p.weight,
      if q.maxScore.Some? then q.maxScore else p.maxScore,
      if q.ruleType.Some? then q.ruleType else p.ruleType,
      if q.ruleConfig.Some? then q.ruleConfig else p.ruleConfig,
      if q.scoringRuleDesc.Some? then q.scoringRuleDesc else p.scoringRuleDesc,
      if q.enableEvidence.Some? then q.enableEvidence else p.enableEvidence,
      if q.requireEvidence.Some? then q.requireEvidence else p.requireEvidence)
  }

  /** An empty patch changes nothing; applying a patch twice is applying it once; two patches compose. */
  lemma ApplyPatchLaws(c: ModelIndicatorConfig, p: ConfigPatch, q: ConfigPatch)
    ensures ApplyPatch(c, NoChange) == c
    ensures ApplyPatch(ApplyPatch(c, p), p) == ApplyPatch(c, p)
    ensures ApplyPatch(ApplyPatch(c, p), q) == ApplyPatch(c, ThenPatch(p, q))
  {
  }

  function PatchWith(p: ConfigPatch): ModelIndicatorConfig -> ModelIndicatorConfig {
    c => ApplyPatch(c, p)
  }

  /** `updateActiveConfig`: apply the patch to the selected configurations, leave the others. */
  function UpdateActiveConfig(cs: seq<ModelIndicatorConfig>, sel: Option<string>, p: ConfigPatch)
    : (r: seq<ModelIndicatorConfig>)
    ensures |r| == |cs| && IdsOf(r) == IdsOf(cs)
    ensures forall i | 0 <= i < |cs| && sel != Some(cs[i].indicatorId) :: r[i] == cs[i]
    ensures forall i | 0 <= i < |cs| && sel == Some(cs[i].indicatorId) :: r[i] == ApplyPatch(cs[i], p)
    ensures sel.None? ==> r == cs
  {
    MapWhere(cs, IsSelected(sel), PatchWith(p))
  }

  /** A patch that sets no weight leaves the total weight alone. */
  lemma {:induction false} UpdateKeepsTotalWeight(cs: seq<ModelIndicatorConfig>, sel: Option<string>, p: ConfigPatch)
    requires p.weight.None?
    ensures TotalWeight(UpdateActiveConfig(cs, sel, p)) == TotalWeight(cs)
    decreases |cs|
  {
    if |cs| > 0 {
      MapWhereTail(cs, IsSelected(sel), PatchWith(p));
      UpdateKeepsTotalWeight(cs[1..], sel, p);
    }
  }

  /** After an update, the selected configuration found is the patched one. */
  lemma {:induction false} FindAfterUpdate(cs: seq<ModelIndicatorConfig>, sel: Option<string>, p: ConfigPatch)
    ensures FindSelected(UpdateActiveConfig(cs, sel, p), sel) ==
            (if FindSelected(cs, sel).Some? then Some(ApplyPatch(FindSelected(cs, sel).value, p)) else None)
    decreases |cs|
  {
    if |cs| > 0 {
      MapWhereTail(cs, IsSelected(sel), PatchWith(p));
      FindAfterUpdate(cs[1..], sel, p);
    }
  }

  /** The documented weight range of a configuration under weighted scoring, 0 to 100. */
  predicate WeightInRange(c: ModelIndicatorConfig) {
    c.weight.None? || 0 <= c.weight.value <= 100
  }

  predicate WeightsInRange(cs: seq<ModelIndicatorConfig>) {
    forall i | 0 <= i < |cs| :: WeightInRange(cs[i])
  }

  /**
   * The editor keeps every weight in range as long as each weight it is given
   * is: adding defaults (weight 0), removing, and patching with an in-range
   * weight or none. The input's 0..100 bounds are a hint to the browser, so
   * an out-of-range patch is not excluded by the console itself.
   */
  lemma WeightRangeKept(cs: seq<ModelIndicatorConfig>, sel: Option<string>, picked: seq<string>, id: string, p: ConfigPatch)
    requires WeightsInRange(cs)
    requires p.weight.None? || 0 <= p.weight.value <= 100
    ensures WeightsInRange(ConfirmAddIndicators(cs, sel, picked).0)
    ensures WeightsInRange(RemoveIndicator(cs, sel, id).0)
    ensures WeightsInRange(UpdateActiveConfig(cs, sel, p))
  {
    AddKeepsWeightRange(cs, sel, picked);
    RemoveKeepsWeightRange(cs, sel, id);
    PatchKeepsWeightRange(cs, sel, p);
  }

  lemma PatchKeepsWeightRange(cs: seq<ModelIndicatorConfig>, sel: Option<string>, p: ConfigPatch)
    requires WeightsInRange(cs)
    requires p.weight.None? || 0 <= p.weight.value <= 100
    ensures WeightsInRange(UpdateActiveConfig(cs, sel, p))
  {
    var r := UpdateActiveConfig(cs, sel, p);
    forall i | 0 <= i < |r|
      ensures WeightInRange(r[i])
    {
      assert r[i] == cs[i] || r[i] == ApplyPatch(cs[i], p);
    }
  }

  lemma AddKeepsWeightRange(cs: seq<ModelIndicatorConfig>, sel: Option<string>, picked: seq<string>)
    requires WeightsInRange(cs)
    ensures WeightsInRange(ConfirmAddIndicators(cs, sel, picked).0)
  {
    var added := ConfirmAddIndicators(cs, sel, picked).0;
    forall i | 0 <= i < |added|
      ensures WeightInRange(added[i])
    {
      if i < |cs| {
        assert added[i] == added[..|cs|][i];
      }
    }
  }

  lemma RemoveKeepsWeightRange(cs: seq<ModelIndicatorConfig>, sel: Option<string>, id: string)
    requires WeightsInRange(cs)
    ensures WeightsInRange(RemoveIndicator(cs, sel, id).0)
  {
    var removed := RemoveIndicator(cs, sel, id).0;
    forall i | 0 <= i < |removed|
      ensures WeightInRange(removed[i])
    {
      var j :| 0 <= j < |cs| && cs[j] == removed[i];
    }
  }

  // ---------------------------------------------------------------------
  // Editing the selected configuration's rule parameters

  /** `{ ...base, ...patch }` on rule configurations: a field the patch defines wins. */
  function MergeRule(base: RuleConfig, patch: RuleConfig): (r: RuleConfig) {
    RuleConfig(
      if patch.fullScore.Some? then patch.fullScore else base.fullScore,
      if patch.thresholds.Some? then patch.thresholds else base.thresholds,
      if patch.ratioType.Some? then patch.ratioType else base.ratioType,
      if patch.ratioBase.Some? then patch.ratioBase else base.ratioBase,
      if patch.ratioCoefficient.Some? then patch.ratioCoefficient else base.ratioCoefficient,
      if patch.ratioMin.Some? then patch.ratioMin else base.ratioMin,
      if patch.ratioMax.Some? then patch.ratioMax else base.ratioMax,
      if patch.gradeMapping.Some? then patch.gradeMapping else base.gradeMapping,
      if patch.deductionBase.Some? then patch.deductionBase else base.deductionBase,
      if patch.deductionPerUnit.Some? then patch.deductionPerUnit else base.deductionPerUnit,
      if patch.deductionMin.Some? then patch.deductionMin else base.deductionMin,
      if patch.bonusTrigger.Some? then patch.bonusTrigger else base.bonusTrigger,
      if patch.bonusPerUnit.Some? then patch.bonusPerUnit else base.bonusPerUnit,
      if patch.bonusCap.Some? then patch.bonusCap else base.bonusCap)
  }

  /** Merging nothing is the identity; merging is idempotent and associative. */
  lemma MergeRuleLaws(a: RuleConfig, b: RuleConfig, c: RuleConfig)
    ensures MergeRule(a, EmptyRuleConfig) == a
    ensures MergeRule(EmptyRuleConfig, b) == b
    ensures MergeRule(MergeRule(a, b), b) == MergeRule(a, b)
    ensures MergeRule(MergeRule(a, b), c) == MergeRule(a, MergeRule(b, c))
  {
  }

  /** The rule parameters of the selected configuration (`ruleConfig || {}`), `{}` if none is selected. */
  function ActiveRule(cs: seq<ModelIndicatorConfig>, sel: Option<string>): RuleConfig {
    match FindSelected(cs, sel)
    case Some(a) => a.ruleConfig.GetOr(EmptyRuleConfig)
    case None => EmptyRuleConfig
  }

  /**
   * `r` is `cs` with the rule parameters of every selected configuration
   * replaced by `rc`, every other field and every other configuration as
   * it was.
   */
  predicate RuleSetTo(cs: seq<ModelIndicatorConfig>, sel: Option<string>, rc: RuleConfig, r: seq<ModelIndicatorConfig>) {
    |r| == |cs| &&
    forall i | 0 <= i < |cs| ::
      r[i] == if sel == Some(cs[i].indicatorId) then cs[i].(ruleConfig := Some(rc)) else cs[i]
  }

  function RulePatch(rc: RuleConfig): ConfigPatch {
    NoChange.(ruleConfig := Some(rc))
  }

  /**
   * `updateRuleConfig`: merge the patch into the first selected
   * configuration's rule parameters and store the result in every selected
   * configuration; without a selected configuration, nothing happens.
   */
  function UpdateRuleConfig(cs: seq<ModelIndicatorConfig>, sel: Option<string>, patch: RuleConfig)
    : (r: seq<ModelIndicatorConfig>)
    ensures FindSelected(cs, sel).None? ==> r == cs
    ensures |r| == |cs| && IdsOf(r) == IdsOf(cs)
    ensures forall i | 0 <= i < |cs| && sel != Some(cs[i].indicatorId) :: r[i] == cs[i]
    ensures forall i | 0 <= i < |cs| && sel == Some(cs[i].indicatorId) ::
              r[i] == cs[i].(ruleConfig := Some(MergeRule(ActiveRule(cs, sel), patch)))
    ensures FindSelected(cs, sel).Some? ==> ActiveRule(r, sel) == MergeRule(ActiveRule(cs, sel), patch)
    ensures TotalWeight(r) == TotalWeight(cs)
  {
    match FindSelected(cs, sel)
    case None => cs
    case Some(a) =>
      var p := RulePatch(MergeRule(a.ruleConfig.GetOr(EmptyRuleConfig), patch));
      FindAfterUpdate(cs, sel, p);
      UpdateKeepsTotalWeight(cs, sel, p);
      UpdateActiveConfig(cs, sel, p)
  }

  // ---------------------------------------------------------------------
  // Threshold bands of the selected configuration

  function ThresholdId(t: ThresholdItem): string {
    t.id
  }

  /** The band `addThreshold` appends. */
  function NewThreshold(id: string): ThresholdItem {
    ThresholdItem(id, Le, 80, None, 0)
  }

  /** One field of a band, as the band editor sets it. */
  datatype ThresholdEdit = SetOperator(op: Operator) | SetValue1(v1: int) | SetValue2(v2: int) | SetScore(s: int)

  function EditThreshold(t: ThresholdItem, e: ThresholdEdit): (r: ThresholdItem)
    ensures r.id == t.id
  {
    match e
    case SetOperator(op) => t.(operator := op)
    case SetValue1(v) => t.(value1 := v)
    case SetValue2(v) => t.(value2 := Some(v))
    case SetScore(v) => t.(score := v)
  }

  function ApplyThresholdEdit(e: ThresholdEdit): ThresholdItem -> ThresholdItem {
    t => EditThreshold(t, e)
  }

  /** `ruleConfig?.thresholds || []` of the selected configuration. */
  function ActiveThresholds(cs: seq<ModelIndicatorConfig>, sel: Option<string>): seq<ThresholdItem> {
    ActiveRule(cs, sel).thresholds.GetOr([])
  }

  /** Merging a patch of one field sets that field. */
  lemma MergeThreshold(base: RuleConfig, xs: seq<ThresholdItem>)
    ensures MergeRule(base, WithThresholds(xs)) == base.(thresholds := Some(xs))
  {
  }

  function WithThresholds(ts: seq<ThresholdItem>): RuleConfig {
    EmptyRuleConfig.(thresholds := Some(ts))
  }

  /** `addThreshold`: append a `<= 80 → 0` band with a fresh id. */
  function AddThreshold(cs: seq<ModelIndicatorConfig>, sel: Option<string>, freshId: string)
    : (r: seq<ModelIndicatorConfig>)
    ensures |r| == |cs|
    ensures FindSelected(cs, sel).Some? ==>
              ActiveRule(r, sel) == ActiveRule(cs, sel).(thresholds := Some(ActiveThresholds(cs, sel) + [NewThreshold(freshId)]))
    ensures FindSelected(cs, sel).None? ==> r == cs
    ensures forall i | 0 <= i < |cs| && sel != Some(cs[i].indicatorId) :: r[i] == cs[i]
    ensures RuleSetTo(cs, sel, ActiveRule(cs, sel).(thresholds := Some(ActiveThresholds(cs, sel) + [NewThreshold(freshId)])), r)
  {
    var ts := ActiveThresholds(cs, sel) + [NewThreshold(freshId)];
    MergeThreshold(ActiveRule(cs, sel), ts);
    UpdateRuleConfig(cs, sel, WithThresholds(ts))
  }

  /** `removeThreshold`: drop the bands with the id. */
  function RemoveThreshold(cs: seq<ModelIndicatorConfig>, sel: Option<string>, tid: string)
    : (r: seq<ModelIndicatorConfig>)
    ensures |r| == |cs|
    ensures FindSelected(cs, sel).Some? ==>
              ActiveRule(r, sel) == ActiveRule(cs, sel).(thresholds := Some(RemoveKey(ActiveThresholds(cs, sel), ThresholdId, tid)))
    ensures FindSelected(cs, sel).None? ==> r == cs
    ensures forall i | 0 <= i < |cs| && sel != Some(cs[i].indicatorId) :: r[i] == cs[i]
    ensures RuleSetTo(cs, sel, ActiveRule(cs, sel).(thresholds := Some(RemoveKey(ActiveThresholds(cs, sel), ThresholdId, tid))), r)
  {
    var ts := RemoveKey(ActiveThresholds(cs, sel), ThresholdId, tid);
    MergeThreshold(ActiveRule(cs, sel), ts);
    UpdateRuleConfig(cs, sel, WithThresholds(ts))
  }

  /** `updateThreshold`: set one field of the bands with the id. */
  function UpdateThreshold(cs: seq<ModelIndicatorConfig>, sel: Option<string>, tid: string, e: ThresholdEdit)
    : (r: seq<ModelIndicatorConfig>)
    ensures |r| == |cs|
    ensures FindSelected(cs, sel).Some? ==>
              ActiveRule(r, sel) == ActiveRule(cs, sel).(thresholds := Some(UpdateKey(ActiveThresholds(cs, sel), ThresholdId, tid, ApplyThresholdEdit(e))))
    ensures FindSelected(cs, sel).None? ==> r == cs
    ensures forall i | 0 <= i < |cs| && sel != Some(cs[i].indicatorId) :: r[i] == cs[i]
    ensures RuleSetTo(cs, sel, ActiveRule(cs, sel).(thresholds := Some(UpdateKey(ActiveThresholds(cs, sel), ThresholdId, tid, ApplyThresholdEdit(e)))), r)
  {
    var ts := UpdateKey(ActiveThresholds(cs, sel), ThresholdId, tid, ApplyThresholdEdit(e));
    MergeThreshold(ActiveRule(cs, sel), ts);
    UpdateRuleConfig(cs, sel, WithThresholds(ts))
  }

  /** Removing a band just added with a fresh id restores the bands. */
  lemma RemoveAddedThreshold(cs: seq<ModelIndicatorConfig>, sel: Option<string>, freshId: string)
    requires FindSelected(cs, sel).Some?
    requires forall i | 0 <= i < |ActiveThresholds(cs, sel)| :: ActiveThresholds(cs, sel)[i].id != freshId
    ensures ActiveThresholds(RemoveThreshold(AddThreshold(cs, sel, freshId), sel, freshId), sel) ==
            ActiveThresholds(cs, sel)
  {
    var ts := ActiveThresholds(cs, sel);
    var added := AddThreshold(cs, sel, freshId);
    assert FindSelected(added, sel).Some?;
    RemoveKeyAfterAppend(ts, ThresholdId, NewThreshold(freshId));
    RemoveKeyAbsent(ts, ThresholdId, freshId);
  }

  /** Removing a band after editing it is the same as removing it. */
  lemma RemoveEditedThreshold(cs: seq<ModelIndicatorConfig>, sel: Option<string>, tid: string, e: ThresholdEdit)
    ensures ActiveThresholds(RemoveThreshold(UpdateThreshold(cs, sel, tid, e), sel, tid), sel) ==
            ActiveThresholds(RemoveThreshold(cs, sel, tid), sel)
  {
    var ts := ActiveThresholds(cs, sel);
    if FindSelected(cs, sel).Some? {
      var updated := UpdateThreshold(cs, sel, tid, e);
      assert FindSelected(updated, sel).Some?;
      RemoveKeyAfterUpdate(ts, ThresholdId, tid, ApplyThresholdEdit(e));
    }
  }

  // ---------------------------------------------------------------------
  // Grade mapping of the selected configuration

  function GradeMapId(g: GradeMapItem): string {
    g.id
  }

  /** The pair `addMap` appends: an empty grade name worth 0. */
  function NewGradeMapItem(id: string): GradeMapItem {
    GradeMapItem(id, "", 0)
  }

  datatype GradeMapEdit = SetGradeName(gradeName: string) | SetGradeScore(score: int)

  function EditGradeMapItem(g: GradeMapItem, e: GradeMapEdit): (r: GradeMapItem)
    ensures r.id == g.id
  {
    match e
    case SetGradeName(n) => g.(gradeName := n)
    case SetGradeScore(v) => g.(score := v)
  }

  function ApplyGradeMapEdit(e: GradeMapEdit): GradeMapItem -> GradeMapItem {
    g => EditGradeMapItem(g, e)
  }

  /** `ruleConfig?.gradeMapping || []` of the selected configuration. */
  function ActiveGradeMapping(cs: seq<ModelIndicatorConfig>, sel: Option<string>): seq<GradeMapItem> {
    ActiveRule(cs, sel).gradeMapping.GetOr([])
  }

  /** Merging a patch of one field sets that field. */
  lemma MergeGradeMap(base: RuleConfig, xs: seq<GradeMapItem>)
    ensures MergeRule(base, WithGradeMapping(xs)) == base.(gradeMapping := Some(xs))
  {
  }

  function WithGradeMapping(gs: seq<GradeMapItem>): RuleConfig {
    EmptyRuleConfig.(gradeMapping := Some(gs))
  }

  /** `addMap`: append an empty pair with a fresh id. */
  function AddGradeMapItem(cs: seq<ModelIndicatorConfig>, sel: Option<string>, freshId: string)
    : (r: seq<ModelIndicatorConfig>)
    ensures |r| == |cs|
    ensures FindSelected(cs, sel).Some? ==>
              ActiveRule(r, sel) == ActiveRule(cs, sel).(gradeMapping := Some(ActiveGradeMapping(cs, sel) + [NewGradeMapItem(freshId)]))
    ensures FindSelected(cs, sel).None? ==> r == cs
    ensures forall i | 0 <= i < |cs| && sel != Some(cs[i].indicatorId) :: r[i] == cs[i]
    ensures RuleSetTo(cs, sel, ActiveRule(cs, sel).(gradeMapping := Some(ActiveGradeMapping(cs, sel) + [NewGradeMapItem(freshId)])), r)
  {
    var gs := ActiveGradeMapping(cs, sel) + [NewGradeMapItem(freshId)];
    MergeGradeMap(ActiveRule(cs, sel), gs);
    UpdateRuleConfig(cs, sel, WithGradeMapping(gs))
  }

  /** `removeMap`: drop the pairs with the id. */
  function RemoveGradeMapItem(cs: seq<ModelIndicatorConfig>, sel: Option<string>, gid: string)
    : (r: seq<ModelIndicatorConfig>)
    ensures |r| == |cs|
    ensures FindSelected(cs, sel).Some? ==>
              ActiveRule(r, sel) == ActiveRule(cs, sel).(gradeMapping := Some(RemoveKey(ActiveGradeMapping(cs, sel), GradeMapId, gid)))
    ensures FindSelected(cs, sel).None? ==> r == cs
    ensures forall i | 0 <= i < |cs| && sel != Some(cs[i].indicatorId) :: r[i] == cs[i]
    ensures RuleSetTo(cs, sel, ActiveRule(cs, sel).(gradeMapping := Some(RemoveKey(ActiveGradeMapping(cs, sel), GradeMapId, gid))), r)
  {
    var gs := RemoveKey(ActiveGradeMapping(cs, sel), GradeMapId, gid);
    MergeGradeMap(ActiveRule(cs, sel), gs);
    UpdateRuleConfig(cs, sel, WithGradeMapping(gs))
  }

  /** `updateMap`: set one field of the pairs with the id. */
  function UpdateGradeMapItem(cs: seq<ModelIndicatorConfig>, sel: Option<string>, gid: string, e: GradeMapEdit)
    : (r: seq<ModelIndicatorConfig>)
    ensures |r| == |cs|
    ensures FindSelected(cs, sel).Some? ==>
              ActiveRule(r, sel) == ActiveRule(cs, sel).(gradeMapping := Some(UpdateKey(ActiveGradeMapping(cs, sel), GradeMapId, gid, ApplyGradeMapEdit(e))))
    ensures FindSelected(cs, sel).None? ==> r == cs
    ensures forall i | 0 <= i < |cs| && sel != Some(cs[i].indicatorId) :: r[i] == cs[i]
    ensures RuleSetTo(cs, sel, ActiveRule(cs, sel).(gradeMapping := Some(UpdateKey(ActiveGradeMapping(cs, sel), GradeMapId, gid, ApplyGradeMapEdit(e)))), r)
  {
    var gs := UpdateKey(ActiveGradeMapping(cs, sel), GradeMapId, gid, ApplyGradeMapEdit(e));
    MergeGradeMap(ActiveRule(cs, sel), gs);
    UpdateRuleConfig(cs, sel, WithGradeMapping(gs))
  }

  /** Removing a pair just added with a fresh id restores the mapping. */
  lemma RemoveAddedGradeMapItem(cs: seq<ModelIndicatorConfig>, sel: Option<string>, freshId: string)
    requires FindSelected(cs, sel).Some?
    requires forall i | 0 <= i < |ActiveGradeMapping(cs, sel)| :: ActiveGradeMapping(cs, sel)[i].id != freshId
    ensures ActiveGradeMapping(RemoveGradeMapItem(AddGradeMapItem(cs, sel, freshId), sel, freshId), sel) ==
            ActiveGradeMapping(cs, sel)
  {
    var gs := ActiveGradeMapping(cs, sel);
    var added := AddGradeMapItem(cs, sel, freshId);
    assert FindSelected(added, sel).Some?;
    RemoveKeyAfterAppend(gs, GradeMapId, NewGradeMapItem(freshId));
    RemoveKeyAbsent(gs, GradeMapId, freshId);
  }

  /** Removing a pair after editing it is the same as removing it. */
  lemma RemoveEditedGradeMapItem(cs: seq<ModelIndicatorConfig>, sel: Option<string>, gid: string, e: GradeMapEdit)
    ensures ActiveGradeMapping(RemoveGradeMapItem(UpdateGradeMapItem(cs, sel, gid, e), sel, gid), sel) ==
            ActiveGradeMapping(RemoveGradeMapItem(cs, sel, gid), sel)
  {
    var gs := ActiveGradeMapping(cs, sel);
    if FindSelected(cs, sel).Some? {
      var updated := UpdateGradeMapItem(cs, sel, gid, e);
      assert FindSelected(updated, sel).Some?;
      RemoveKeyAfterUpdate(gs, GradeMapId, gid, ApplyGradeMapEdit(e));
    }
  }

  // ---------------------------------------------------------------------
  // Evidence flags

  /** The documented constraint: evidence can be required only where it is enabled. */
  predicate EvidenceConsistent(c: ModelIndicatorConfig) {
    FlagTruthy(c.requireEvidence) ==> FlagTruthy(c.enableEvidence)
  }

  /** The "enable evidence" checkbox as written: it sets `enableEvidence` only. */
  function SetEvidenceEnabledAsWritten(cs: seq<ModelIndicatorConfig>, sel: Option<string>, enabled: bool)
    : (r: seq<ModelIndicatorConfig>)
    ensures |r| == |cs|
    ensures forall i | 0 <= i < |cs| && sel == Some(cs[i].indicatorId) ::
              r[i] == cs[i].(enableEvidence := Some(enabled))
    ensures forall i | 0 <= i < |cs| && sel != Some(cs[i].indicatorId) :: r[i] == cs[i]
  {
    UpdateActiveConfig(cs, sel, NoChange.(enableEvidence := Some(enabled)))
  }

  /** Disabling evidence on a configuration that requires it leaves it requiring evidence. */
  lemma EvidenceRequiredAfterDisable()
    ensures var c := DefaultConfig("i1").(enableEvidence := Some(true), requireEvidence := Some(true));
            EvidenceConsistent(c) &&
            !EvidenceConsistent(SetEvidenceEnabledAsWritten([c], Some("i1"), false)[0])
  {
    var c := DefaultConfig("i1").(enableEvidence := Some(true), requireEvidence := Some(true));
    assert Some("i1") == Some(c.indicatorId);
  }

  /**
   * The "enable evidence" checkbox, corrected: disabling evidence also
   * clears `requireEvidence`.
   */
  function SetEvidenceEnabled(cs: seq<ModelIndicatorConfig>, sel: Option<string>, enabled: bool)
    : (r: seq<ModelIndicatorConfig>)
    ensures |r| == |cs| && IdsOf(r) == IdsOf(cs)
    ensures forall i | 0 <= i < |cs| && sel == Some(cs[i].indicatorId) ::
              FlagTruthy(r[i].enableEvidence) == enabled && EvidenceConsistent(r[i])
    ensures forall i | 0 <= i < |cs| && sel == Some(cs[i].indicatorId) && enabled ::
              r[i].requireEvidence == cs[i].requireEvidence
    ensures forall i | 0 <= i < |cs| && sel == Some(cs[i].indicatorId) ::
              r[i] == cs[i].(enableEvidence := Some(enabled),
                             requireEvidence := if enabled then cs[i].requireEvidence else Some(false))
    ensures forall i | 0 <= i < |cs| && sel != Some(cs[i].indicatorId) :: r[i] == cs[i]
  {
    var p := NoChange.(enableEvidence := Some(enabled),
                       requireEvidence := if enabled then None else Some(false));
    UpdateActiveConfig(cs, sel, p)
  }

  /**
   * The "require evidence" checkbox, which is shown only while evidence is
   * enabled on the selected configuration.
   */
  function SetEvidenceRequired(cs: seq<ModelIndicatorConfig>, sel: Option<string>, required: bool)
    : (r: seq<ModelIndicatorConfig>)
    ensures |r| == |cs| && IdsOf(r) == IdsOf(cs)
    ensures forall i | 0 <= i < |cs| && sel == Some(cs[i].indicatorId) ::
              r[i] == cs[i].(requireEvidence := Some(required))
    ensures forall i | 0 <= i < |cs| && sel != Some(cs[i].indicatorId) :: r[i] == cs[i]
  {
    UpdateActiveConfig(cs, sel, NoChange.(requireEvidence := Some(required)))
  }

  /** The corrected checkboxes keep every configuration consistent. */
  lemma EvidenceStaysConsistent(cs: seq<ModelIndicatorConfig>, sel: Option<string>, enabled: bool, required: bool)
    requires forall i | 0 <= i < |cs| :: EvidenceConsistent(cs[i])
    ensures forall i | 0 <= i < |cs| :: EvidenceConsistent(SetEvidenceEnabled(cs, sel, enabled)[i])
    ensures (forall i | 0 <= i < |cs| && sel == Some(cs[i].indicatorId) :: FlagTruthy(cs[i].enableEvidence)) ==>
            forall i | 0 <= i < |cs| :: EvidenceConsistent(SetEvidenceRequired(cs, sel, required)[i])
  {
  }
}

=== FILE: model_editor.dfy ===
/**
 * The evaluation-model list and its three-step editor: creating, editing,
 * saving, copying and deleting models, the grade levels of the draft, and
 * the wizard's step index. The clock and id generator are parameters
 * (`today`, `freshId`); the delete confirmation is a flag.
 */
module ModelEditor {
  import opened Common
  import opened Lists
  import opened Types

  /** The fields of a model the editor's form holds while it is being edited. */
  datatype Draft = Draft(
    name: string,
    version: string,
    tags: seq<string>,
    description: string,
    scoringMethod: ScoringMethod,
    indicators: seq<ModelIndicatorConfig>,
    gradeLevels: seq<GradeLevel>,
    enableGradeLevels: Option<bool>)

  datatype View = ListView | EditorView

  /** The model-management screen: the model list and the editor state. */
  datatype Screen = Screen(
    models: seq<EvaluationModel>,
    current: Option<EvaluationModel>,
    draft: Draft,
    step: int,
    view: View)

  /** The grade levels a new model starts with. */
  const DefaultGradeLevels: seq<GradeLevel> := [
    GradeLevel("g1", "优秀", 90, 100, "#22c55e"),
    GradeLevel("g2", "良好", 80, 89, "#3b82f6"),
    GradeLevel("g3", "中等", 60, 79, "#eab308"),
    GradeLevel("g4", "不合格", 0, 59, "#ef4444")
  ]

  /** The form of a model being created. */
  const NewDraft := Draft("", "V1.0", [], "", Weighted, [], DefaultGradeLevels, Some(true))

  /** The form holding (a deep copy of) an existing model. */
  function DraftOf(m: EvaluationModel): Draft {
    Draft(m.name, m.version, m.tags, m.description, m.scoringMethod, m.indicators, m.gradeLevels, m.enableGradeLevels)
  }

  /** `handleCreateModel`: open an empty editor at the first step. */
  function CreateModel(s: Screen): (r: Screen)
    ensures r.view == EditorView && r.step == 0 && r.current.None?
    ensures r.draft.name == "" && r.draft.version == "V1.0" && r.draft.indicators == []
    ensures r.draft.gradeLevels == DefaultGradeLevels
    ensures r.draft.scoringMethod == Weighted && r.draft.enableGradeLevels == Some(true)
    ensures r.draft.tags == [] && r.draft.description == ""
    ensures r.models == s.models
  {
    s.(current := None, draft := NewDraft, step := 0, view := EditorView)
  }

  /** `handleEditModel`: open the editor on a copy of the model at the first step. */
  function EditModel(s: Screen, m: EvaluationModel): (r: Screen)
    ensures r.view == EditorView && r.step == 0 && r.current == Some(m)
    ensures r.draft.name == m.name && r.draft.indicators == m.indicators && r.draft.gradeLevels == m.gradeLevels
    ensures r.draft.version == m.version && r.draft.tags == m.tags && r.draft.description == m.description
    ensures r.draft.scoringMethod == m.scoringMethod && r.draft.enableGradeLevels == m.enableGradeLevels
    ensures r.models == s.models
  {
    s.(current := Some(m), draft := DraftOf(m), step := 0, view := EditorView)
  }

  // ---------------------------------------------------------------------
  // Saving

  /** The model a save stores: the form, a version, an id, today's date, active. */
  function SavedModel(d: Draft, id: string, today: string): (m: EvaluationModel)
    ensures m.id == id && m.status == ModelActive && m.lastUpdated == today
    ensures m.version != "" && (d.version != "" ==> m.version == d.version)
    ensures DraftOf(m) == d.(version := m.version)
  {
    EvaluationModel(id, d.name, StrOr(d.version, "V1.0"), d.tags, d.description, d.scoringMethod,
                    d.indicators, d.gradeLevels, d.enableGradeLevels, today, ModelActive)
  }

  /** The id a save uses: the edited model's id, or a fresh one when creating (or when that id is empty). */
  function SaveId(s: Screen, freshId: string): string {
    if s.current.Some? then StrOr(s.current.value.id, freshId) else freshId
  }

  function HasId(id: string): EvaluationModel -> bool {
    (m: EvaluationModel) => m.id == id
  }

  function Replace(m: EvaluationModel): EvaluationModel -> EvaluationModel {
    (x: EvaluationModel) => m
  }

  /**
   * `handleSaveModel`: refused while the name is empty. Otherwise the form
   * becomes an active model that replaces every model with the edited
   * model's id, or is appended when creating; the list view returns. The
   * total weight plays no part.
   */
  function SaveModel(s: Screen, freshId: string, today: string): (r: Screen)
    ensures s.draft.name == "" ==> r == s
    ensures s.draft.name != "" ==> r.view == ListView && r.current == s.current && r.draft == s.draft
    ensures s.draft.name != "" && s.current.None? ==>
              r.models == s.models + [SavedModel(s.draft, freshId, today)]
    ensures s.draft.name != "" && s.current.Some? ==>
              |r.models| == |s.models| &&
              (forall i | 0 <= i < |s.models| && s.models[i].id != s.current.value.id :: r.models[i] == s.models[i]) &&
              (forall i | 0 <= i < |s.models| && s.models[i].id == s.current.value.id ::
                 r.models[i] == SavedModel(s.draft, SaveId(s, freshId), today))
  {
    if s.draft.name == "" then s
    else
      var m := SavedModel(s.draft, SaveId(s, freshId), today);
      var models := if s.current.Some? then MapWhere(s.models, HasId(s.current.value.id), Replace(m))
                    else s.models + [m];
      s.(models := models, view := ListView)
  }

  /** Saving leaves the editor exactly when the model has a name. */
  lemma SaveBlockedOnlyByName(s: Screen, freshId: string, today: string)
    requires s.view == EditorView
    ensures SaveModel(s, freshId, today).view == ListView <==> s.draft.name != ""
  {
  }

  /**
   * Saving an unchanged edited model gives back the same list, provided it
   * is active, its id and version are set, and it is saved on the day it
   * was last updated.
   */
  lemma EditThenSaveUnchanged(s: Screen, m: EvaluationModel, freshId: string)
    requires m.name != "" && m.id != "" && m.version != "" && m.status == ModelActive
    requires forall i | 0 <= i < |s.models| && s.models[i].id == m.id :: s.models[i] == m
    ensures SaveModel(EditModel(s, m), freshId, m.lastUpdated).models == s.models
  {
    var e := EditModel(s, m);
    var r := SaveModel(e, freshId, m.lastUpdated);
    assert SavedModel(DraftOf(m), m.id, m.lastUpdated) == m;
    assert r.models == s.models;
  }

  /** A new model saved after creation is appended under the fresh id, version V1.0, active. */
  lemma CreateThenSave(s: Screen, name: string, freshId: string, today: string)
    requires name != ""
    ensures var r := SaveModel(CreateModel(s).(draft := NewDraft.(name := name)), freshId, today);
            |r.models| == |s.models| + 1 && r.models[..|s.models|] == s.models &&
            r.models[|s.models|].id == freshId && r.models[|s.models|].name == name &&
            r.models[|s.models|].version == "V1.0" && r.models[|s.models|].status == ModelActive
  {
    var r := SaveModel(CreateModel(s).(draft := NewDraft.(name := name)), freshId, today);
    assert r.models == s.models + [SavedModel(NewDraft.(name := name), freshId, today)];
    assert r.models[..|s.models|] == s.models;
  }

  // ---------------------------------------------------------------------
  // Deleting and copying

  /** `handleDeleteModel`: once confirmed, drop every model with the id. */
  function DeleteModel(models: seq<EvaluationModel>, id: string, confirmed: bool): (r: seq<EvaluationModel>)
    ensures !confirmed ==> r == models
    ensures confirmed ==> forall i | 0 <= i < |r| :: r[i].id != id
    ensures forall i | 0 <= i < |models| && models[i].id != id :: models[i] in r
    ensures IsSubsequence(r, models)
  {
    if confirmed then
      RemoveKey(models, (m: EvaluationModel) => m.id, id)
    else
      SubsequenceRefl(models);
      models
  }

  /** After confirmation every model with another id stays, as often as it occurred. */
  lemma DeleteModelKeepsOthers(models: seq<EvaluationModel>, id: string)
    ensures forall i | 0 <= i < |models| ::
              multiset(DeleteModel(models, id, true))[models[i]] ==
              if models[i].id != id then multiset(models)[models[i]] else 0
  {
    RemoveKeyMultiset(models, (m: EvaluationModel) => m.id, id);
  }

  /** `handleCopyModel`: append a copy under a fresh id, named "(副本)", version V1.0, dated today, active. */
  function CopyModel(models: seq<EvaluationModel>, m: EvaluationModel, freshId: string, today: string)
    : (r: seq<EvaluationModel>)
    ensures |r| == |models| + 1 && r[..|models|] == models
    ensures r[|models|].id == freshId && r[|models|].name == m.name + " (副本)"
    ensures r[|models|].version == "V1.0" && r[|models|].status == ModelActive && r[|models|].lastUpdated == today
    ensures r[|models|].indicators == m.indicators && r[|models|].gradeLevels == m.gradeLevels
    ensures r[|models|].scoringMethod == m.scoringMethod && r[|models|].tags == m.tags
    // Every other field is the original's.
    ensures r[|models|].(id := m.id, name := m.name, version := m.version,
                         lastUpdated := m.lastUpdated, status := m.status) == m
  {
    var copy := m.(id := freshId, name := m.name + " (副本)", version := "V1.0",
                   lastUpdated := today, status := ModelActive);
    assert (models + [copy])[..|models|] == models;
    models + [copy]
  }

  /** Deleting a copy (under an id no other model has) restores the list. */
  lemma DeleteCopy(models: seq<EvaluationModel>, m: EvaluationModel, freshId: string, today: string)
    requires forall i | 0 <= i < |models| :: models[i].id != freshId
    ensures DeleteModel(CopyModel(models, m, freshId, today), freshId, true) == models
  {
    var key := (x: EvaluationModel) => x.id;
    var copied := CopyModel(models, m, freshId, today);
    assert copied == models + [copied[|models|]];
    RemoveKeyAfterAppend(models, key, copied[|models|]);
    RemoveKeyAbsent(models, key, freshId);
  }

  // ---------------------------------------------------------------------
  // Grade levels of the draft

  function LevelId(g: GradeLevel): string {
    g.id
  }

  /** The level `addGradeLevel` appends. */
  function NewGradeLevel(id: string): GradeLevel {
    GradeLevel(id, "新等级", 0, 10, "#94a3b8")
  }

  datatype GradeLevelEdit =
    | SetLevelName(name: string)
    | SetMinScore(minScore: int)
    | SetMaxScore(maxScore: int)
    | SetColor(color: string)

  function EditGradeLevel(g: GradeLevel, e: GradeLevelEdit): (r: GradeLevel)
    ensures r.id == g.id
  {
    match e
    case SetLevelName(n) => g.(name := n)
    case SetMinScore(v) => g.(minScore := v)
    case SetMaxScore(v) => g.(maxScore := v)
    case SetColor(c) => g.(color := c)
  }

  function ApplyLevelEdit(e: GradeLevelEdit): GradeLevel -> GradeLevel {
    g => EditGradeLevel(g, e)
  }

  /** `addGradeLevel`: append a default level with a fresh id. */
  function AddGradeLevel(d: Draft, freshId: string): (r: Draft)
    ensures r.gradeLevels == d.gradeLevels + [NewGradeLevel(freshId)]
    ensures r.(gradeLevels := d.gradeLevels) == d
  {
    d.(gradeLevels := d.gradeLevels + [NewGradeLevel(freshId)])
  }

  /** `removeGradeLevel`: drop the levels with the id. */
  function RemoveGradeLevel(d: Draft, id: string): (r: Draft)
    ensures forall i | 0 <= i < |r.gradeLevels| :: r.gradeLevels[i].id != id
    ensures forall i | 0 <= i < |d.gradeLevels| && d.gradeLevels[i].id != id :: d.gradeLevels[i] in r.gradeLevels
    ensures IsSubsequence(r.gradeLevels, d.gradeLevels)
    ensures r.(gradeLevels := d.gradeLevels) == d
  {
    d.(gradeLevels := RemoveKey(d.gradeLevels, LevelId, id))
  }

  /** Every level with another id stays, as often as it occurred. */
  lemma RemoveGradeLevelKeepsOthers(d: Draft, id: string)
    ensures forall i | 0 <= i < |d.gradeLevels| ::
              multiset(RemoveGradeLevel(d, id).gradeLevels)[d.gradeLevels[i]] ==
              if d.gradeLevels[i].id != id then multiset(d.gradeLevels)[d.gradeLevels[i]] else 0
  {
    RemoveKeyMultiset(d.gradeLevels, LevelId, id);
  }

  /** `updateGradeLevel`: set one field of the levels with the id. */
  function UpdateGradeLevel(d: Draft, id: string, e: GradeLevelEdit): (r: Draft)
    ensures |r.gradeLevels| == |d.gradeLevels|
    ensures forall i | 0 <= i < |d.gradeLevels| ::
              r.gradeLevels[i].id == d.gradeLevels[i].id &&
              (d.gradeLevels[i].id != id ==> r.gradeLevels[i] == d.gradeLevels[i])
    ensures r.(gradeLevels := d.gradeLevels) == d
  {
    d.(gradeLevels := UpdateKey(d.gradeLevels, LevelId, id, ApplyLevelEdit(e)))
  }

  /** Removing a level just added under a fresh id restores the levels. */
  lemma RemoveAddedGradeLevel(d: Draft, freshId: string)
    requires forall i | 0 <= i < |d.gradeLevels| :: d.gradeLevels[i].id != freshId
    ensures RemoveGradeLevel(AddGradeLevel(d, freshId), freshId) == d
  {
    RemoveKeyAfterAppend(d.gradeLevels, LevelId, NewGradeLevel(freshId));
    RemoveKeyAbsent(d.gradeLevels, LevelId, freshId);
  }

  /** Removing a level after editing it is the same as removing it. */
  lemma RemoveEditedGradeLevel(d: Draft, id: string, e: GradeLevelEdit)
    ensures RemoveGradeLevel(UpdateGradeLevel(d, id, e), id) == RemoveGradeLevel(d, id)
  {
    RemoveKeyAfterUpdate(d.gradeLevels, LevelId, id, ApplyLevelEdit(e));
  }

  // ---------------------------------------------------------------------
  // The wizard

  predicate ValidStep(s: Screen) {
    0 <= s.step <= 2
  }

  /** `handleNextStep`: advance, or save from the last step. */
  function NextStep(s: Screen, freshId: string, today: string): (r: Screen)
    ensures ValidStep(s) ==> ValidStep(r)
    ensures s.step < 2 ==> r == s.(step := s.step + 1)
    ensures s.step >= 2 && s.draft.name != "" ==> r.view == ListView && r.step == s.step
    ensures s.step >= 2 && s.draft.name == "" ==> r == s
    ensures s.step >= 2 ==> r == SaveModel(s, freshId, today)
    ensures s.step >= 2 && s.draft.name != "" && s.current.None? ==>
              r.models == s.models + [SavedModel(s.draft, freshId, today)]
  {
    if s.step < 2 then s.(step := s.step + 1) else SaveModel(s, freshId, today)
  }

  /** `handlePrevStep`: go back, except from the first step. */
  function PrevStep(s: Screen): (r: Screen)
    ensures ValidStep(s) ==> ValidStep(r)
    ensures s.step == 0 ==> r == s
    ensures s.step > 0 ==> r == s.(step := s.step - 1)
  {
    if s.step > 0 then s.(step := s.step - 1) else s
  }

  /** Back undoes forward before the last step, and forward undoes back after the first. */
  lemma NextPrevInverse(s: Screen, freshId: string, today: string)
    requires ValidStep(s)
    ensures s.step < 2 ==> PrevStep(NextStep(s, freshId, today)) == s
    ensures s.step > 0 ==> NextStep(PrevStep(s), freshId, today) == s
  {
  }
}

=== FILE: numtext.dfy ===
/**
 * Decimal text of the integers the console interpolates into its rule
 * descriptions (`${n}` in a template literal), and a small scanner that
 * reads such text back. The scanner exists so that the descriptions can be
 * shown to determine the rule parameters they display.
 */
module NumText {
  import opened Common

  predicate IsDigit(c: char) {
    '0' <= c <= '9'
  }

  function DigitChar(d: nat): (c: char)
    requires d < 10
    ensures IsDigit(c)
  {
    "0123456789"[d]
  }

  function DigitValue(c: char): (d: nat)
    requires IsDigit(c)
    ensures d < 10
  {
    c as int - '0' as int
  }

  predicate AllDigits(s: string) {
    forall i | 0 <= i < |s| :: IsDigit(s[i])
  }

  /** Decimal digits of `n`, most significant first, with no leading zero. */
  function NatToString(n: nat): (s: string)
    ensures |s| > 0 && AllDigits(s)
    decreases n
  {
    if n < 10 then [DigitChar(n)] else NatToString(n / 10) + [DigitChar(n % 10)]
  }

  /** JavaScript's text of an integer number: a minus sign, then the digits. */
  function IntToString(n: int): (s: string)
    ensures |s| > 0
    ensures IsDigit(s[0]) || s[0] == '-'
  {
    if n < 0 then "-" + NatToString(-n) else NatToString(n)
  }

  /** JavaScript's `${x}` of an optional number: an absent one prints `undefined`. */
  function OptIntToString(o: Option<int>): (s: string)
    ensures |s| > 0
  {
    match o
    case Some(n) => IntToString(n)
    case None => "undefined"
  }

  /** The number a run of digits denotes. */
  function DigitsValue(s: string): nat
    requires AllDigits(s)
    decreases |s|
  {
    if |s| == 0 then 0 else DigitsValue(s[..|s| - 1]) * 10 + DigitValue(s[|s| - 1])
  }

  /** Length of the run of digits at the start of `s`. */
  function DigitRun(s: string): (k: nat)
    ensures k <= |s|
    ensures AllDigits(s[..k])
    ensures k < |s| ==> !IsDigit(s[k])
    decreases |s|
  {
    if |s| > 0 && IsDigit(s[0]) then
      var k := 1 + DigitRun(s[1..]);
      assert s[..k] == [s[0]] + s[1..][..k - 1];
      k
    else 0
  }

  /** `s` does not continue a number: it is empty or starts with a non-digit. */
  predicate StopsNumber(s: string) {
    |s| == 0 || !IsDigit(s[0])
  }

  /** Read `lit` at the start of `s`; the rest of `s` on success. */
  function ReadLit(lit: string, s: string): (r: Option<string>)
    ensures r.Some? ==> s == lit + r.value
  {
    if lit <= s then
      assert s == lit + s[|lit|..];
      Some(s[|lit|..])
    else None
  }

  /** Read an unsigned number of at least one digit. */
  function ReadNat(s: string): (r: Option<(nat, string)>)
    ensures r.Some? ==> |r.value.1| < |s|
  {
    var k := DigitRun(s);
    if k == 0 then None else Some((DigitsValue(s[..k]), s[k..]))
  }

  /** Read an integer: an optional minus sign, then digits. */
  function ReadInt(s: string): (r: Option<(int, string)>)
    ensures r.Some? ==> |r.value.1| < |s|
  {
    if |s| > 0 && s[0] == '-' then
      match ReadNat(s[1..])
      case Some((n, rest)) => var m: int := n; Some((-m, rest))
      case None => None
    else
      match ReadNat(s)
      case Some((n, rest)) => Some((n as int, rest))
      case None => None
  }

  /** Read an optional number: `undefined`, or an integer. */
  function ReadOptInt(s: string): (r: Option<(Option<int>, string)>)
    ensures r.Some? ==> |r.value.1| < |s|
  {
    match ReadLit("undefined", s)
    case Some(rest) => Some((None, rest))
    case None =>
      match ReadInt(s)
      case Some((n, rest)) => Some((Some(n), rest))
      case None => None
  }

  /** `p` is not a prefix of `s` when they differ at a position both have. */
  lemma NotPrefixAt(p: string, s: string, i: nat)
    requires i < |p| && i < |s| && p[i] != s[i]
    ensures !(p <= s)
  {
  }

  lemma ReadLitAppend(lit: string, rest: string)
    ensures ReadLit(lit, lit + rest) == Some(rest)
  {
    assert (lit + rest)[|lit|..] == rest;
  }

  /** The digits of `n` denote `n`. */
  lemma {:induction false} DigitsOfNat(n: nat)
    ensures DigitsValue(NatToString(n)) == n
    decreases n
  {
    var s := NatToString(n);
    if n >= 10 {
      DigitsOfNat(n / 10);
      assert s[..|s| - 1] == NatToString(n / 10);
    }
  }

  /** The digit run of `ds + rest` is exactly `ds` when `rest` cannot continue it. */
  lemma {:induction false} DigitRunOfAppend(ds: string, rest: string)
    requires AllDigits(ds) && StopsNumber(rest)
    ensures DigitRun(ds + rest) == |ds|
    decreases |ds|
  {
    if |ds| > 0 {
      assert (ds + rest)[1..] == ds[1..] + rest;
      DigitRunOfAppend(ds[1..], rest);
    }
  }

  /** Reading back the text of a natural number. */
  lemma {:induction false} ReadNatRoundTrip(n: nat, rest: string)
    requires StopsNumber(rest)
    ensures ReadNat(NatToString(n) + rest) == Some((n, rest))
  {
    var ds := NatToString(n);
    DigitRunOfAppend(ds, rest);
    assert (ds + rest)[..|ds|] == ds;
    assert (ds + rest)[|ds|..] == rest;
    DigitsOfNat(n);
  }

  /** Reading back the text of an integer gives the integer and the rest of the text. */
  lemma {:induction false} ReadIntRoundTrip(n: int, rest: string)
    requires StopsNumber(rest)
    ensures ReadInt(IntToString(n) + rest) == Some((n, rest))
  {
    if n < 0 {
      ReadNegativeRoundTrip(n, rest);
    } else {
      ReadNonNegativeRoundTrip(n, rest);
    }
  }

  lemma ReadNegativeRoundTrip(n: int, rest: string)
    requires n < 0 && StopsNumber(rest)
    ensures ReadInt(IntToString(n) + rest) == Some((n, rest))
  {
    NegativeText(n, rest);
    ReadNegativeText(n, rest);
  }

  lemma NegativeText(n: int, rest: string)
    requires n < 0
    ensures IntToString(n) + rest == "-" + (NatToString(-n) + rest)
  {
    assert IntToString(n) == "-" + NatToString(-n);
  }

  lemma ReadNegativeText(n: int, rest: string)
    requires n < 0 && StopsNumber(rest)
    ensures ReadInt("-" + (NatToString(-n) + rest)) == Some((n, rest))
  {
    ReadNatRoundTrip(-n, rest);
    ReadSigned(NatToString(-n) + rest, -n, rest);
  }

  /** A minus sign in front of a natural number reads as its negation. */
  lemma ReadSigned(t: string, m: nat, rest: string)
    requires ReadNat(t) == Some((m, rest))
    ensures ReadInt("-" + t) == Some((-(m as int), rest))
  {
    assert ("-" + t)[0] == '-' && ("-" + t)[1..] == t;
  }

  lemma ReadNonNegativeRoundTrip(n: int, rest: string)
    requires n >= 0 && StopsNumber(rest)
    ensures ReadInt(IntToString(n) + rest) == Some((n, rest))
  {
    var s := IntToString(n) + rest;
    assert s == NatToString(n) + rest;
    assert IsDigit(s[0]);
    ReadNatRoundTrip(n, rest);
  }

  /** Reading back the text of an optional number. */
  lemma {:induction false} ReadOptIntRoundTrip(o: Option<int>, rest: string)
    requires StopsNumber(rest)
    ensures ReadOptInt(OptIntToString(o) + rest) == Some((o, rest))
  {
    match o
    case None =>
      ReadLitAppend("undefined", rest);
    case Some(n) =>
      var t := IntToString(n) + rest;
      assert !("undefined" <= t) by {
        assert t[0] != "undefined"[0];
      }
      ReadIntRoundTrip(n, rest);
  }

  /** Distinct integers have distinct texts. */
  lemma IntToStringInjective(a: int, b: int)
    requires IntToString(a) == IntToString(b)
    ensures a == b
  {
    ReadIntRoundTrip(a, "");
    ReadIntRoundTrip(b, "");
    assert IntToString(a) + "" == IntToString(a);
    assert IntToString(b) + "" == IntToString(b);
  }
}

=== FILE: rule_eval.dfy ===
/**
 * The scoring formulas of the RATIO, DEDUCTION and BONUS rules. The console
 * never evaluates a rule: these formulas are the ones its rule editor labels
 * (value × coefficient; base − value × coefficient; base − count × per-unit;
 * a bonus once the value reaches the trigger) and its record type documents.
 * Absent parameters take the editor's defaults, which apply to an absent
 * field only (a destructuring default), unlike the `||` of the descriptions.
 */
module RuleEval {
  import opened Common
  import opened Types

  function Max(a: int, b: int): int {
    if a < b then b else a
  }

  function Min(a: int, b: int): int {
    if a < b then a else b
  }

  /**
   * Apply an optional floor, then an optional ceiling. Within both bounds a
   * score is left alone.
   */
  function Clamp(x: int, floor: Option<int>, ceiling: Option<int>): (r: int)
    ensures floor.Some? && (ceiling.None? || floor.value <= ceiling.value) ==> floor.value <= r
    ensures ceiling.Some? ==> r <= ceiling.value
    ensures (floor.None? || floor.value <= x) && (ceiling.None? || x <= ceiling.value) ==> r == x
    ensures r == x || (floor.Some? && r == floor.value) || (ceiling.Some? && r == ceiling.value)
  {
    var lifted := if floor.Some? then Max(x, floor.value) else x;
    if ceiling.Some? then Min(lifted, ceiling.value) else lifted
  }

  /** Clamping preserves order. */
  lemma ClampMonotone(x: int, y: int, floor: Option<int>, ceiling: Option<int>)
    requires x <= y
    ensures Clamp(x, floor, ceiling) <= Clamp(y, floor, ceiling)
  {
  }

  lemma {:induction false} MulMonotone(a: int, b: int, c: int)
    requires a <= b && 0 <= c
    ensures a * c <= b * c
  {
    var d := b - a;
    assert b * c == a * c + d * c;
  }

  /**
   * The RATIO floor is defined, and no ceiling below it applies (a ceiling
   * exists only for the proportional form).
   */
  predicate RatioFloorHolds(rc: RuleConfig) {
    rc.ratioMin.Some? &&
    (rc.ratioType == Some(RatioDeduction) || rc.ratioMax.None? || rc.ratioMin.value <= rc.ratioMax.value)
  }

  /**
   * RATIO score of an indicator value. Proportional: value × coefficient,
   * with the floor and the ceiling applied. Deduction: base − value ×
   * coefficient, with the floor only (the editor offers no ceiling for it).
   */
  function RatioScore(rc: RuleConfig, v: int): (r: int)
    ensures RatioFloorHolds(rc) ==> rc.ratioMin.value <= r
    ensures rc.ratioType != Some(RatioDeduction) && rc.ratioMax.Some? ==> r <= rc.ratioMax.value
    ensures rc.ratioType == Some(RatioDeduction) ==>
              r == rc.ratioBase.GetOr(100) - v * rc.ratioCoefficient.GetOr(1) ||
              (rc.ratioMin.Some? && r == rc.ratioMin.value)
    // Deduction: the formula itself unless it falls below the floor, the floor otherwise.
    ensures rc.ratioType == Some(RatioDeduction) &&
            (rc.ratioMin.None? || rc.ratioMin.value <= rc.ratioBase.GetOr(100) - v * rc.ratioCoefficient.GetOr(1)) ==>
              r == rc.ratioBase.GetOr(100) - v * rc.ratioCoefficient.GetOr(1)
    ensures rc.ratioType == Some(RatioDeduction) && rc.ratioMin.Some? &&
            rc.ratioBase.GetOr(100) - v * rc.ratioCoefficient.GetOr(1) < rc.ratioMin.value ==>
              r == rc.ratioMin.value
    // Proportional: value × coefficient inside the bounds, the bound it crosses outside them.
    ensures rc.ratioType != Some(RatioDeduction) &&
            (rc.ratioMin.None? || rc.ratioMin.value <= v * rc.ratioCoefficient.GetOr(1)) &&
            (rc.ratioMax.None? || v * rc.ratioCoefficient.GetOr(1) <= rc.ratioMax.value) ==>
              r == v * rc.ratioCoefficient.GetOr(1)
    ensures rc.ratioType != Some(RatioDeduction) && rc.ratioMax.Some? &&
            (rc.ratioMax.value < v * rc.ratioCoefficient.GetOr(1) ||
             (rc.ratioMin.Some? && rc.ratioMax.value < rc.ratioMin.value)) ==>
              r == rc.ratioMax.value
    ensures rc.ratioType != Some(RatioDeduction) && rc.ratioMin.Some? &&
            v * rc.ratioCoefficient.GetOr(1) < rc.ratioMin.value &&
            (rc.ratioMax.None? || rc.ratioMin.value <= rc.ratioMax.value) ==>
              r == rc.ratioMin.value
  {
    var coefficient := rc.ratioCoefficient.GetOr(1);
    if rc.ratioType == Some(RatioDeduction) then
      Clamp(rc.ratioBase.GetOr(100) - v * coefficient, rc.ratioMin, None)
    else
      Clamp(v * coefficient, rc.ratioMin, rc.ratioMax)
  }

  /** A proportional RATIO rule with a non-negative coefficient rewards a larger value. */
  lemma {:induction false} RatioProportionalMonotone(rc: RuleConfig, v1: int, v2: int)
    requires rc.ratioType != Some(RatioDeduction)
    requires rc.ratioCoefficient.GetOr(1) >= 0
    requires v1 <= v2
    ensures RatioScore(rc, v1) <= RatioScore(rc, v2)
  {
    var c := rc.ratioCoefficient.GetOr(1);
    MulMonotone(v1, v2, c);
    ClampMonotone(v1 * c, v2 * c, rc.ratioMin, rc.ratioMax);
  }

  /** A deduction RATIO rule with a non-negative coefficient penalises a larger value. */
  lemma {:induction false} RatioDeductionAntitone(rc: RuleConfig, v1: int, v2: int)
    requires rc.ratioType == Some(RatioDeduction)
    requires rc.ratioCoefficient.GetOr(1) >= 0
    requires v1 <= v2
    ensures RatioScore(rc, v2) <= RatioScore(rc, v1)
  {
    var c := rc.ratioCoefficient.GetOr(1);
    var b := rc.ratioBase.GetOr(100);
    MulMonotone(v1, v2, c);
    ClampMonotone(b - v2 * c, b - v1 * c, rc.ratioMin, None);
  }

  /** DEDUCTION score after `count` violations: base − count × per-unit, never below the floor. */
  function DeductionScore(rc: RuleConfig, count: nat): (r: int)
    ensures r >= rc.deductionMin.GetOr(0)
    ensures r == rc.deductionBase.GetOr(10) - count * rc.deductionPerUnit.GetOr(1) ||
            r == rc.deductionMin.GetOr(0)
    ensures rc.deductionBase.GetOr(10) - count * rc.deductionPerUnit.GetOr(1) >= rc.deductionMin.GetOr(0) ==>
            r == rc.deductionBase.GetOr(10) - count * rc.deductionPerUnit.GetOr(1)
  {
    Max(rc.deductionBase.GetOr(10) - count * rc.deductionPerUnit.GetOr(1), rc.deductionMin.GetOr(0))
  }

  /** More violations never raise a DEDUCTION score when each one costs a non-negative amount. */
  lemma {:induction false} DeductionNonIncreasing(rc: RuleConfig, c1: nat, c2: nat)
    requires rc.deductionPerUnit.GetOr(1) >= 0
    requires c1 <= c2
    ensures DeductionScore(rc, c2) <= DeductionScore(rc, c1)
  {
    MulMonotone(c1, c2, rc.deductionPerUnit.GetOr(1));
  }

  /**
   * BONUS extra points for an indicator value: none below the trigger;
   * from the trigger on, per-unit points for each unit above it, up to the cap.
   */
  function BonusExtra(rc: RuleConfig, v: int): (r: int)
    ensures v < rc.bonusTrigger.GetOr(100) ==> r == 0
    ensures v >= rc.bonusTrigger.GetOr(100) ==> r <= rc.bonusCap.GetOr(5)
    ensures v >= rc.bonusTrigger.GetOr(100) ==>
              r == (v - rc.bonusTrigger.GetOr(100)) * rc.bonusPerUnit.GetOr(1) || r == rc.bonusCap.GetOr(5)
    ensures v >= rc.bonusTrigger.GetOr(100) &&
            (v - rc.bonusTrigger.GetOr(100)) * rc.bonusPerUnit.GetOr(1) <= rc.bonusCap.GetOr(5) ==>
              r == (v - rc.bonusTrigger.GetOr(100)) * rc.bonusPerUnit.GetOr(1)
    ensures v >= rc.bonusTrigger.GetOr(100) &&
            rc.bonusCap.GetOr(5) < (v - rc.bonusTrigger.GetOr(100)) * rc.bonusPerUnit.GetOr(1) ==>
              r == rc.bonusCap.GetOr(5)
  {
    var trigger := rc.bonusTrigger.GetOr(100);
    if v >= trigger then Min((v - trigger) * rc.bonusPerUnit.GetOr(1), rc.bonusCap.GetOr(5)) else 0
  }

  /** With non-negative per-unit points and cap, the bonus lies between 0 and the cap. */
  lemma {:induction false} BonusBounded(rc: RuleConfig, v: int)
    requires rc.bonusPerUnit.GetOr(1) >= 0 && rc.bonusCap.GetOr(5) >= 0
    ensures 0 <= BonusExtra(rc, v) <= rc.bonusCap.GetOr(5)
  {
    var trigger := rc.bonusTrigger.GetOr(100);
    if v >= trigger {
      MulMonotone(0, v - trigger, rc.bonusPerUnit.GetOr(1));
    }
  }

  /** With non-negative per-unit points and cap, a larger value never earns a smaller bonus. */
  lemma {:induction false} BonusMonotone(rc: RuleConfig, v1: int, v2: int)
    requires rc.bonusPerUnit.GetOr(1) >= 0 && rc.bonusCap.GetOr(5) >= 0
    requires v1 <= v2
    ensures BonusExtra(rc, v1) <= BonusExtra(rc, v2)
  {
    var trigger := rc.bonusTrigger.GetOr(100);
    BonusBounded(rc, v2);
    if v1 >= trigger {
      MulMonotone(v1 - trigger, v2 - trigger, rc.bonusPerUnit.GetOr(1));
    }
  }
}

=== FILE: rule_text.dfy ===
/**
 * The scoring-rule description the model editor generates for one indicator
 * configuration ("smart interpretation"), and what that description shows.
 *
 * `Interpretation` follows the editor's template strings. `ViewOf` states,
 * independently, which parameters the description is meant to display once
 * the editor's JavaScript defaults are applied. `ParseDescription` reads a
 * description back, and `InterpretationRoundTrip` proves that reading the
 * description of any configuration yields exactly its view: the text
 * determines every parameter it displays.
 */
module RuleText {
  import opened Common
  import opened Lists
  import opened NumText
  import opened Types

  // ---------------------------------------------------------------------
  // What a description shows

  /** A threshold band as displayed: no id, and a second value only for `Range`. */
  datatype BandView = BandView(operator: Operator, value1: int, value2: Option<int>, score: int)

  /** A grade-mapping pair as displayed. */
  datatype GradePair = GradePair(name: string, score: int)

  /** The displayed content of a rule description, one variant per rule kind. */
  datatype RuleView =
    | NoRule
    | ThresholdView(bands: seq<BandView>)
    | RatioDeductionView(base: int, coefficient: int, floor: Option<int>)
    | RatioProportionalView(coefficient: int, floor: Option<int>, ceiling: Option<int>)
    | GradeMapView(pairs: seq<GradePair>)
    | DeductionView(base: int, perUnit: int, floor: Option<int>)
    | BonusView(trigger: Option<int>, bonusPerUnit: Option<int>, cap: Option<int>)

  function BandViewOf(t: ThresholdItem): BandView {
    BandView(t.operator, t.value1, if t.operator == Range then t.value2 else None, t.score)
  }

  function BandViews(ts: seq<ThresholdItem>): seq<BandView> {
    seq(|ts|, i requires 0 <= i < |ts| => BandViewOf(ts[i]))
  }

  function GradePairs(gs: seq<GradeMapItem>): seq<GradePair> {
    seq(|gs|, i requires 0 <= i < |gs| => GradePair(gs[i].gradeName, gs[i].score))
  }

  /**
   * The content each rule kind is meant to display: a RATIO base and
   * coefficient, a DEDUCTION base and per-unit amount fall back to their
   * defaults when absent or zero; floors show whenever they are defined;
   * a proportional ceiling shows only when non-zero; BONUS parameters show
   * as they are, absent ones included; threshold and grade lists show in
   * order, an absent list like an empty one.
   */
  function ViewOf(c: ModelIndicatorConfig): RuleView {
    if c.ruleType.None? || c.ruleConfig.None? then NoRule
    else
      var rc := c.ruleConfig.value;
      match c.ruleType.value
      case Threshold => ThresholdView(BandViews(rc.thresholds.GetOr([])))
      case Ratio =>
        if rc.ratioType == Some(RatioDeduction) then
          RatioDeductionView(NumOr(rc.ratioBase, 100), NumOr(rc.ratioCoefficient, 1), rc.ratioMin)
        else
          RatioProportionalView(NumOr(rc.ratioCoefficient, 1), rc.ratioMin,
                                if NumTruthy(rc.ratioMax) then rc.ratioMax else None)
      case GradeMap => GradeMapView(GradePairs(rc.gradeMapping.GetOr([])))
      case Deduction => DeductionView(NumOr(rc.deductionBase, 10), NumOr(rc.deductionPerUnit, 1), rc.deductionMin)
      case Bonus => BonusView(rc.bonusTrigger, rc.bonusPerUnit, rc.bonusCap)
  }

  // ---------------------------------------------------------------------
  // The editor's templates

  function OperatorText(op: Operator): string {
    match op
    case Lt => "<"
    case Le => "<="
    case Gt => ">"
    case Ge => ">="
    case Range => "range"
  }

  /** The condition of a band followed by `tail`: `v1 ~ v2` for a range, `op v1` otherwise. */
  function ConditionThen(t: ThresholdItem, tail: string): string {
    if t.operator == Range then
      IntToString(t.value1) + (" ~ " + (OptIntToString(t.value2) + tail))
    else
      OperatorText(t.operator) + (" " + (IntToString(t.value1) + tail))
  }

  /** Band `k` (counting from 1) followed by `tail`: `[k] 指标值 <condition> 得 <score>分`. */
  function BandThen(k: int, t: ThresholdItem, tail: string): string {
    "[" + (IntToString(k) + ("] 指标值 " + ConditionThen(t, " 得 " + (IntToString(t.score) + ("分" + tail)))))
  }

  function BandText(k: int, t: ThresholdItem): string {
    BandThen(k, t, "")
  }

  /** The band texts, numbered from `first`. */
  function BandTexts(ts: seq<ThresholdItem>, first: int): seq<string>
    decreases |ts|
  {
    if |ts| == 0 then [] else [BandText(first, ts[0])] + BandTexts(ts[1..], first + 1)
  }

  function ThresholdDescription(ts: Option<seq<ThresholdItem>>): string {
    var tList := if ts.Some? then Some(Join("; ", BandTexts(ts.value, 1))) else None;
    OptStrOr(tList, "暂无阈值配置")
  }

  /** An optional `<tag><n>分` piece followed by `tail`; nothing when absent. */
  function LabelledThen(tag: string, o: Option<int>, tail: string): string {
    match o
    case Some(n) => tag + (IntToString(n) + ("分" + tail))
    case None => tail
  }

  function RatioDescription(rc: RuleConfig): string {
    if rc.ratioType == Some(RatioDeduction) then
      "反向计分：得分 = 基础分(" + (IntToString(NumOr(rc.ratioBase, 100)) +
      (") - (指标值 × 系数" + (IntToString(NumOr(rc.ratioCoefficient, 1)) +
      (")。" + LabelledThen("最低得", rc.ratioMin, "。")))))
    else
      "正向计分：得分 = 指标值 × 系数(" + (IntToString(NumOr(rc.ratioCoefficient, 1)) +
      (")。" + LabelledThen("最低分", rc.ratioMin,
                LabelledThen("，最高分", if NumTruthy(rc.ratioMax) then rc.ratioMax else None, "。"))))
  }

  function GradeText(g: GradeMapItem): string {
    g.gradeName + ("=" + (IntToString(g.score) + "分"))
  }

  function GradeTexts(gs: seq<GradeMapItem>): seq<string>
    decreases |gs|
  {
    if |gs| == 0 then [] else [GradeText(gs[0])] + GradeTexts(gs[1..])
  }

  function GradeMapDescription(gs: Option<seq<GradeMapItem>>): string {
    var gList := if gs.Some? then Some(Join("，", GradeTexts(gs.value))) else None;
    "文本映射：" + OptStrOr(gList, "暂无映射")
  }

  function DeductionDescription(rc: RuleConfig): string {
    "基准分" + (IntToString(NumOr(rc.deductionBase, 10)) +
    ("分。每违规1次扣" + (IntToString(NumOr(rc.deductionPerUnit, 1)) +
    ("分。" + LabelledThen("最低得", rc.deductionMin, "。")))))
  }

  function BonusDescription(rc: RuleConfig): string {
    "当指标达到" + (OptIntToString(rc.bonusTrigger) +
    ("%时触发加分。每增加1单位加" + (OptIntToString(rc.bonusPerUnit) +
    ("分。封顶加" + (OptIntToString(rc.bonusCap) + "分。")))))
  }

  /**
   * The description of one indicator configuration. It is empty exactly
   * when the configuration has no rule type or no rule parameters.
   */
  function Interpretation(c: ModelIndicatorConfig): (r: string)
    ensures r == "" <==> c.ruleType.None? || c.ruleConfig.None?
  {
    if c.ruleType.None? || c.ruleConfig.None? then ""
    else
      var rc := c.ruleConfig.value;
      match c.ruleType.value
      case Threshold => ThresholdDescription(rc.thresholds)
      case Ratio => RatioDescription(rc)
      case GradeMap => GradeMapDescription(rc.gradeMapping)
      case Deduction => DeductionDescription(rc)
      case Bonus => BonusDescription(rc)
  }

  // ---------------------------------------------------------------------
  // Reading a description back

  function ReadOperator(s: string): Option<(Operator, string)> {
    if "<=" <= s then Some((Le, s[2..]))
    else if "<" <= s then Some((Lt, s[1..]))
    else if ">=" <= s then Some((Ge, s[2..]))
    else if ">" <= s then Some((Gt, s[1..]))
    else None
  }

  /** Read a band condition: `op v1`, or `v1 ~ v2`. */
  function ReadCondition(s: string): (r: Option<(Operator, int, Option<int>, string)>)
    ensures r.Some? ==> |r.value.3| < |s|
  {
    match ReadOperator(s)
    case Some((op, s1)) =>
      (match ReadLit(" ", s1)
       case None => None
       case Some(s2) =>
         match ReadInt(s2)
         case None => None
         case Some((v1, s3)) => Some((op, v1, None, s3)))
    case None =>
      match ReadInt(s)
      case None => None
      case Some((v1, s1)) =>
        match ReadLit(" ~ ", s1)
        case None => None
        case Some(s2) =>
          match ReadOptInt(s2)
          case None => None
          case Some((v2, s3)) => Some((Range, v1, v2, s3))
  }

  /** Read band number `k`. */
  function ReadBand(s: string, k: int): (r: Option<(BandView, string)>)
    ensures r.Some? ==> |r.value.1| < |s|
  {
    match ReadLit("[", s)
    case None => None
    case Some(s1) =>
      match ReadInt(s1)
      case None => None
      case Some((n, s2)) =>
        if n != k then None
        else match ReadLit("] 指标值 ", s2)
        case None => None
        case Some(s3) =>
          match ReadCondition(s3)
          case None => None
          case Some((op, v1, v2, s4)) =>
            match ReadLit(" 得 ", s4)
            case None => None
            case Some(s5) =>
              match ReadInt(s5)
              case None => None
              case Some((score, s6)) =>
                match ReadLit("分", s6)
                case None => None
                case Some(s7) => Some((BandView(op, v1, v2, score), s7))
  }

  /** Read `; `-separated bands numbered from `k` up to the end of `s`. */
  function ReadBands(s: string, k: int): Option<seq<BandView>>
    decreases |s|
  {
    match ReadBand(s, k)
    case None => None
    case Some((b, rest)) =>
      if rest == "" then Some([b])
      else match ReadLit("; ", rest)
      case None => None
      case Some(more) =>
        match ReadBands(more, k + 1)
        case None => None
        case Some(bs) => Some([b] + bs)
  }

  function ReadThresholds(s: string): Option<RuleView> {
    if s == "暂无阈值配置" then Some(ThresholdView([]))
    else match ReadBands(s, 1)
    case None => None
    case Some(bs) => Some(ThresholdView(bs))
  }

  /** Read an optional `<tag><n>分` piece. */
  function ReadLabelled(tag: string, s: string): Option<(Option<int>, string)> {
    match ReadLit(tag, s)
    case None => Some((None, s))
    case Some(s1) =>
      match ReadInt(s1)
      case None => None
      case Some((n, s2)) =>
        match ReadLit("分", s2)
        case None => None
        case Some(s3) => Some((Some(n), s3))
  }

  function ReadRatioDeduction(s: string): Option<RuleView> {
    match ReadLit("反向计分：得分 = 基础分(", s)
    case None => None
    case Some(s1) =>
      match ReadInt(s1)
      case None => None
      case Some((base, s2)) =>
        match ReadLit(") - (指标值 × 系数", s2)
        case None => None
        case Some(s3) =>
          match ReadInt(s3)
          case None => None
          case Some((coef, s4)) =>
            match ReadLit(")。", s4)
            case None => None
            case Some(s5) =>
              match ReadLabelled("最低得", s5)
              case None => None
              case Some((floor, s6)) =>
                if s6 == "。" then Some(RatioDeductionView(base, coef, floor)) else None
  }

  function ReadRatioProportional(s: string): Option<RuleView> {
    match ReadLit("正向计分：得分 = 指标值 × 系数(", s)
    case None => None
    case Some(s1) =>
      match ReadInt(s1)
      case None => None
      case Some((coef, s2)) =>
        match ReadLit(")。", s2)
        case None => None
        case Some(s3) =>
          match ReadLabelled("最低分", s3)
          case None => None
          case Some((floor, s4)) =>
            match ReadLabelled("，最高分", s4)
            case None => None
            case Some((ceiling, s5)) =>
              if s5 == "。" then Some(RatioProportionalView(coef, floor, ceiling)) else None
  }

  /** Split `s` before its first `=`. */
  function ReadName(s: string): (r: Option<(string, string)>)
    ensures r.Some? ==> s == r.value.0 + r.value.1 && |r.value.1| > 0 && r.value.1[0] == '='
    decreases |s|
  {
    if |s| == 0 then None
    else if s[0] == '=' then Some(("", s))
    else
      match ReadName(s[1..])
      case None => None
      case Some((name, rest)) =>
        assert s == [s[0]] + s[1..];
        Some(([s[0]] + name, rest))
  }

  function ReadGradePair(s: string): (r: Option<(GradePair, string)>)
    ensures r.Some? ==> |r.value.1| < |s|
  {
    match ReadName(s)
    case None => None
    case Some((name, s1)) =>
      match ReadLit("=", s1)
      case None => None
      case Some(s2) =>
        match ReadInt(s2)
        case None => None
        case Some((score, s3)) =>
          match ReadLit("分", s3)
          case None => None
          case Some(s4) => Some((GradePair(name, score), s4))
  }

  function ReadGradePairs(s: string): Option<seq<GradePair>>
    decreases |s|
  {
    match ReadGradePair(s)
    case None => None
    case Some((g, rest)) =>
      if rest == "" then Some([g])
      else match ReadLit("，", rest)
      case None => None
      case Some(more) =>
        match ReadGradePairs(more)
        case None => None
        case Some(gs) => Some([g] + gs)
  }

  function ReadGradeMap(s: string): Option<RuleView> {
    match ReadLit("文本映射：", s)
    case None => None
    case Some(s1) =>
      if s1 == "暂无映射" then Some(GradeMapView([]))
      else match ReadGradePairs(s1)
      case None => None
      case Some(gs) => Some(GradeMapView(gs))
  }

  function ReadDeduction(s: string): Option<RuleView> {
    match ReadLit("基准分", s)
    case None => None
    case Some(s1) =>
      match ReadInt(s1)
      case None => None
      case Some((base, s2)) =>
        match ReadLit("分。每违规1次扣", s2)
        case None => None
        case Some(s3) =>
          match ReadInt(s3)
          case None => None
          case Some((per, s4)) =>
            match ReadLit("分。", s4)
            case None => None
            case Some(s5) =>
              match ReadLabelled("最低得", s5)
              case None => None
              case Some((floor, s6)) =>
                if s6 == "。" then Some(DeductionView(base, per, floor)) else None
  }

  function ReadBonus(s: string): Option<RuleView> {
    match ReadLit("当指标达到", s)
    case None => None
    case Some(s1) =>
      match ReadOptInt(s1)
      case None => None
      case Some((trigger, s2)) =>
        match ReadLit("%时触发加分。每增加1单位加", s2)
        case None => None
        case Some(s3) =>
          match ReadOptInt(s3)
          case None => None
          case Some((per, s4)) =>
            match ReadLit("分。封顶加", s4)
            case None => None
            case Some(s5) =>
              match ReadOptInt(s5)
              case None => None
              case Some((cap, s6)) =>
                if s6 == "分。" then Some(BonusView(trigger, per, cap)) else None
  }

  /** Read a whole description; the first character tells the rule kind. */
  function ParseDescription(s: string): Option<RuleView> {
    if s == "" then Some(NoRule)
    else if s[0] == '反' then ReadRatioDeduction(s)
    else if s[0] == '正' then ReadRatioProportional(s)
    else if s[0] == '文' then ReadGradeMap(s)
    else if s[0] == '基' then ReadDeduction(s)
    else if s[0] == '当' then ReadBonus(s)
    else ReadThresholds(s)
  }

  // ---------------------------------------------------------------------
  // Round trip

  lemma ReadLabelledRoundTrip(tag: string, o: Option<int>, tail: string)
    requires |tag| > 0 && |tail| > 0 && tail[0] != tag[0] && !IsDigit(tail[0])
    ensures ReadLabelled(tag, LabelledThen(tag, o, tail)) == Some((o, tail))
  {
    match o
    case None =>
      NotPrefixAt(tag, tail, 0);
    case Some(n) =>
      ReadLitAppend(tag, IntToString(n) + ("分" + tail));
      ReadIntRoundTrip(n, "分" + tail);
      ReadLitAppend("分", tail);
  }

  lemma ReadOperatorRoundTrip(op: Operator, rest: string)
    requires op != Range && |rest| > 0 && rest[0] == ' '
    ensures ReadOperator(OperatorText(op) + rest) == Some((op, rest))
  {
    var s := OperatorText(op) + rest;
    match op
    case Lt =>
      assert s[1] == ' ';
      NotPrefixAt("<=", s, 1);
      assert "<" <= s;
      assert s[1..] == rest;
    case Le =>
      assert "<=" <= s;
      assert s[2..] == rest;
    case Gt =>
      assert s[0] == '>' && s[1] == ' ';
      NotPrefixAt("<=", s, 0);
      NotPrefixAt("<", s, 0);
      NotPrefixAt(">=", s, 1);
      assert ">" <= s;
      assert s[1..] == rest;
    case Ge =>
      assert s[0] == '>';
      NotPrefixAt("<=", s, 0);
      NotPrefixAt("<", s, 0);
      assert ">=" <= s;
      assert s[2..] == rest;
  }

  lemma ReadConditionRoundTrip(t: ThresholdItem, tail: string)
    requires |tail| > 0 && tail[0] == ' '
    ensures ReadCondition(ConditionThen(t, tail)) ==
            Some((t.operator, t.value1, BandViewOf(t).value2, tail))
  {
    var s := ConditionThen(t, tail);
    if t.operator == Range {
      var v2Tail := OptIntToString(t.value2) + tail;
      var afterV1 := " ~ " + v2Tail;
      var v1 := IntToString(t.value1);
      assert s == v1 + afterV1;
      assert s[0] == v1[0];
      NotPrefixAt("<=", s, 0);
      NotPrefixAt("<", s, 0);
      NotPrefixAt(">=", s, 0);
      NotPrefixAt(">", s, 0);
      ReadIntRoundTrip(t.value1, afterV1);
      ReadLitAppend(" ~ ", v2Tail);
      ReadOptIntRoundTrip(t.value2, tail);
    } else {
      var rest := IntToString(t.value1) + tail;
      ReadOperatorRoundTrip(t.operator, " " + rest);
      ReadLitAppend(" ", rest);
      ReadIntRoundTrip(t.value1, tail);
    }
  }

  lemma ReadBandRoundTrip(k: int, t: ThresholdItem, tail: string)
    ensures ReadBand(BandThen(k, t, tail), k) == Some((BandViewOf(t), tail))
  {
    var afterScore := "分" + tail;
    var afterCond := " 得 " + (IntToString(t.score) + afterScore);
    var afterIndex := "] 指标值 " + ConditionThen(t, afterCond);
    ReadLitAppend("[", IntToString(k) + afterIndex);
    ReadIntRoundTrip(k, afterIndex);
    ReadLitAppend("] 指标值 ", ConditionThen(t, afterCond));
    ReadConditionRoundTrip(t, afterCond);
    ReadLitAppend(" 得 ", IntToString(t.score) + afterScore);
    ReadIntRoundTrip(t.score, afterScore);
    ReadLitAppend("分", tail);
  }

  lemma ConditionThenAppend(t: ThresholdItem, x: string, y: string)
    ensures ConditionThen(t, x) + y == ConditionThen(t, x + y)
  {
    if t.operator == Range {
      var a := IntToString(t.value1);
      var b := OptIntToString(t.value2);
      AppendAssoc(a, " ~ " + (b + x), y);
      AppendAssoc(" ~ ", b + x, y);
      AppendAssoc(b, x, y);
    } else {
      var a := OperatorText(t.operator);
      var b := IntToString(t.value1);
      AppendAssoc(a, " " + (b + x), y);
      AppendAssoc(" ", b + x, y);
      AppendAssoc(b, x, y);
    }
  }

  lemma BandThenAppend(k: int, t: ThresholdItem, x: string, y: string)
    ensures BandThen(k, t, x) + y == BandThen(k, t, x + y)
  {
    var kt := IntToString(k);
    var st := IntToString(t.score);
    var cond := ConditionThen(t, " 得 " + (st + ("分" + x)));
    AppendAssoc("[", kt + ("] 指标值 " + cond), y);
    AppendAssoc(kt, "] 指标值 " + cond, y);
    AppendAssoc("] 指标值 ", cond, y);
    ConditionThenAppend(t, " 得 " + (st + ("分" + x)), y);
    AppendAssoc(" 得 ", st + ("分" + x), y);
    AppendAssoc(st, "分" + x, y);
    AppendAssoc("分", x, y);
  }

  lemma BandTextThen(k: int, t: ThresholdItem, tail: string)
    ensures BandText(k, t) + tail == BandThen(k, t, tail)
  {
    BandThenAppend(k, t, "", tail);
    assert "" + tail == tail;
  }

  /** Bands numbered from `k` and joined with `; ` read back as their views. */
  lemma {:induction false} ReadBandsRoundTrip(ts: seq<ThresholdItem>, k: int)
    requires |ts| > 0
    ensures ReadBands(Join("; ", BandTexts(ts, k)), k) == Some(BandViews(ts))
    decreases |ts|
  {
    if |ts| == 1 {
      ReadOneBand(ts, k);
    } else {
      ReadBandsRoundTrip(ts[1..], k + 1);
      ReadBandsStep(ts, k);
    }
  }

  /** `ReadBands` on a text holding one band. */
  lemma ReadBandsLast(s: string, k: int, b: BandView)
    requires ReadBand(s, k) == Some((b, ""))
    ensures ReadBands(s, k) == Some([b])
  {
  }

  /** `ReadBands` on a band followed by `; ` and a text that reads back. */
  lemma ReadBandsMore(s: string, k: int, b: BandView, more: string, bs: seq<BandView>)
    requires ReadBand(s, k) == Some((b, "; " + more))
    requires ReadBands(more, k + 1) == Some(bs)
    ensures ReadBands(s, k) == Some([b] + bs)
  {
    ReadLitAppend("; ", more);
  }

  /** A band text, `; ` and a text that reads back, read back together. */
  lemma ReadBandThenMore(k: int, t: ThresholdItem, more: string, bs: seq<BandView>)
    requires ReadBands(more, k + 1) == Some(bs)
    ensures ReadBands(BandThen(k, t, "; " + more), k) == Some([BandViewOf(t)] + bs)
  {
    ReadBandRoundTrip(k, t, "; " + more);
    ReadBandsMore(BandThen(k, t, "; " + more), k, BandViewOf(t), more, bs);
  }

  lemma ReadOneBand(ts: seq<ThresholdItem>, k: int)
    requires |ts| == 1
    ensures ReadBands(Join("; ", BandTexts(ts, k)), k) == Some(BandViews(ts))
  {
    var s := Join("; ", BandTexts(ts, k));
    assert s == BandThen(k, ts[0], "") by {
      assert BandTexts(ts[1..], k + 1) == [];
      BandTextThen(k, ts[0], "");
      assert BandText(k, ts[0]) + "" == BandText(k, ts[0]);
    }
    ReadBandRoundTrip(k, ts[0], "");
    ReadBandsLast(s, k, BandViewOf(ts[0]));
    assert BandViews(ts) == [BandViewOf(ts[0])];
  }

  /** One band in front of a list that already reads back. */
  lemma ReadBandsStep(ts: seq<ThresholdItem>, k: int)
    requires |ts| > 1
    requires ReadBands(Join("; ", BandTexts(ts[1..], k + 1)), k + 1) == Some(BandViews(ts[1..]))
    ensures ReadBands(Join("; ", BandTexts(ts, k)), k) == Some(BandViews(ts))
  {
    var texts := BandTexts(ts, k);
    var restText := Join("; ", BandTexts(ts[1..], k + 1));
    var tail := "; " + restText;
    var s := Join("; ", texts);
    assert s == BandThen(k, ts[0], tail) by {
      BandTextsHead(ts, k);
      BandTextsTail(ts, k);
      JoinCons("; ", texts);
      BandTextThen(k, ts[0], tail);
    }
    ReadBandThenMore(k, ts[0], restText, BandViews(ts[1..]));
    BandViewsCons(ts);
  }

  lemma BandTextsHead(ts: seq<ThresholdItem>, k: int)
    requires |ts| > 0
    ensures BandTexts(ts, k)[0] == BandText(k, ts[0])
  {
  }

  lemma BandTextsTail(ts: seq<ThresholdItem>, k: int)
    requires |ts| > 0
    ensures BandTexts(ts, k)[1..] == BandTexts(ts[1..], k + 1)
  {
  }

  lemma BandViewsCons(ts: seq<ThresholdItem>)
    requires |ts| > 0
    ensures BandViews(ts) == [BandViewOf(ts[0])] + BandViews(ts[1..])
  {
    var l := BandViews(ts);
    var r := [BandViewOf(ts[0])] + BandViews(ts[1..]);
    assert |l| == |r|;
    forall i | 0 <= i < |l|
      ensures l[i] == r[i]
    {
      if i > 0 {
        assert r[i] == BandViews(ts[1..])[i - 1];
      }
    }
  }

  /** A non-empty band list's text starts with `[`. */
  lemma BandsTextStart(ts: seq<ThresholdItem>, k: int)
    requires |ts| > 0
    ensures Join("; ", BandTexts(ts, k))[0] == '['
  {
    var texts := BandTexts(ts, k);
    BandTextsHead(ts, k);
    assert texts[0][0] == '[';
    if |ts| > 1 {
      assert Join("; ", texts) == texts[0] + ("; " + Join("; ", texts[1..]));
    }
  }

  lemma ThresholdRoundTrip(ts: Option<seq<ThresholdItem>>)
    ensures ReadThresholds(ThresholdDescription(ts)) == Some(ThresholdView(BandViews(ts.GetOr([]))))
  {
    if ts.Some? && |ts.value| > 0 {
      var text := Join("; ", BandTexts(ts.value, 1));
      BandsTextStart(ts.value, 1);
      assert ThresholdDescription(ts) == text;
      NotPrefixAt("暂无阈值配置", text, 0);
      ReadBandsRoundTrip(ts.value, 1);
    } else {
      assert ThresholdDescription(ts) == "暂无阈值配置";
      assert BandViews(ts.GetOr([])) == [];
    }
  }

  lemma {:induction false} ReadNameRoundTrip(name: string, rest: string)
    requires forall i | 0 <= i < |name| :: name[i] != '='
    ensures ReadName(name + ("=" + rest)) == Some((name, "=" + rest))
    decreases |name|
  {
    var s := name + ("=" + rest);
    if |name| == 0 {
      assert s == "=" + rest;
      assert s[0] == '=';
    } else {
      assert s[0] == name[0] && s[0] != '=';
      assert s[1..] == name[1..] + ("=" + rest);
      ReadNameRoundTrip(name[1..], rest);
      assert [s[0]] + name[1..] == name;
    }
  }

  lemma GradeTextThen(g: GradeMapItem, tail: string)
    ensures GradeText(g) + tail == g.gradeName + ("=" + (IntToString(g.score) + ("分" + tail)))
  {
    var st := IntToString(g.score);
    AppendAssoc(g.gradeName, "=" + (st + "分"), tail);
    AppendAssoc("=", st + "分", tail);
    AppendAssoc(st, "分", tail);
  }

  lemma ReadGradePairRoundTrip(g: GradeMapItem, tail: string)
    requires PlainName(g.gradeName)
    ensures ReadGradePair(GradeText(g) + tail) == Some((GradePair(g.gradeName, g.score), tail))
  {
    GradeTextThen(g, tail);
    ReadNameRoundTrip(g.gradeName, IntToString(g.score) + ("分" + tail));
    ReadLitAppend("=", IntToString(g.score) + ("分" + tail));
    ReadIntRoundTrip(g.score, "分" + tail);
    ReadLitAppend("分", tail);
  }

  /** The name contains no `=`, the separator between a name and its score. */
  predicate PlainName(name: string) {
    forall i | 0 <= i < |name| :: name[i] != '='
  }

  /** No grade name contains `=`. */
  predicate PlainGradeNames(gs: seq<GradeMapItem>) {
    forall i | 0 <= i < |gs| :: PlainName(gs[i].gradeName)
  }

  /** A grade pair, `，` and a text that reads back, read back together. */
  lemma ReadGradePairThenMore(g: GradeMapItem, more: string, ps: seq<GradePair>)
    requires PlainName(g.gradeName)
    requires ReadGradePairs(more) == Some(ps)
    ensures ReadGradePairs(GradeText(g) + ("，" + more)) == Some([GradePair(g.gradeName, g.score)] + ps)
  {
    ReadGradePairRoundTrip(g, "，" + more);
    ReadLitAppend("，", more);
  }

  /** A single grade pair reads back. */
  lemma ReadGradePairOnly(g: GradeMapItem)
    requires PlainName(g.gradeName)
    ensures ReadGradePairs(GradeText(g)) == Some([GradePair(g.gradeName, g.score)])
  {
    ReadGradePairRoundTrip(g, "");
    assert GradeText(g) + "" == GradeText(g);
  }

  lemma GradePairsCons(gs: seq<GradeMapItem>)
    requires |gs| > 0
    ensures GradePairs(gs) == [GradePair(gs[0].gradeName, gs[0].score)] + GradePairs(gs[1..])
  {
    var l := GradePairs(gs);
    var r := [GradePair(gs[0].gradeName, gs[0].score)] + GradePairs(gs[1..]);
    assert |l| == |r|;
    forall i | 0 <= i < |l|
      ensures l[i] == r[i]
    {
      if i > 0 {
        assert r[i] == GradePairs(gs[1..])[i - 1];
      }
    }
  }

  lemma PlainGradeNamesTail(gs: seq<GradeMapItem>)
    requires |gs| > 0 && PlainGradeNames(gs)
    ensures PlainName(gs[0].gradeName) && PlainGradeNames(gs[1..])
  {
    assert forall i | 0 <= i < |gs| - 1 :: gs[1..][i] == gs[i + 1];
  }

  /** One grade pair in front of a list that already reads back. */
  lemma ReadGradePairsStep(gs: seq<GradeMapItem>)
    requires |gs| > 1 && PlainName(gs[0].gradeName)
    requires ReadGradePairs(Join("，", GradeTexts(gs[1..]))) == Some(GradePairs(gs[1..]))
    ensures ReadGradePairs(Join("，", GradeTexts(gs))) == Some(GradePairs(gs))
  {
    var restText := Join("，", GradeTexts(gs[1..]));
    JoinCons("，", GradeTexts(gs));
    ReadGradePairThenMore(gs[0], restText, GradePairs(gs[1..]));
    GradePairsCons(gs);
  }

  lemma {:induction false} ReadGradePairsRoundTrip(gs: seq<GradeMapItem>)
    requires |gs| > 0 && PlainGradeNames(gs)
    ensures ReadGradePairs(Join("，", GradeTexts(gs))) == Some(GradePairs(gs))
    decreases |gs|
  {
    PlainGradeNamesTail(gs);
    if |gs| == 1 {
      assert GradeTexts(gs) == [GradeText(gs[0])];
      assert Join("，", GradeTexts(gs)) == GradeText(gs[0]);
      ReadGradePairOnly(gs[0]);
      assert GradePairs(gs) == [GradePair(gs[0].gradeName, gs[0].score)];
    } else {
      ReadGradePairsRoundTrip(gs[1..]);
      ReadGradePairsStep(gs);
    }
  }

  /** In a grade text, the character after the name is the `=` separator. */
  lemma GradeTextSeparator(g: GradeMapItem)
    ensures |GradeText(g)| > |g.gradeName| && GradeText(g)[|g.gradeName|] == '='
  {
    GradeTextThen(g, "");
    assert GradeText(g) + "" == GradeText(g);
  }

  /** A join starts with its first part. */
  lemma JoinStartsWithFirst(sep: string, parts: seq<string>)
    requires |parts| > 0
    ensures |Join(sep, parts)| >= |parts[0]| && Join(sep, parts)[..|parts[0]|] == parts[0]
  {
    if |parts| > 1 {
      JoinCons(sep, parts);
    }
  }

  lemma GradeMapRoundTrip(gs: Option<seq<GradeMapItem>>)
    requires gs.Some? ==> PlainGradeNames(gs.value)
    ensures ReadGradeMap(GradeMapDescription(gs)) == Some(GradeMapView(GradePairs(gs.GetOr([]))))
  {
    if gs.Some? && |gs.value| > 0 {
      var texts := GradeTexts(gs.value);
      var text := Join("，", texts);
      var g := gs.value[0];
      assert text[|g.gradeName|] == '=' by {
        GradeTextSeparator(g);
        JoinStartsWithFirst("，", texts);
        assert texts[0] == GradeText(g);
        assert text[..|texts[0]|][|g.gradeName|] == '=';
      }
      assert text != "暂无映射" by {
        if |text| == |"暂无映射"| {
          assert "暂无映射"[|g.gradeName|] != '=';
        }
      }
      assert GradeMapDescription(gs) == "文本映射：" + text;
      ReadLitAppend("文本映射：", text);
      ReadGradePairsRoundTrip(gs.value);
    } else {
      ReadLitAppend("文本映射：", "暂无映射");
      assert GradePairs(gs.GetOr([])) == [];
    }
  }

  lemma ReadRatioDeductionRoundTrip(rc: RuleConfig)
    requires rc.ratioType == Some(RatioDeduction)
    ensures ReadRatioDeduction(RatioDescription(rc)) ==
            Some(RatioDeductionView(NumOr(rc.ratioBase, 100), NumOr(rc.ratioCoefficient, 1), rc.ratioMin))
  {
    var coef := NumOr(rc.ratioCoefficient, 1);
    var base := NumOr(rc.ratioBase, 100);
    var afterCoef := ")。" + LabelledThen("最低得", rc.ratioMin, "。");
    var afterBase := ") - (指标值 × 系数" + (IntToString(coef) + afterCoef);
    ReadLitAppend("反向计分：得分 = 基础分(", IntToString(base) + afterBase);
    ReadIntRoundTrip(base, afterBase);
    ReadLitAppend(") - (指标值 × 系数", IntToString(coef) + afterCoef);
    ReadIntRoundTrip(coef, afterCoef);
    ReadLitAppend(")。", LabelledThen("最低得", rc.ratioMin, "。"));
    ReadLabelledRoundTrip("最低得", rc.ratioMin, "。");
  }

  lemma ReadRatioProportionalRoundTrip(rc: RuleConfig)
    requires rc.ratioType != Some(RatioDeduction)
    ensures ReadRatioProportional(RatioDescription(rc)) ==
            Some(RatioProportionalView(NumOr(rc.ratioCoefficient, 1), rc.ratioMin,
                                       if NumTruthy(rc.ratioMax) then rc.ratioMax else None))
  {
    var coef := NumOr(rc.ratioCoefficient, 1);
    var ceiling := if NumTruthy(rc.ratioMax) then rc.ratioMax else None;
    var afterFloor := LabelledThen("，最高分", ceiling, "。");
    var afterCoef := ")。" + LabelledThen("最低分", rc.ratioMin, afterFloor);
    ReadLitAppend("正向计分：得分 = 指标值 × 系数(", IntToString(coef) + afterCoef);
    ReadIntRoundTrip(coef, afterCoef);
    ReadLitAppend(")。", LabelledThen("最低分", rc.ratioMin, afterFloor));
    assert afterFloor[0] == '，' || afterFloor[0] == '。';
    ReadLabelledRoundTrip("最低分", rc.ratioMin, afterFloor);
    ReadLabelledRoundTrip("，最高分", ceiling, "。");
  }

  lemma ReadDeductionRoundTrip(rc: RuleConfig)
    ensures ReadDeduction(DeductionDescription(rc)) ==
            Some(DeductionView(NumOr(rc.deductionBase, 10), NumOr(rc.deductionPerUnit, 1), rc.deductionMin))
  {
    var base := NumOr(rc.deductionBase, 10);
    var per := NumOr(rc.deductionPerUnit, 1);
    var afterPer := "分。" + LabelledThen("最低得", rc.deductionMin, "。");
    var afterBase := "分。每违规1次扣" + (IntToString(per) + afterPer);
    ReadLitAppend("基准分", IntToString(base) + afterBase);
    ReadIntRoundTrip(base, afterBase);
    ReadLitAppend("分。每违规1次扣", IntToString(per) + afterPer);
    ReadIntRoundTrip(per, afterPer);
    ReadLitAppend("分。", LabelledThen("最低得", rc.deductionMin, "。"));
    ReadLabelledRoundTrip("最低得", rc.deductionMin, "。");
  }

  lemma ReadBonusRoundTrip(rc: RuleConfig)
    ensures ReadBonus(BonusDescription(rc)) == Some(BonusView(rc.bonusTrigger, rc.bonusPerUnit, rc.bonusCap))
  {
    var afterPer := "分。封顶加" + (OptIntToString(rc.bonusCap) + "分。");
    var afterTrigger := "%时触发加分。每增加1单位加" + (OptIntToString(rc.bonusPerUnit) + afterPer);
    ReadLitAppend("当指标达到", OptIntToString(rc.bonusTrigger) + afterTrigger);
    ReadOptIntRoundTrip(rc.bonusTrigger, afterTrigger);
    ReadLitAppend("%时触发加分。每增加1单位加", OptIntToString(rc.bonusPerUnit) + afterPer);
    ReadOptIntRoundTrip(rc.bonusPerUnit, afterPer);
    ReadLitAppend("分。封顶加", OptIntToString(rc.bonusCap) + "分。");
    ReadOptIntRoundTrip(rc.bonusCap, "分。");
  }

  /** Every grade name of the configuration, if it maps grades, is free of `=`. */
  predicate PlainGradeNamesIn(c: ModelIndicatorConfig) {
    c.ruleConfig.Some? && c.ruleConfig.value.gradeMapping.Some? ==>
      PlainGradeNames(c.ruleConfig.value.gradeMapping.value)
  }

  /**
   * The description of any configuration reads back as exactly the content
   * it is meant to show (grade names containing `=` excepted, as `=` is the
   * separator the grade template itself uses).
   */
  lemma InterpretationRoundTrip(c: ModelIndicatorConfig)
    requires PlainGradeNamesIn(c)
    ensures ParseDescription(Interpretation(c)) == Some(ViewOf(c))
  {
    if c.ruleType.Some? && c.ruleConfig.Some? {
      var rc := c.ruleConfig.value;
      var text := Interpretation(c);
      match c.ruleType.value
      case Threshold =>
        assert text == ThresholdDescription(rc.thresholds);
        if rc.thresholds.Some? && |rc.thresholds.value| > 0 {
          BandsTextStart(rc.thresholds.value, 1);
        }
        assert text[0] == '[' || text[0] == '暂';
        ThresholdRoundTrip(rc.thresholds);
      case Ratio =>
        if rc.ratioType == Some(RatioDeduction) {
          assert text[0] == '反';
          ReadRatioDeductionRoundTrip(rc);
        } else {
          assert text[0] == '正';
          ReadRatioProportionalRoundTrip(rc);
        }
      case GradeMap =>
        assert text[0] == '文';
        GradeMapRoundTrip(rc.gradeMapping);
      case Deduction =>
        assert text[0] == '基';
        ReadDeductionRoundTrip(rc);
      case Bonus =>
        assert text[0] == '当';
        ReadBonusRoundTrip(rc);
    }
  }

  /** Two configurations with the same description show the same content. */
  lemma SameDescriptionSameView(c1: ModelIndicatorConfig, c2: ModelIndicatorConfig)
    requires PlainGradeNamesIn(c1) && PlainGradeNamesIn(c2)
    requires Interpretation(c1) == Interpretation(c2)
    ensures ViewOf(c1) == ViewOf(c2)
  {
    InterpretationRoundTrip(c1);
    InterpretationRoundTrip(c2);
  }
}

=== FILE: types.dfy ===
/**
 * The records of the performance-evaluation console: indicators and their
 * category tree, scoring-rule configurations, evaluation models, data-channel
 * connections and collected data records. Optional fields of the console's
 * records are `Option`s; numbers are integers.
 */
module Types {
  import opened Common

  // ---------------------------------------------------------------------
  // Indicator library

  datatype IndicatorType = Quantitative | Qualitative

  datatype DataSource = AutoCollect | ManualEntry | Calculated

  datatype CalculationType = Visual | Code

  datatype SampleValue = SampleText(text: string) | SampleNumber(number: int)

  /** A metric definition in the indicator library. */
  datatype Indicator = Indicator(
    id: string,
    name: string,
    description: string,
    kind: IndicatorType,
    source: DataSource,
    enabled: bool,
    category: string,
    calculationType: Option<CalculationType>,
    calculationScript: Option<string>,
    unit: Option<string>,
    sampleValue: Option<SampleValue>)

  /**
   * A node of the indicator category tree; `isOpen` is the expansion flag.
   * A node without a `children` list has the empty list: every tree
   * operation treats the two alike.
   */
  datatype CategoryNode = CategoryNode(
    id: string,
    name: string,
    children: seq<CategoryNode>,
    isOpen: Option<bool>)

  // ---------------------------------------------------------------------
  // Scoring rules

  /** The five kinds of scoring rule. */
  datatype RuleType = Threshold | Ratio | GradeMap | Deduction | Bonus

  /** Comparison of a threshold band; `Range` compares against two values. */
  datatype Operator = Lt | Le | Gt | Ge | Range

  /** One threshold band. `value2` is meaningful only for the `Range` operator. */
  datatype ThresholdItem = ThresholdItem(
    id: string,
    operator: Operator,
    value1: int,
    value2: Option<int>,
    score: int)

  /** One text-label-to-score pair of a grade mapping. */
  datatype GradeMapItem = GradeMapItem(id: string, gradeName: string, score: int)

  /** Direction of a RATIO rule: positive proportion, or deduction from a base. */
  datatype RatioType = Proportional | RatioDeduction

  /**
   * The rule parameters of one indicator. As in the console, it is one
   * record holding the fields of every rule kind; which ones matter is
   * decided by the configuration's `ruleType`.
   */
  datatype RuleConfig = RuleConfig(
    fullScore: Option<int>,
    thresholds: Option<seq<ThresholdItem>>,
    ratioType: Option<RatioType>,
    ratioBase: Option<int>,
    ratioCoefficient: Option<int>,
    ratioMin: Option<int>,
    ratioMax: Option<int>,
    gradeMapping: Option<seq<GradeMapItem>>,
    deductionBase: Option<int>,
    deductionPerUnit: Option<int>,
    deductionMin: Option<int>,
    bonusTrigger: Option<int>,
    bonusPerUnit: Option<int>,
    bonusCap: Option<int>)

  /** A rule configuration with no field set (JavaScript `{}`). */
  const EmptyRuleConfig := RuleConfig(None, None, None, None, None, None, None, None, None, None, None, None, None, None)

  /** One indicator bound into a model with its weight, score cap and rule. */
  datatype ModelIndicatorConfig = ModelIndicatorConfig(
    indicatorId: string,
    weight: Option<int>,
    maxScore: Option<int>,
    ruleType: Option<RuleType>,
    ruleConfig: Option<RuleConfig>,
    scoringRuleDesc: Option<string>,
    enableEvidence: Option<bool>,
    requireEvidence: Option<bool>)

  // ---------------------------------------------------------------------
  // Evaluation models

  datatype ScoringMethod = Weighted | ScoreSum

  datatype ModelStatus = ModelActive | ModelDraft | ModelArchived

  /** A named score band used to classify a model's total. */
  datatype GradeLevel = GradeLevel(id: string, name: string, minScore: int, maxScore: int, color: string)

  datatype EvaluationModel = EvaluationModel(
    id: string,
    name: string,
    version: string,
    tags: seq<string>,
    description: string,
    scoringMethod: ScoringMethod,
    indicators: seq<ModelIndicatorConfig>,
    gradeLevels: seq<GradeLevel>,
    enableGradeLevels: Option<bool>,
    lastUpdated: string,
    status: ModelStatus)

  // ---------------------------------------------------------------------
  // Data channel

  datatype ConnectionType = DatabaseConn | ApiConn | FileServerConn

  datatype ConnectionStatus = Connected | ConnectionError | Disconnected

  datatype SyncFrequency = Realtime | Hourly | Daily | Weekly | ManualSync

  datatype AuthType = NoAuth | BasicAuth | BearerAuth | ApiKeyAuth

  datatype ConnectionConfig = ConnectionConfig(
    port: Option<string>,
    username: Option<string>,
    password: Option<string>,
    dbName: Option<string>,
    apiKey: Option<string>,
    authType: Option<AuthType>,
    tableWhitelist: Option<string>)

  /** An external data-source connection. */
  datatype DataConnection = DataConnection(
    id: string,
    name: string,
    kind: ConnectionType,
    host: string,
    status: ConnectionStatus,
    lastSync: string,
    description: string,
    syncFrequency: Option<SyncFrequency>,
    config: Option<ConnectionConfig>)

  datatype RecordValue = TextValue(text: string) | NumberValue(number: int)

  datatype RecordStatus = RecordValid | RecordInvalid

  /** One collected measurement in the data archive. */
  datatype DataRecord = DataRecord(
    id: string,
    objectName: string,
    indicatorName: string,
    value: RecordValue,
    unit: string,
    collectionTime: string,
    batchId: string,
    sourceId: string,
    status: RecordStatus,
    metadata: string)
}
